=== FILE: README.md ===
# Offline-first pharmacy point of sale — a Dafny model of its core

The application is a browser point of sale for a pharmacy. It keeps every
record (medicines, sales, refunds, expenses, local accounts, settings, a
queue of pending remote writes and an audit trail) in local storage, and
it synchronises medicines and expenses with a hosted database whenever it
can. This project models, as pure functions over immutable datatypes, the
parts of it that decide what ends up in the store:

- the sync engine of `src/lib/sync.ts`:
  - the configuration gate;
  - the row mappers;
  - the record merge (`mergeData`);
  - the queue drain;
  - the step order of `fullSync`;
  - the capped audit log;
- the local store of `src/lib/storage.ts`:
  - the action queue and the medicine collection;
  - the local account and permission state machine;
  - the settings overlay and the offline flag;
- the business rules embedded in the pages:
  - the cart (`Billing.tsx`);
  - refunds (`Refunds.tsx`);
  - the medicine form (`MedicineDialog.tsx`);
  - the medicine search and CSV import (`Medicines.tsx`);
  - the approval page (`UserApprovals.tsx`);
  - expenses and their export (`Expenses.tsx`);
  - the audit page (`AuditLogs.tsx`);
  - the report exporters (`Reports.tsx`);
  - the sign-up rules (`Auth.tsx`).

Conventions:

- Local storage is the `Store` record. A key that is missing reads as its
  default, so a missing queue is `[]` and a missing offline flag is `None`.
- Timestamps are integers and money is integer cents. Ids are opaque
  strings, and fresh ids are parameters.
- Everything the code hands to a library or the network is a parameter:
  - the password hash;
  - `parseFloat`;
  - date and number printing;
  - the e-mail check;
  - the remote calls, as result oracles.
- JavaScript's `toLowerCase` is modelled as ASCII case folding.

Modules, one per source component:

- `Wrappers`, `Seqs` and `Text` are the shared vocabulary:
  - `Option` and `Result`;
  - filtering and sums;
  - the JavaScript string operations;
  - the quote doubling of section 2, rule 7 of RFC 4180.
- `Storage` holds the store and the queue and medicine operations.
- `Settings` and `Accounts` cover the rest of `storage.ts`.
- `Merge` is the generic `mergeData`, together with an independent
  reference description (`Reconcile`).
- `Sync` holds the gate, mappers, drain and full sync; `Audit` holds the
  audit trail.
- `Billing`, `Refunds`, `MedicineForm`, `Inventory`, `Approvals`,
  `ExpensesPage`, `AuditView`, `Reports` and `Signup` hold the page rules.

## Model

| member | source | states |
|---|---|---|
| Merge.MergeData | src/lib/sync.ts:307-329 | whatever the inputs, every id present in either list appears in the merge exactly once |
| Merge.MergeIsReconcile | src/lib/sync.ts:311-328 | with unique ids in each list, the insertion-ordered map fold equals the reference result: a winner per remote record in remote order, then the local-only records in local order |
| Merge.MergeShape | src/lib/sync.ts:311-328 | the result starts with one record per remote record in remote order, each the local version exactly when that local record is strictly newer; the local-only records follow in local order |
| Merge.MergeWithEmptyRemote | src/lib/sync.ts:307-329 | merging with an empty remote list gives the local list back |
| Merge.MergeWithEmptyLocal | src/lib/sync.ts:307-329 | merging an empty local list gives the remote list back |
| Merge.MergeIdempotent | src/lib/sync.ts:307-329 | merging the same remote list again changes nothing |
| Merge.NoStampRemoteWins | src/lib/sync.ts:321-325 | for records without an update instant the remote copy of a shared id always wins |
| Merge.Pick | src/lib/sync.ts:318-325 | the surviving version of a remote record has its id and is either that record or a strictly newer local one |
| Merge.LocalOnly | src/lib/sync.ts:319-320 | exactly the local records whose id the remote list lacks, in local order |
| Sync.MergeMedicines | src/lib/sync.ts:276-281 | merged medicines have unique ids and cover the ids of both lists |
| Sync.MedicineConflict | src/lib/sync.ts:321-324 | on a shared id the local medicine replaces the remote one iff its `updatedAt` is strictly later |
| Sync.MergeExpenses | src/lib/sync.ts:284-289 | merged expenses have unique ids and cover the ids of both lists |
| Sync.ExpensesRemoteWins | src/lib/storage.ts:55-62 | expenses carry no `updatedAt`, so the merge is the remote list followed by the local-only expenses |
| Sync.IsConfigured | src/lib/sync.ts:89-97 | the gate is open iff a session exists, the URL contains `supabase.co` and the key does not contain `placeholder` |
| Sync.NullIfEmpty | src/lib/sync.ts:115-119 | '' becomes null, any other text is kept, and reading the column back (null as '') gives the text |
| Sync.OrEmpty | src/lib/sync.ts:133-137 | a null column reads as '', and re-encoding a non-empty value restores it |
| Sync.MedicineToRow | src/lib/sync.ts:110-142 | the row keeps the id, carries the user id, and `mapMedicineFromSupabase` turns it back into the same medicine |
| Sync.MedicineRowRoundTrip | src/lib/sync.ts:110-142 | a row whose text columns are not '' survives the trip through a local record unchanged |
| Sync.ExpenseToRow | src/lib/sync.ts:188-211 | the row is marked synced, keeps the id, and maps back to the same expense |
| Sync.ExpenseRowRoundTrip | src/lib/sync.ts:188-211 | a synced row whose note is not '' survives the trip through a local record unchanged |
| Sync.MedicineRows | src/lib/sync.ts:151-152 | the upsert payload has one row per stored medicine, in order |
| Sync.ExpenseRows | src/lib/sync.ts:220-221 | the upsert payload has one row per stored expense, in order |
| Sync.TableFor | src/lib/sync.ts:248-250 | medicine goes to `medicines`, sale to `sales`, refund to `refunds`, expense to `expenses` |
| Sync.ReplayCall | src/lib/sync.ts:247-259 | create inserts the data, update updates by the data's id, delete deletes by the data's id, always on the action's table |
| Sync.Drain | src/lib/sync.ts:236-243 | every snapshot action is replayed once, in order, and the queue never grows |
| Sync.DrainRemovesCompleted | src/lib/sync.ts:236-243 | the drained queue is the live queue minus the ids whose replay did not throw |
| Sync.ProcessQueue | src/lib/sync.ts:231-244 | a closed gate changes nothing and sends nothing; otherwise every action is replayed in queue order, with no early stop, and exactly the completed ids leave the queue |
| Sync.DrainKeepsFailed | src/lib/sync.ts:236-243 | with distinct ids the queue afterwards is exactly the actions whose replay threw, in their original order |
| Sync.MiddleFailureStays | src/lib/sync.ts:236-243 | when the middle of three replays throws, all three are replayed and only the middle action remains |
| Sync.UserIdOf | src/lib/sync.ts:100-107 | the remote user's id wins, the stored session's id is the fallback, and an empty id counts as none |
| Sync.MedicinesFromRows | src/lib/sync.ts:278 | each pulled row becomes one local medicine, in order |
| Sync.ExpensesFromRows | src/lib/sync.ts:286 | each pulled row becomes one local expense, in order |
| Sync.Persist | src/lib/sync.ts:276-289 | a table that returned data is merged and saved, a table without data is left alone, no local id is lost, and nothing else changes |
| Sync.FullSync | src/lib/sync.ts:262-304 | a closed gate or a lookup without a user id skips the run and changes nothing; a thrown lookup or pull fails it, sets offline=true and saves nothing; otherwise the merge is saved, the saved medicines are pushed, and the run is Synced iff both pushes succeed, in which case the queue is drained in order and offline=false; a failed push keeps the merge and sets offline=true |
| Sync.FailedPushKeepsMerge | src/lib/sync.ts:276-302 | when the medicine push fails, the merged collections stay saved and the application is marked offline |
| Audit.AddLog | src/lib/sync.ts:44-56 | the new entry is last, the length becomes min(old+1, 1000), and only the oldest entries are evicted |
| Audit.AddAllKeepsNewest | src/lib/sync.ts:44-56 | adding entries one at a time keeps exactly the newest 1000 of everything added |
| Audit.NewestAppend | src/lib/sync.ts:49-51 | truncating early or late gives the same newest entries |
| Audit.OverflowDropsOldest | src/lib/sync.ts:44-60 | from a cleared log, 1005 additions leave the last 1000 of them |
| Audit.CreateAuditLog | src/lib/sync.ts:64-84 | the entry carries the given action, type, id and details, the fresh id and the time; a missing session or an empty id gives `unknown`, a missing session or an empty name gives `System`, otherwise the session's values; the log grows by one up to the capacity, the new entry is last and the entries before it are the newest of the old log in order |
| Storage.Enqueue | src/lib/storage.ts:226-230 | `add` appends at the end and keeps earlier entries in order |
| Storage.Without | src/lib/storage.ts:234-237 | the entries whose id is not in the set, in queue order; unchanged when no entry has such an id |
| Storage.WithoutConcat | src/lib/storage.ts:234-237 | removal distributes over a split of the queue |
| Storage.WithoutWithout | src/lib/storage.ts:234-237 | removing two id sets one after the other removes their union |
| Storage.Dequeue | src/lib/storage.ts:234-237 | `remove(id)` drops exactly the entries with that id and is a no-op when the id is absent |
| Storage.DequeueIdempotent | src/lib/storage.ts:234-237 | removing an id twice equals removing it once |
| Storage.DequeueSplits | src/lib/storage.ts:234-237 | removal keeps the survivors in their original relative order |
| Storage.DequeueEnqueued | src/lib/storage.ts:226-237 | adding an action and removing its id leaves the queue as removing alone would |
| Storage.ClearQueue | src/lib/storage.ts:232 | `clear` empties the queue and changes no other key |
| Storage.MedicineIndex | src/lib/storage.ts:169-170 | `findIndex` gives the first medicine with the id, or none exists |
| Storage.FindMedicine | src/lib/storage.ts:169-170 | a medicine is found iff one has the id, and it is the first such one |
| Storage.UpdateMedicine | src/lib/storage.ts:168-175 | only the first record with the id changes, to the patched fields with `updatedAt` refreshed; an absent id leaves the list unchanged |
| Storage.UpdateUnique | src/lib/storage.ts:168-175 | with unique ids, exactly the record with that id is patched |
| Storage.UpdateKeepsUnique | src/lib/storage.ts:168-175 | updating keeps ids unique |
| Storage.DeleteMedicine | src/lib/storage.ts:177-180 | `delete` keeps exactly the records without the id, and an absent id changes nothing |
| Storage.DeleteKeepsOrder | src/lib/storage.ts:177-180 | deletion distributes over a split list and keeps a lone record iff its id differs, so survivors keep their order and multiplicity |
| Storage.SetOffline | src/lib/storage.ts:462-465 | the flag reads back as the value written, and no other key changes |
| Storage.IsOffline | src/lib/storage.ts:463 | the stored flag, with nothing stored reading as online |
| Settings.GetSettings | src/lib/storage.ts:488 | nothing stored reads as the defaults; otherwise the stored settings |
| Settings.SaveSettings | src/lib/storage.ts:490 | saved settings read back unchanged, and no other key changes |
| Settings.UpdateSettings | src/lib/storage.ts:492-496 | every supplied field takes the supplied value, every omitted field keeps its value, and an empty update changes nothing |
| Settings.ResetSettings | src/lib/storage.ts:498 | `reset` makes the settings read as the defaults |
| Settings.UpdateTwice | src/lib/storage.ts:492-496 | two updates in a row equal one update in which the later fields win |
| Settings.UpdateIdempotent | src/lib/storage.ts:492-496 | repeating an update changes nothing more |
| Accounts.DefaultPermissions | src/lib/storage.ts:334-342 | every role's list contains the dashboard and only known pages; only admin gets settings |
| Accounts.DefaultsNested | src/lib/storage.ts:335-340 | cashier's pages are within manager's, manager's and viewer's within admin's, and admin has every page |
| Accounts.Logout | src/lib/storage.ts:322 | logging out clears the session and nothing else |
| Accounts.IsLoggedIn | src/lib/storage.ts:325 | logged in iff a session record is stored |
| Accounts.IsAdmin | src/lib/storage.ts:328-331 | admin iff a session is stored and its recorded role is admin |
| Accounts.SessionChecksIgnoreUsers | src/lib/storage.ts:325-331 | both session checks read the session only: replacing the user list changes neither |
| Accounts.UserIndex | src/lib/storage.ts:352 | the first user with the id, or none has it |
| Accounts.NameIndex | src/lib/storage.ts:294 | the first user whose name equals the given one ignoring case, or none matches |
| Accounts.Register | src/lib/storage.ts:257-289 | a name taken case-insensitively is refused and changes nothing. Otherwise the user is appended: the first becomes an approved, logged-in admin with admin pages; later ones are pending, unapproved, pageless and not logged in |
| Accounts.Login | src/lib/storage.ts:292-313 | fails with the fixed messages for an unknown name, a hash mismatch or an unapproved account, and sets the session only on success |
| Accounts.ApproveUser | src/lib/storage.ts:345-369 | non-admins and unknown ids fail and change nothing; otherwise only the target changes: role, approved, approver, time, and the given pages or the role's defaults |
| Accounts.ChangeUserRole | src/lib/storage.ts:372-397 | non-admins, unknown ids and the caller's own id fail and change nothing; otherwise only the target's role changes |
| Accounts.UpdateUserPermissions | src/lib/storage.ts:400-420 | non-admins and unknown ids fail and change nothing; otherwise only the target's page list is replaced |
| Accounts.RejectUser | src/lib/storage.ts:437-446 | non-admins fail and change nothing; otherwise the kept users are exactly those without the id, and an absent id still succeeds |
| Accounts.RejectKeepsOrder | src/lib/storage.ts:437-446 | rejection distributes over a split user list and keeps a lone user iff its id differs, so the rest keep their order |
| Accounts.PendingUsers | src/lib/storage.ts:449-451 | exactly the users whose role is pending |
| Accounts.PendingKeepsOrder | src/lib/storage.ts:449-451 | the pending list distributes over a split user list and holds a lone user iff pending, so it is in list order |
| Accounts.HasPagePermission | src/lib/storage.ts:423-434 | false with no session or no approved record, true for an admin, otherwise membership of the page in the user's list |
| Accounts.FirstUserIsAdmin | src/lib/storage.ts:266-286 | the first account on an empty store is logged in as admin and may open every page |
| Accounts.RegisteredUserAwaitsApproval | src/lib/storage.ts:273-306 | a later account is pending and cannot log in with its own password until approved |
| Accounts.ApprovalEnablesLogin | src/lib/storage.ts:292-369 | once approved, a user logs in with their password and gets a session with the new role |
| Billing.SetLineQuantity | src/pages/Billing.tsx:72-76 | the lines for the medicine get the new quantity and total = quantity × price; other lines are unchanged |
| Billing.AddToCart | src/pages/Billing.tsx:29-58 | no-op for an unknown medicine; refused when the stock is ≤ 0; with a line for it, refused with Insufficient stock when the first line holds the whole stock, else every line for it grows by one from its own quantity with its total recomputed; without a line, one unit at the sale price is appended with no error; one line per medicine is preserved, and so is the stock bound on a cart with one line per medicine |
| Billing.LineFor | src/pages/Billing.tsx:38 | the first line for the medicine, none iff there is no line |
| Billing.IncrementLines | src/pages/Billing.tsx:44-47 | same length; lines for other medicines are unchanged; each line for the medicine has its own quantity plus one and total (quantity+1)·price |
| Billing.IncrementIsSetOneHigher | src/pages/Billing.tsx:38-47 | on a cart with one line per medicine, incrementing equals setting the first line's quantity plus one |
| Billing.AddOneKeepsBounds | src/pages/Billing.tsx:39-48 | incrementing when the first line is below the stock keeps one line per medicine, and keeps every line within stock on a cart with one line per medicine |
| Billing.TwoLinesGrowSeparately | src/pages/Billing.tsx:38-47 | a cart with two lines of quantities 1 and 3 for a medicine of stock 3 becomes 2 and 4, so the stock bound needs one line per medicine |
| Billing.AppendKeepsBounds | src/pages/Billing.tsx:49-56 | a new one-unit line for an in-stock medicine without a line keeps one line per medicine and the stock bound |
| Billing.UpdateQuantity | src/pages/Billing.tsx:60-77 | refused iff the medicine is unknown or the quantity exceeds its stock; a quantity ≤ 0 is `removeFromCart`; otherwise every line for it gets the quantity and total = quantity × price, other lines untouched; the cart invariants are kept |
| Billing.RemoveFromCart | src/pages/Billing.tsx:79-81 | no line for the id remains and every other line survives |
| Billing.RemoveKeepsOrder | src/pages/Billing.tsx:79-81 | removal distributes over a split cart and keeps a lone line iff it is for another medicine, so the others keep their order |
| Billing.RemoveKeepsOneLine | src/pages/Billing.tsx:79-81 | filtering out one medicine's lines keeps one line per medicine |
| Billing.PrependKeepsLines | src/pages/Billing.tsx:79-81 | keeping a line for another medicine in front of the filtered rest keeps one line per medicine |
| Billing.DeductLineEffect | src/pages/Billing.tsx:118-125 | one stock update subtracts the line's quantity from its medicine (if it still exists) and touches nothing else |
| Billing.DeductStockEffect | src/pages/Billing.tsx:118-125 | after the stock update each medicine has lost exactly what the cart holds for it, and nothing else changed |
| Billing.DoCheckout | src/pages/Billing.tsx:93-136 | an empty cart is refused; otherwise the sale holds the cart, its subtotal, the given discount and tax, their total, payment method `cash`, the credit flag, the time, and the customer name or none when it is empty; it is appended, each medicine's stock drops by the cart's quantity for it, and the cart is emptied |
| Billing.QtyForSingleLine | src/pages/Billing.tsx:118-125 | with one line per medicine, a medicine's stock drops by exactly its line's quantity |
| Billing.QtyForAbsent | src/pages/Billing.tsx:118-125 | a medicine without a line keeps its stock |
| Refunds.ZeroLines | src/pages/Refunds.tsx:38-44 | one refund line per sold line: same medicine and price, quantity and total zero |
| Refunds.Search | src/pages/Refunds.tsx:29-50 | the first sale whose id or customer name contains the query ignoring case, with zeroed refund lines; none iff no sale matches |
| Refunds.Clamp | src/pages/Refunds.tsx:55 | the quantity is clamped into [0, max] |
| Refunds.UpdateRefundQuantity | src/pages/Refunds.tsx:52-60 | only the chosen line changes; its quantity is clamped to the sold quantity (0 without a selected sale) and total = quantity × price |
| Refunds.RestockLineEffect | src/pages/Refunds.tsx:87-91 | one restock adds the line's quantity to its medicine, if it still exists, and touches nothing else |
| Refunds.RestockEffect | src/pages/Refunds.tsx:86-91 | each medicine gains exactly the refunded quantity for it; missing medicines are not recreated |
| Refunds.ChosenLines | src/pages/Refunds.tsx:68 | exactly the lines with a positive quantity; when lines are well formed their totals sum to the total of all lines |
| Refunds.ChosenKeepsOrder | src/pages/Refunds.tsx:68 | choosing distributes over a split list and keeps a lone line iff positive, so the chosen lines keep the form's order |
| Refunds.RestockAll | src/pages/Refunds.tsx:86-91 | under unique ids the medicines keep their ids and order and gain exactly the refunded quantities |
| Refunds.ProcessRefund | src/pages/Refunds.tsx:62-94 | refused without a sale or with a blank reason, and refused when no line is positive; otherwise the refund holds exactly the positive lines, totals them, stores the trimmed reason and the time, is appended, and restocks |
| MedicineForm.SubmitMedicine | src/components/MedicineDialog.tsx:55-94 | a blank trimmed name is refused; a case-insensitive name clash with another id is refused exactly when it exists; an edit updates the edited record with the form fields; an add appends a record with the fresh id and equal created and updated times |
| MedicineForm.SubmitKeepsCatalogueClean | src/components/MedicineDialog.tsx:63-90 | an accepted submission keeps ids unique and names distinct ignoring case |
| MedicineForm.KeepingOwnNameIsAccepted | src/components/MedicineDialog.tsx:66 | editing a medicine without renaming it is never refused as a duplicate |
| Inventory.SearchMedicines | src/pages/Medicines.tsx:28-31 | keeps a medicine iff the term occurs in its name or type ignoring case |
| Inventory.SearchKeepsOrder | src/pages/Medicines.tsx:28-31 | the search distributes over a split catalogue and shows a lone medicine iff it matches, so results are in catalogue order |
| Inventory.EmptySearchShowsAll | src/pages/Medicines.tsx:28-31 | an empty search keeps every medicine |
| Inventory.IsLowStock | src/pages/Medicines.tsx:150 | low iff the quantity is at most the reorder level, so an empty shelf with a non-negative level is flagged |
| Inventory.HeaderNames | src/pages/Medicines.tsx:65 | one header per comma-separated cell of the first line, trimmed and lower-cased |
| Inventory.RowValues | src/pages/Medicines.tsx:74 | one value per comma-separated cell, trimmed |
| Inventory.ColumnIndex | src/pages/Medicines.tsx:75 | `indexOf` finds a column iff the header is present, at the first position holding it |
| Inventory.Field | src/pages/Medicines.tsx:92-98 | the value at the column's first index; a missing column or a short row reads as '' |
| Inventory.QuantityOf | src/pages/Medicines.tsx:94 | the parsed integer (a `0x` cell in base 16), or 0 when the value is missing or does not parse |
| Inventory.HexCellsAreRead | src/pages/Medicines.tsx:94-98 | a `0x10` quantity is 16, and a `-0x0` reorder level falls back to 10 |
| Inventory.ReorderLevelOf | src/pages/Medicines.tsx:98 | the parsed integer unless it is missing, unparsable or 0, which give 10 |
| Inventory.PriceOf | src/pages/Medicines.tsx:95-96 | a present value is parsed and an unparsable one gives 0; a missing value is read as '0' and so gives 0 |
| Inventory.NameTakenAt | src/pages/Medicines.tsx:83-84 | the recursive `some` over the store holds iff some stored medicine has the name ignoring case |
| Inventory.ReadRow | src/pages/Medicines.tsx:71-87 | a line reads as blank iff it is empty after trimming; a non-blank row is skipped iff there is no name column, its name is empty, or the name is already stored ignoring case |
| Inventory.ReadRowBuilds | src/pages/Medicines.tsx:89-101 | an imported row holds the medicine built from the line's named cells with the page's defaults, the given id and time, under a non-empty name not yet stored |
| Inventory.Absorb | src/pages/Medicines.tsx:77-105 | an imported row is appended and counted, a skipped row is counted, a blank row changes nothing |
| Inventory.Loop | src/pages/Medicines.tsx:70-106 | for any way of reading a line, the stored medicines stay first and unchanged and one medicine is appended per imported row |
| Inventory.ImportLines | src/pages/Medicines.tsx:70-106 | existing medicines stay first and unchanged, and one medicine is appended per imported row |
| Inventory.LoopLast | src/pages/Medicines.tsx:70-105 | the loop over a file is the loop over all but the last line followed by the row read from the last line against the store those lines left |
| Inventory.ImportStep | src/pages/Medicines.tsx:70-105 | the last data line is read by `ReadRow` against the store the earlier lines left, with the id for its position, and its outcome is added; it is blank iff empty after trimming |
| Inventory.LoopPrefix | src/pages/Medicines.tsx:70-105 | the store after the first lines of a file is a prefix of the store after the whole file |
| Inventory.LoopPrefixInWhole | src/pages/Medicines.tsx:70-105 | a medicine appended by line k keeps its position once the rest of the file is read |
| Inventory.ImportCsv | src/pages/Medicines.tsx:63-106 | existing medicines are kept first, one is appended per import, every non-blank line after the first is counted once as imported or skipped, and distinct names stay distinct; a file whose data lines are non-blank, named, unstored and pairwise distinct imports every line, the k-th appended medicine built from line k |
| Inventory.ImportCounts | src/pages/Medicines.tsx:67-106 | imported + skipped equals the number of non-blank data lines |
| Inventory.ReaderSeesBlanks | src/pages/Medicines.tsx:71-72 | the page's reader returns blank for a line iff the line is empty after trimming |
| Inventory.LoopCounts | src/pages/Medicines.tsx:67-106 | for any reader that is blank exactly on blank lines, imported + skipped equals the number of non-blank lines |
| Inventory.ImportKeepsNamesDistinct | src/pages/Medicines.tsx:83-103 | rows duplicating a stored or earlier-imported name are skipped, so names stay distinct ignoring case |
| Inventory.ReimportSkipsEverything | src/pages/Medicines.tsx:83-87 | rows whose names are all already stored import nothing and leave the list unchanged |
| Inventory.FreshRowsAllImported | src/pages/Medicines.tsx:77-103 | when every data line is non-blank, named, unstored and distinct from the others ignoring case, nothing is skipped, every line is imported, and the k-th appended medicine carries line k's name |
| Inventory.FreshLinesBuilt | src/pages/Medicines.tsx:77-103 | for such a file the k-th appended medicine is the one built from line k against the store before it |
| Inventory.FreshLineImported | src/pages/Medicines.tsx:77-103 | in such a file, line k read against the store before it is imported as exactly the k-th appended medicine |
| Inventory.FreshLastImported | src/pages/Medicines.tsx:77-103 | in such a file the last line is imported after the earlier ones, as the medicine built from it, carrying its name |
| Inventory.ImportedWithoutStockIsLow | src/pages/Medicines.tsx:94-150 | a medicine imported without quantity or reorder-level columns has quantity 0 and reorder level 10, so it is low on stock |
| Approvals.Toggle | src/pages/UserApprovals.tsx:158-161 | the page's membership flips; a present page is removed everywhere, an absent one is appended; other pages keep their membership |
| Approvals.ToggleTwice | src/pages/UserApprovals.tsx:166-172 | toggling the same page twice restores membership |
| Approvals.TogglePermission | src/pages/UserApprovals.tsx:156-164 | flips one page for one user, starting from an empty list; no other user's choice or any role changes |
| Approvals.TogglePermissionTwice | src/pages/UserApprovals.tsx:156-164 | toggling a page twice for a user restores that user's selection as a set |
| Approvals.ToggleTempPermission | src/pages/UserApprovals.tsx:166-172 | the dialog's list flips the page's membership and keeps every other page's |
| Approvals.ChooseRole | src/pages/UserApprovals.tsx:150-154 | picking a role records it and resets the user's pages to that role's defaults, leaving other users alone |
| Approvals.RoleFor | src/pages/UserApprovals.tsx:78 | without a choice the role is cashier |
| Approvals.Approve | src/pages/UserApprovals.tsx:77-97 | approves with the chosen role (cashier by default) and the chosen pages (the role's defaults when none were chosen); on success the user's choices are dropped, on failure nothing changes |
| Approvals.UntouchedApprovalIsCashier | src/pages/UserApprovals.tsx:78-79 | approving without touching the page gives a cashier with the cashier's default pages |
| Approvals.ChosenRoleGetsItsDefaults | src/pages/UserApprovals.tsx:150-154 | picking a role and then approving grants exactly that role's default pages |
| ExpensesPage.SubmitExpense | src/pages/Expenses.tsx:50-73 | refused with the missing-fields message iff type or amount is empty, with the invalid-amount message iff the amount is not a positive number; otherwise the expense is appended with the fresh id and the trimmed note |
| ExpensesPage.AddedNotesAreTrimmed | src/pages/Expenses.tsx:69 | every stored note stays trimmed after an addition |
| ExpensesPage.DeleteExpense | src/pages/Expenses.tsx:96-101 | exactly the expenses with the id are removed |
| ExpensesPage.DeleteAbsent | src/pages/Expenses.tsx:98-100 | deleting an id nobody has changes nothing |
| ExpensesPage.DeleteKeepsOrder | src/pages/Expenses.tsx:98-100 | deletion distributes over a split of the list, and a lone expense survives iff its id differs, so the survivors keep their order and multiplicity |
| ExpensesPage.ExportLine | src/pages/Expenses.tsx:118-120 | the line starts with date, type and amount and ends with the note, quoted with its quotes doubled, which parses back to the note |
| ExpensesPage.ExportLines | src/pages/Expenses.tsx:115-121 | the header `date,type,amount,note`, then one line per expense in order |
| ExpensesPage.ExportExpenses | src/pages/Expenses.tsx:109-121 | refused iff there are no expenses; otherwise the lines joined by line breaks |
| ExpensesPage.ExportReadsBack | src/pages/Expenses.tsx:115-121 | without line breaks in the fields, splitting the export gives the header and one line per expense whose note is recovered exactly |
| AuditView.Displayed | src/pages/AuditLogs.tsx:30-33 | the stored log reversed, most recent first |
| AuditView.DisplayedTwice | src/pages/AuditLogs.tsx:32 | reversing twice gives the stored order back |
| AuditView.NewestShownFirst | src/pages/AuditLogs.tsx:30-33 | the entry logged last is shown first |
| AuditView.FilterLogs | src/pages/AuditLogs.tsx:35-44 | keeps an entry iff the term occurs in its user, action or details ignoring case, and the type filter is all or its type |
| AuditView.FilterLogsKeepsOrder | src/pages/AuditLogs.tsx:35-44 | filtering distributes over a split of the list, and a lone entry is kept iff it passes the search and the type filter, so the shown entries keep their order and multiplicity |
| AuditView.NoFilterKeepsAll | src/pages/AuditLogs.tsx:35-44 | an empty term with every type selected keeps every entry |
| AuditView.LogLine | src/pages/AuditLogs.tsx:54-56 | every field is quoted, and only the details have their quotes doubled and parse back exactly |
| AuditView.LogLines | src/pages/AuditLogs.tsx:52-57 | the header, then one line per shown entry in order |
| AuditView.ExportLogs | src/pages/AuditLogs.tsx:46-57 | refused iff the filtered list is empty; otherwise the lines joined by line breaks |
| AuditView.ExportLogsReadsBack | src/pages/AuditLogs.tsx:52-57 | without line breaks in the fields, splitting the export gives the header and one line per entry whose details are recovered exactly |
| Reports.FilterByDate | src/pages/Reports.tsx:31-43 | the identity when both bounds are empty; otherwise exactly the items with from ≤ createdAt ≤ to, each bound optional |
| Reports.FilterByDateKeepsOrder | src/pages/Reports.tsx:31-43 | the date filter distributes over a split list and keeps a lone item iff in range, so kept items stay in order |
| Reports.NarrowerRangeKeepsLess | src/pages/Reports.tsx:31-43 | a narrower range keeps a subset |
| Reports.RenderAsWritten | src/pages/Reports.tsx:53-55 | falsy values (missing, '', 0) print empty; a string with a comma is wrapped in quotes without escaping; other strings and numbers print as they are |
| Reports.RenderedCells | src/pages/Reports.tsx:53-56 | one rendered cell per header, in header order, each rendered with the corrected quoting |
| Reports.ReportLines | src/pages/Reports.tsx:51-57 | the comma-joined headers, then one line per row |
| Reports.ExportToCsv | src/pages/Reports.tsx:45-57 | refused iff there is no data; otherwise the header line and one line per row, joined by line breaks |
| Reports.ReportReadsBack | src/pages/Reports.tsx:51-57 | headers and cells without commas or line breaks split back exactly into the headers and each row's rendered cells |
| Reports.QuoteInsideCommaValueIsMangled | src/pages/Reports.tsx:55 | a value holding both a quote and a comma is written in a form that is not the value and is not a valid quoted field |
| Reports.RenderQuoted | src/pages/Reports.tsx:53-55 | corrected rendering, used by the report exporter: falsy values print empty, numbers print as they are, and a string is written as is when it needs no quotes, otherwise as a quoted field that parses back to it |
| Reports.RenderQuotedAgrees | src/pages/Reports.tsx:53-55 | for text without quotes or line breaks the corrected rendering equals the page's |
| Reports.ShortId | src/pages/Reports.tsx:79 | the first eight characters of the id (all of it when shorter) |
| Reports.SalesRows | src/pages/Reports.tsx:76-88 | one row per sale item |
| Reports.SalesRowAt | src/pages/Reports.tsx:76-88 | the row for item j of sale k sits after the items of the earlier sales, in sale then item order |
| Reports.WalkInCustomer | src/pages/Reports.tsx:80 | the customer column reads `Walk-in` iff the sale has no customer name or an empty one |
| Reports.ExportSales | src/pages/Reports.tsx:74-93 | refused iff the date-filtered sales hold no items; otherwise the sales columns and one row per item of the filtered sales |
| Signup.SignupIssues | src/pages/Auth.tsx:21-28 | no message iff the e-mail is valid, the username is 3 to 20 UTF-16 code units of [A-Za-z0-9_] and the password has at least 6 code units; the first message is the e-mail's, then too short, too long, bad characters, then the password's |
| Signup.WordCharsAreSingleUnits | src/pages/Auth.tsx:23-26 | a username matching [A-Za-z0-9_]+ has as many code units as characters, so it is valid iff it has 3 to 20 characters |
| Signup.EmojiPasswordIsLongEnough | src/pages/Auth.tsx:18 | a password of three emoji passes the login minimum of six, because each emoji is two code units |
| Signup.LoginIssues | src/pages/Auth.tsx:16-19 | no message iff the e-mail is valid and the password has at least 6 UTF-16 code units |
| Signup.SignupPasswordPassesLogin | src/pages/Auth.tsx:16-28 | a password accepted at sign-up is accepted at login |
| Signup.HandleSignup | src/pages/Auth.tsx:73-107 | invalid fields stop with the first message; offline only the local register runs and the dashboard opens only when no approval is needed; online only the remote sign-up runs and the store is untouched; a failure shows its message, or `Registration failed` when the local or remote message is empty |
| Signup.OfflineFirstSignupEntersDashboard | src/pages/Auth.tsx:80-95 | the first offline sign-up on an empty device enters the dashboard as an admin |
| Signup.OfflineLaterSignupWaits | src/pages/Auth.tsx:80-95 | a later offline sign-up creates one pending account, stays on the page and leaves the session alone |
| Text.Split | src/pages/Medicines.tsx:64-65 | `split` gives at least one part, none containing the separator, and joining them back gives the input |
| Text.SplitJoin | src/pages/Medicines.tsx:64-65 | splitting parts joined by a separator they do not contain gives the parts back |
| Text.QuoteFieldRoundTrip | src/pages/Expenses.tsx:119 | a note enclosed in quotes with its quotes doubled parses back to the note |
| Text.TrimIdempotent | src/pages/Expenses.tsx:69 | trimming a trimmed text changes nothing |
| Text.Utf16Length | src/pages/Auth.tsx:18 | the length zod's `min`/`max` compare is between the character count and twice it, and equals the character count iff no character lies beyond U+FFFF |
| Text.EmojiCountTwice | src/pages/Auth.tsx:18 | three emoji are three characters and six code units |
| Text.Trim | src/pages/Medicines.tsx:71 | `trim`: empty iff the text is all white space, and otherwise neither end is white space |
| Text.ParseIntRoundTrip | src/pages/Medicines.tsx:94 | `parseInt` reads back the decimal form of any integer |
| Text.ParseInt | src/pages/Medicines.tsx:94 | `parseInt` without a radix: a leading digit that does not open `0x` always parses, a minus sign gives a non-positive value and no sign a non-negative one, and a text without a decimal digit is NaN |
| Text.HexPrefixReadsHex | src/pages/Medicines.tsx:94 | after an optional minus sign, `0x` and hexadecimal digits read in base 16 |

## Left out

- Remote calls (`supabase.from(...)`, `supabase.auth.*`, the sign-up call,
  `getUserId`'s lookup) are result parameters: `Remote`, `UserLookup`,
  `Replay`, `remoteError`. A remote call that returns an error object
  without throwing counts as completed, because the code never inspects it.
- Sales and refunds are never pushed (the two sync functions only log a
  message), so the model has no push step for them.
- `Promise.all` runs the two pulls concurrently; the model takes both
  results together, and the exception of either one fails the run. The
  periodic sync timer and the online/offline listeners are not modelled.
- JSON serialisation and its `try`/`catch` in `storage.get/set/remove` are
  replaced by the fields of `Store`; a corrupt entry reading as missing is
  not modelled.
- `simpleHash` is the parameter `hash`; its 32-bit arithmetic and base-36
  printing are not modelled.
- Floating-point money is integer cents. The discount, tax and change of
  `calculateTotals` enter `Billing.DoCheckout` as computed amounts.
  `parseFloat` is the parameter `parseAmount` / `parsePrice`, and
  `toFixed(2)` is `Fixed2` on cents.
- Dates are integers. `new Date()`, ISO strings, `format(...)`, the default
  expiry of an imported medicine and the date printing of the exports are
  parameters (`now`, `showTime`, `defaultExpiry`).
- `crypto.randomUUID` is a fresh-id parameter; in the import, it is the
  function `newId`, applied to the line number.
- The e-mail rule of the sign-up schemas is the boolean `emailOk`.
- Audit entries written by the pages after each action (`createAuditLog`
  calls) are not threaded through the page models. The entry itself is
  modelled by `Audit.CreateAuditLog`.
- The Billing page's search filter, the refunds, expenses and medicines
  report exporters and the medicine CSV export are not modelled. They
  reuse the same filter and CSV building shown for the other pages.
- Toasts, navigation, `confirm` dialogs, file reading, downloads and the
  Dashboard, Settings, Layout and sidebar pages are user interface.
- `toLowerCase` folds ASCII letters only, and `trim` removes the ASCII and
  common Unicode white space characters the model lists. Full Unicode case
  mapping is not modelled.
- Refunds.UpdateRefundQuantity: requires the index to lie within both the
  refund lines and the sale's items. The page only calls it for rendered
  rows; an out-of-range index would throw in the original.
- Inventory.ImportLines: its own contract states only that existing
  medicines stay first and one medicine is appended per import. How each
  row is read is stated by `Inventory.ImportStep`, `Inventory.ReadRow` and
  `Inventory.ReadRowBuilds`, and the counts, name distinctness and the
  all-fresh file are separate lemmas.
- Sync.MedicineRowRoundTrip: holds only for rows whose nullable text
  columns are not ''. An '' column comes back as null, since `|| null`
  maps '' to null.
- Sync.ExpenseRowRoundTrip: holds only for rows marked synced whose note
  is not ''. The mapper always writes `synced: true` and maps '' to null.
- Reports.ExportToCsv: renders cells with the corrected quoting of
  `Reports.RenderQuoted` (see Findings). The page's own rendering is
  `Reports.RenderAsWritten`; the two agree on every value without a quote
  or a line break (`Reports.RenderQuotedAgrees`).
- Sync.FullSync: evaluates the gate and `getUserId` once per run. The
  original calls them again inside `syncMedicines` and `syncExpenses`, and
  `processQueue` checks the gate again, so a lookup that throws, or that
  changes its answer, between those calls is not represented.
- Billing.DoCheckout: returns the emptied cart, but not the reset of the
  discount, cash-received, customer-name and credit inputs. Those inputs
  are parameters of the call, not state of the model.
- Text.ParseInt: works on unbounded integers. The original's double
  rounds values beyond 2^53, and its `-0` is the model's 0. The text is
  taken as already trimmed, as every caller passes a trimmed cell.
- Billing.AddToCart: keeps every line within stock only on a cart with
  one line per medicine. The page raises each duplicate line from its own
  quantity, so a second line can pass the stock
  (`Billing.TwoLinesGrowSeparately`); the page's own carts never hold two.
- Approvals.ToggleTwice: restores set membership, not the list. Removing
  and re-appending can move a page to the end.

## Findings

| source | as written | input that shows it | evidently intended | confidence | as-written member | corrected member |
|---|---|---|---|---|---|---|
| src/pages/Reports.tsx:55 | a string value containing a comma is wrapped in quotes, but quotes inside it are not doubled | the value `a",b` is written as `"a",b"`, which is neither the value nor a valid quoted field (RFC 4180 section 2, rule 7) | quotes inside a quoted field are doubled, and a value holding a quote or a line break is quoted too, so every value reads back | medium, not executed | Reports.QuoteInsideCommaValueIsMangled | Reports.RenderQuoted |

=== FILE: accounts.dfy ===
/**
 * Local accounts and page permissions (`authStorage` in `src/lib/storage.ts`).
 * Password hashing is a parameter `hash`: the model does not look inside it.
 */
module Accounts {
  import opened Wrappers
  import opened Seqs
  import opened Text
  import opened Storage

  const AllPages: seq<Page> := [Dashboard, Medicines, Billing, Refunds, Expenses, Reports, AuditLogs, SettingsPage]

  const ErrUsernameTaken := "Username already exists"
  const ErrBadCredentials := "Invalid username or password"
  const ErrPendingApproval := "Account pending approval. Please contact an administrator."
  const ErrUnauthorized := "Unauthorized: Admin access required"
  const ErrUserNotFound := "User not found"
  const ErrOwnRole := "Cannot change your own role"

  datatype Outcome = Ok | Failed(error: string)

  datatype RegisterOutcome = Registered(needsApproval: bool) | RegisterFailed(error: string)

  /** `getDefaultPermissions`: the fixed page list of each role; any other role gets the dashboard only. */
  function DefaultPermissions(role: Role): (r: seq<Page>)
    ensures Dashboard in r
    ensures forall i :: 0 <= i < |r| ==> r[i] in AllPages
    ensures SettingsPage in r <==> role == Admin
  {
    match role
    case Admin => AllPages
    case Manager => [Dashboard, Medicines, Billing, Refunds, Expenses, Reports, AuditLogs]
    case Cashier => [Dashboard, Medicines, Billing, Refunds]
    case Viewer => [Dashboard, Medicines, Reports]
    case Pending => [Dashboard]
  }

  /** The per-role defaults are nested: cashier within manager within admin, viewer within admin. */
  lemma DefaultsNested()
    ensures forall p :: p in DefaultPermissions(Cashier) ==> p in DefaultPermissions(Manager)
    ensures forall p :: p in DefaultPermissions(Manager) ==> p in DefaultPermissions(Admin)
    ensures forall p :: p in DefaultPermissions(Viewer) ==> p in DefaultPermissions(Admin)
    ensures forall p: Page :: p in DefaultPermissions(Admin)
  {
    forall p: Page
      ensures p in AllPages
    {
      match p
      case Dashboard => assert AllPages[0] == p;
      case Medicines => assert AllPages[1] == p;
      case Billing => assert AllPages[2] == p;
      case Refunds => assert AllPages[3] == p;
      case Expenses => assert AllPages[4] == p;
      case Reports => assert AllPages[5] == p;
      case AuditLogs => assert AllPages[6] == p;
      case SettingsPage => assert AllPages[7] == p;
    }
  }

  /** The session record written for a user who logs in. */
  function SessionOf(u: LocalUser): SessionUser {
    SessionUser(u.id, u.username, u.role)
  }

  /** `isLoggedIn`: a session record is stored; the user list plays no part. */
  predicate IsLoggedIn(st: Store)
    ensures IsLoggedIn(st) <==> st.current.Some?
  {
    st.current.Some?
  }

  /** `isAdmin`: decided by the role recorded in the session, not by the user list. */
  predicate IsAdmin(st: Store)
    ensures IsAdmin(st) <==> IsLoggedIn(st) && st.current.value.role == Admin
  {
    st.current.Some? && st.current.value.role == Admin
  }

  /** Neither session check looks at the user list: replacing it changes neither answer. */
  lemma SessionChecksIgnoreUsers(st: Store, us: seq<LocalUser>)
    ensures IsLoggedIn(st.(users := us)) == IsLoggedIn(st)
    ensures IsAdmin(st.(users := us)) == IsAdmin(st)
  {
  }

  function Logout(st: Store): (r: Store)
    ensures !IsLoggedIn(r)
    ensures r.(current := st.current) == st
  {
    st.(current := None)
  }

  /** Index `j` holds the first user whose id is `id`. */
  predicate IsUserAt(users: seq<LocalUser>, j: int, id: string) {
    0 <= j < |users| && users[j].id == id && forall k :: 0 <= k < j ==> users[k].id != id
  }

  function UserIndex(users: seq<LocalUser>, id: string): (r: Option<nat>)
    ensures r.Some? ==> IsUserAt(users, r.value, id)
    ensures r.None? ==> forall j :: 0 <= j < |users| ==> users[j].id != id
  {
    var r := IndexWhere(users, (u: LocalUser) => u.id == id);
    assert r.None? ==> forall j :: 0 <= j < |users| ==> users[j].id != id;
    r
  }

  /** Index `j` holds the first user whose name equals `name` ignoring case. */
  predicate IsNamedAt(users: seq<LocalUser>, j: int, name: string) {
    0 <= j < |users| && EqualsIgnoreCase(users[j].username, name)
    && forall k :: 0 <= k < j ==> !EqualsIgnoreCase(users[k].username, name)
  }

  function NameIndex(users: seq<LocalUser>, name: string): (r: Option<nat>)
    ensures r.Some? ==> IsNamedAt(users, r.value, name)
    ensures r.None? ==> forall j :: 0 <= j < |users| ==> !EqualsIgnoreCase(users[j].username, name)
  {
    var r := IndexWhere(users, (u: LocalUser) => EqualsIgnoreCase(u.username, name));
    assert r.None? ==> forall j :: 0 <= j < |users| ==> !EqualsIgnoreCase(users[j].username, name);
    r
  }

  // ---------------------------------------------------------------------------
  // Registration and login

  /**
   * `register`: a name already taken (ignoring case) is refused and nothing
   * changes. The first account becomes an approved admin with every page and
   * is logged in; later accounts are pending, unapproved, have no pages and
   * are not logged in. Only the user list and the session can change.
   */
  function Register(st: Store, username: string, password: string, hash: string -> string, freshId: string, now: int)
    : (r: (RegisterOutcome, Store))
    ensures r.1.(users := st.users, current := st.current) == st
    ensures (exists j :: 0 <= j < |st.users| && EqualsIgnoreCase(st.users[j].username, username))
      ==> r == (RegisterFailed(ErrUsernameTaken), st)
    ensures (forall j :: 0 <= j < |st.users| ==> !EqualsIgnoreCase(st.users[j].username, username)) ==>
      && r.0.Registered?
      && |r.1.users| == |st.users| + 1 && r.1.users[..|st.users|] == st.users
      && var u := r.1.users[|st.users|];
         && u.id == freshId && u.username == username && u.passwordHash == hash(password) && u.createdAt == now
         && (|st.users| == 0 ==>
               u.role == Admin && u.approved && u.permissions == AllPages
               && r.1.current == Some(SessionOf(u)) && !r.0.needsApproval)
         && (|st.users| > 0 ==>
               u.role == Pending && !u.approved && u.permissions == []
               && r.1.current == st.current && r.0.needsApproval)
  {
    match NameIndex(st.users, username)
    case Some(_) => (RegisterFailed(ErrUsernameTaken), st)
    case None =>
      var first := |st.users| == 0;
      var u := LocalUser(freshId, username, hash(password),
                         if first then Admin else Pending, first, None, None, now,
                         if first then DefaultPermissions(Admin) else []);
      var st1 := st.(users := st.users + [u]);
      if first then (Registered(false), st1.(current := Some(SessionOf(u))))
      else (Registered(true), st1)
  }

  /**
   * `login`: fails for an unknown name, a wrong password or an unapproved
   * account, always leaving the store unchanged; on success the first user
   * with that name (ignoring case) becomes the session user.
   */
  function Login(st: Store, username: string, password: string, hash: string -> string): (r: (Outcome, Store))
    ensures r.0.Failed? ==> r.1 == st
    ensures r.0.Ok? ==> r.1 == st.(current := r.1.current)
    ensures (forall j :: 0 <= j < |st.users| ==> !EqualsIgnoreCase(st.users[j].username, username))
      ==> r.0 == Failed(ErrBadCredentials)
    ensures forall j :: IsNamedAt(st.users, j, username) ==>
      && (st.users[j].passwordHash != hash(password) ==> r.0 == Failed(ErrBadCredentials))
      && (st.users[j].passwordHash == hash(password) && !st.users[j].approved ==> r.0 == Failed(ErrPendingApproval))
      && (st.users[j].passwordHash == hash(password) && st.users[j].approved ==>
            r.0 == Ok && r.1.current == Some(SessionOf(st.users[j])))
  {
    match NameIndex(st.users, username)
    case None => (Failed(ErrBadCredentials), st)
    case Some(i) =>
      var u := st.users[i];
      if u.passwordHash != hash(password) then (Failed(ErrBadCredentials), st)
      else if !u.approved then (Failed(ErrPendingApproval), st)
      else (Ok, st.(current := Some(SessionOf(u))))
  }

  // ---------------------------------------------------------------------------
  // Administration

  /** Only the user at index `i` differs between the two lists. */
  ghost predicate OnlyUserChanged(before: seq<LocalUser>, after: seq<LocalUser>, i: int) {
    |after| == |before| && 0 <= i < |before| && forall j :: 0 <= j < |before| && j != i ==> after[j] == before[j]
  }

  /**
   * `approveUser`: an admin session approves the first user with the id,
   * giving it the role, the approver's name, the time and the permissions
   * (the role's defaults when none are passed).
   */
  function ApproveUser(st: Store, userId: string, role: Role, permissions: Option<seq<Page>>, now: int)
    : (r: (Outcome, Store))
    ensures !IsAdmin(st) ==> r == (Failed(ErrUnauthorized), st)
    ensures IsAdmin(st) && (forall j :: 0 <= j < |st.users| ==> st.users[j].id != userId) ==> r == (Failed(ErrUserNotFound), st)
    ensures r.1 == st.(users := r.1.users)
    ensures forall i :: IsAdmin(st) && IsUserAt(st.users, i, userId) ==>
      && r.0 == Ok
      && OnlyUserChanged(st.users, r.1.users, i)
      && var before, after := st.users[i], r.1.users[i];
         && after.id == before.id && after.username == before.username
         && after.passwordHash == before.passwordHash && after.createdAt == before.createdAt
         && after.role == role && after.approved
         && after.approvedBy == Some(st.current.value.username) && after.approvedAt == Some(now)
         && after.permissions == (if permissions.Some? then permissions.value else DefaultPermissions(role))
  {
    if !IsAdmin(st) then (Failed(ErrUnauthorized), st)
    else match UserIndex(st.users, userId)
      case None => (Failed(ErrUserNotFound), st)
      case Some(i) =>
        var u := st.users[i].(role := role, approved := true,
                              approvedBy := Some(st.current.value.username), approvedAt := Some(now),
                              permissions := permissions.GetOr(DefaultPermissions(role)));
        (Ok, st.(users := st.users[i := u]))
  }

  /** `changeUserRole`: admin only, never the caller's own account; only the role of the target changes. */
  function ChangeUserRole(st: Store, userId: string, newRole: Role): (r: (Outcome, Store))
    ensures !IsAdmin(st) ==> r == (Failed(ErrUnauthorized), st)
    ensures IsAdmin(st) && (forall j :: 0 <= j < |st.users| ==> st.users[j].id != userId) ==> r == (Failed(ErrUserNotFound), st)
    ensures IsAdmin(st) && userId == st.current.value.id ==> r.1 == st && r.0.Failed?
    ensures r.1 == st.(users := r.1.users)
    ensures forall i :: IsAdmin(st) && IsUserAt(st.users, i, userId) && userId != st.current.value.id ==>
      r.0 == Ok && OnlyUserChanged(st.users, r.1.users, i) && r.1.users[i] == st.users[i].(role := newRole)
  {
    if !IsAdmin(st) then (Failed(ErrUnauthorized), st)
    else match UserIndex(st.users, userId)
      case None => (Failed(ErrUserNotFound), st)
      case Some(i) =>
        if st.users[i].id == st.current.value.id then (Failed(ErrOwnRole), st)
        else (Ok, st.(users := st.users[i := st.users[i].(role := newRole)]))
  }

  /** `updateUserPermissions`: admin only; replaces the target's page list and nothing else. */
  function UpdateUserPermissions(st: Store, userId: string, permissions: seq<Page>): (r: (Outcome, Store))
    ensures !IsAdmin(st) ==> r == (Failed(ErrUnauthorized), st)
    ensures IsAdmin(st) && (forall j :: 0 <= j < |st.users| ==> st.users[j].id != userId) ==> r == (Failed(ErrUserNotFound), st)
    ensures r.1 == st.(users := r.1.users)
    ensures forall i :: IsAdmin(st) && IsUserAt(st.users, i, userId) ==>
      r.0 == Ok && OnlyUserChanged(st.users, r.1.users, i) && r.1.users[i] == st.users[i].(permissions := permissions)
  {
    if !IsAdmin(st) then (Failed(ErrUnauthorized), st)
    else match UserIndex(st.users, userId)
      case None => (Failed(ErrUserNotFound), st)
      case Some(i) => (Ok, st.(users := st.users[i := st.users[i].(permissions := permissions)]))
  }

  /** `rejectUser`: admin only; removes every user with the id (an absent id still succeeds). */
  function RejectUser(st: Store, userId: string): (r: (Outcome, Store))
    ensures !IsAdmin(st) ==> r == (Failed(ErrUnauthorized), st)
    ensures IsAdmin(st) ==> r.0 == Ok
    ensures r.1 == st.(users := r.1.users)
    ensures IsAdmin(st) ==> forall i :: 0 <= i < |r.1.users| ==> r.1.users[i] in st.users && r.1.users[i].id != userId
    ensures IsAdmin(st) ==> forall i :: 0 <= i < |st.users| && st.users[i].id != userId ==> st.users[i] in r.1.users
  {
    if !IsAdmin(st) then (Failed(ErrUnauthorized), st)
    else (Ok, st.(users := Filter(st.users, (u: LocalUser) => u.id != userId)))
  }

  /** Rejection works user by user: the remaining users of a split list keep their order, and a lone user goes iff it has the id. */
  lemma RejectKeepsOrder(st: Store, a: seq<LocalUser>, b: seq<LocalUser>, userId: string)
    requires IsAdmin(st)
    ensures RejectUser(st.(users := a + b), userId).1.users
         == RejectUser(st.(users := a), userId).1.users + RejectUser(st.(users := b), userId).1.users
    ensures forall u: LocalUser :: RejectUser(st.(users := [u]), userId).1.users == if u.id == userId then [] else [u]
  {
    FilterConcat(a, b, (u: LocalUser) => u.id != userId);
    forall u: LocalUser
      ensures RejectUser(st.(users := [u]), userId).1.users == if u.id == userId then [] else [u]
    {
      FilterSingle(u, (u: LocalUser) => u.id != userId);
    }
  }

  /** `getPendingUsers`: the users whose role is pending, in list order. */
  function PendingUsers(st: Store): (r: seq<LocalUser>)
    ensures forall i :: 0 <= i < |r| ==> r[i] in st.users && r[i].role == Pending
    ensures forall i :: 0 <= i < |st.users| && st.users[i].role == Pending ==> st.users[i] in r
  {
    Filter(st.users, (u: LocalUser) => u.role == Pending)
  }

  /** The pending list follows the user list: a split list gives its parts' pending users in order, and a lone user appears iff pending. */
  lemma PendingKeepsOrder(st: Store, a: seq<LocalUser>, b: seq<LocalUser>)
    ensures PendingUsers(st.(users := a + b)) == PendingUsers(st.(users := a)) + PendingUsers(st.(users := b))
    ensures forall u: LocalUser :: PendingUsers(st.(users := [u])) == if u.role == Pending then [u] else []
  {
    FilterConcat(a, b, (u: LocalUser) => u.role == Pending);
    forall u: LocalUser
      ensures PendingUsers(st.(users := [u])) == if u.role == Pending then [u] else []
    {
      FilterSingle(u, (u: LocalUser) => u.role == Pending);
    }
  }

  /**
   * `hasPagePermission`: false without a session or when the session's user
   * is missing or unapproved; true for an admin; otherwise membership of the
   * page in the user's list.
   */
  function HasPagePermission(st: Store, page: Page): (r: bool)
    ensures st.current.None? ==> !r
    ensures st.current.Some? && (forall j :: 0 <= j < |st.users| ==> st.users[j].id != st.current.value.id) ==> !r
    ensures forall i :: st.current.Some? && IsUserAt(st.users, i, st.current.value.id) ==>
      (r <==> st.users[i].approved && (st.users[i].role == Admin || page in st.users[i].permissions))
  {
    match st.current
    case None => false
    case Some(c) =>
      match UserIndex(st.users, c.id)
      case None => false
      case Some(i) =>
        var u := st.users[i];
        if !u.approved then false
        else if u.role == Admin then true
        else page in u.permissions
  }

  // ---------------------------------------------------------------------------
  // Account life cycle

  /** The first account registered on an empty store is logged in and may open every page. */
  lemma FirstUserIsAdmin(st: Store, username: string, password: string, hash: string -> string, freshId: string, now: int, page: Page)
    requires st.users == []
    ensures var r := Register(st, username, password, hash, freshId, now);
      r.0 == Registered(false) && IsAdmin(r.1) && HasPagePermission(r.1, page)
  {
    var r := Register(st, username, password, hash, freshId, now);
    assert IsUserAt(r.1.users, 0, freshId);
  }

  /** A later account cannot log in with its own password until it is approved. */
  lemma RegisteredUserAwaitsApproval(st: Store, username: string, password: string, hash: string -> string, freshId: string, now: int)
    requires |st.users| > 0
    requires forall j :: 0 <= j < |st.users| ==> !EqualsIgnoreCase(st.users[j].username, username)
    ensures var r := Register(st, username, password, hash, freshId, now);
      r.0 == Registered(true) && Login(r.1, username, password, hash).0 == Failed(ErrPendingApproval)
  {
    var r := Register(st, username, password, hash, freshId, now);
    var n := |st.users|;
    assert r.1.users[..n] == st.users;
    forall k | 0 <= k < n
      ensures !EqualsIgnoreCase(r.1.users[k].username, username)
    {
      assert r.1.users[k] == st.users[k];
    }
    assert IsNamedAt(r.1.users, n, username);
  }

  /**
   * Once an admin approves an account, logging in with its password succeeds
   * and the session carries the approved role.
   */
  lemma ApprovalEnablesLogin(st: Store, i: nat, role: Role, permissions: Option<seq<Page>>, now: int,
                             password: string, hash: string -> string)
    requires IsAdmin(st)
    requires i < |st.users|
    requires IsUserAt(st.users, i, st.users[i].id)
    requires IsNamedAt(st.users, i, st.users[i].username)
    requires st.users[i].passwordHash == hash(password)
    ensures var approved := ApproveUser(st, st.users[i].id, role, permissions, now).1;
      var login := Login(approved, st.users[i].username, password, hash);
      login.0 == Ok && login.1.current.Some? && login.1.current.value.role == role
  {
    var approved := ApproveUser(st, st.users[i].id, role, permissions, now).1;
    assert IsNamedAt(approved.users, i, st.users[i].username);
  }
}

=== FILE: approvals.dfy ===
/**
 * The user-approval page (`src/pages/UserApprovals.tsx`): the per-user
 * role and permission choices an admin makes before approving, the
 * permission check-boxes, and the defaults applied on approval.
 */
module Approvals {
  import opened Wrappers
  import opened Seqs
  import opened Storage
  import opened Accounts

  /**
   * A check-box click: a page that is in the list is removed (every
   * occurrence), one that is not is appended at the end.
   */
  function Toggle(current: seq<Page>, p: Page): (r: seq<Page>)
    ensures p in r <==> p !in current
    ensures forall q :: q != p ==> (q in r <==> q in current)
    ensures p !in current ==> r == current + [p]
  {
    if p in current then
      var r := Filter(current, (x: Page) => x != p);
      assert forall q :: q != p && q in current ==> q in r;
      r
    else current + [p]
  }

  /** Clicking the same box twice restores which pages are selected. */
  lemma ToggleTwice(current: seq<Page>, p: Page)
    ensures forall q :: q in Toggle(Toggle(current, p), p) <==> q in current
  {
  }

  /** The choices made on the page for users not yet approved, keyed by user id. */
  datatype Choices = Choices(roles: map<string, Role>, permissions: map<string, seq<Page>>)

  const NoChoices := Choices(map[], map[])

  /** The permissions currently ticked for a user; nothing ticked when none were chosen. */
  function Ticked(c: Choices, userId: string): seq<Page> {
    if userId in c.permissions then c.permissions[userId] else []
  }

  /**
   * `togglePermission`: flips one page for one user, starting from an empty
   * list when the user has no choice yet. Other users' choices and roles
   * are untouched.
   */
  function TogglePermission(c: Choices, userId: string, p: Page): (r: Choices)
    ensures userId in r.permissions
    ensures p in Ticked(r, userId) <==> p !in Ticked(c, userId)
    ensures forall q :: q != p ==> (q in Ticked(r, userId) <==> q in Ticked(c, userId))
    ensures r.roles == c.roles
    ensures forall u :: u != userId ==> (u in r.permissions <==> u in c.permissions)
    ensures forall u :: u != userId && u in c.permissions ==> r.permissions[u] == c.permissions[u]
  {
    c.(permissions := c.permissions[userId := Toggle(Ticked(c, userId), p)])
  }

  /** Toggling one page twice for the same user restores that user's selection as a set. */
  lemma TogglePermissionTwice(c: Choices, userId: string, p: Page)
    ensures forall q :: q in Ticked(TogglePermission(TogglePermission(c, userId, p), userId, p), userId) <==> q in Ticked(c, userId)
  {
    ToggleTwice(Ticked(c, userId), p);
  }

  /** `toggleTempPermission`: the same flip on the permissions-dialog list. */
  function ToggleTempPermission(temp: seq<Page>, p: Page): (r: seq<Page>)
    ensures p in r <==> p !in temp
    ensures forall q :: q != p ==> (q in r <==> q in temp)
  {
    Toggle(temp, p)
  }

  /** `handleRoleChangeWithPermissions`: picking a role resets the ticked pages to its defaults. */
  function ChooseRole(c: Choices, userId: string, role: Role): (r: Choices)
    ensures userId in r.roles && r.roles[userId] == role
    ensures Ticked(r, userId) == DefaultPermissions(role)
    ensures forall u :: u != userId ==> (u in r.roles <==> u in c.roles) && (u in r.permissions <==> u in c.permissions)
    ensures forall u :: u != userId && u in c.roles ==> r.roles[u] == c.roles[u]
    ensures forall u :: u != userId && u in c.permissions ==> r.permissions[u] == c.permissions[u]
  {
    Choices(c.roles[userId := role], c.permissions[userId := DefaultPermissions(role)])
  }

  /** The role approval uses: the chosen one, cashier when none was chosen. */
  function RoleFor(c: Choices, userId: string): (r: Role)
    ensures userId !in c.roles ==> r == Cashier
  {
    if userId in c.roles then c.roles[userId] else Cashier
  }

  /**
   * `handleApprove`: approves with the chosen role (cashier by default) and
   * the chosen pages (that role's defaults when none were chosen). An
   * empty chosen list is still a choice. On success the user's choices
   * are discarded; on failure nothing changes.
   */
  function Approve(st: Store, c: Choices, userId: string, now: int): (r: (Outcome, Store, Choices))
    ensures r.0.Failed? ==> r.1 == st && r.2 == c
    ensures r.0 == Ok ==> userId !in r.2.roles && userId !in r.2.permissions
    ensures r.0 == Ok ==> forall u :: u != userId ==>
      (u in r.2.roles <==> u in c.roles) && (u in r.2.permissions <==> u in c.permissions)
    ensures forall i :: IsAdmin(st) && IsUserAt(st.users, i, userId) ==>
      && r.0 == Ok && i < |r.1.users|
      && r.1.users[i].role == RoleFor(c, userId)
      && r.1.users[i].approved
      && r.1.users[i].permissions == (if userId in c.permissions then c.permissions[userId] else DefaultPermissions(RoleFor(c, userId)))
    ensures !IsAdmin(st) ==> r.0 == Failed(ErrUnauthorized)
  {
    var role := RoleFor(c, userId);
    var perms := if userId in c.permissions then c.permissions[userId] else DefaultPermissions(role);
    var (outcome, st') := ApproveUser(st, userId, role, Some(perms), now);
    match outcome
    case Ok => (Ok, st', Choices(c.roles - {userId}, c.permissions - {userId}))
    case Failed(e) => (Failed(e), st, c)
  }

  /** Approving without touching the page makes the user a cashier with the cashier's default pages. */
  lemma UntouchedApprovalIsCashier(st: Store, userId: string, i: nat, now: int)
    requires IsAdmin(st) && IsUserAt(st.users, i, userId)
    ensures var r := Approve(st, NoChoices, userId, now);
      r.0 == Ok && r.1.users[i].role == Cashier && r.1.users[i].permissions == DefaultPermissions(Cashier)
  {
  }

  /** Picking a role and then approving grants that role with exactly its default pages. */
  lemma ChosenRoleGetsItsDefaults(st: Store, c: Choices, userId: string, role: Role, i: nat, now: int)
    requires IsAdmin(st) && IsUserAt(st.users, i, userId)
    ensures var r := Approve(st, ChooseRole(c, userId, role), userId, now);
      r.0 == Ok && r.1.users[i].role == role && r.1.users[i].permissions == DefaultPermissions(role)
  {
  }
}

=== FILE: audit.dfy ===
/**
 * The audit trail (`auditLogStorage` and `createAuditLog` in
 * `src/lib/sync.ts`): an append-only log that keeps only the newest
 * `Capacity` entries.
 */
module Audit {
  import opened Wrappers
  import opened Storage

  datatype AuditLog = AuditLog(
    id: string,
    userId: string,
    username: string,
    action: string,
    entityType: EntityType,
    entityId: string,
    details: string,
    timestamp: int)

  const Capacity: nat := 1000

  /** The last `n` entries of `s` (all of them when there are fewer). */
  ghost function Newest<T>(s: seq<T>, n: nat): (r: seq<T>)
    ensures |r| == if |s| <= n then |s| else n
  {
    if |s| <= n then s else s[|s| - n..]
  }

  /**
   * `auditLogStorage.add`: the new entry is last; the log grows by one until
   * it holds `Capacity` entries, and beyond that the oldest entries go.
   */
  function AddLog(logs: seq<AuditLog>, log: AuditLog): (r: seq<AuditLog>)
    ensures |r| == if |logs| + 1 <= Capacity then |logs| + 1 else Capacity
    ensures r[|r| - 1] == log
    ensures r[..|r| - 1] == logs[|logs| - (|r| - 1)..]
  {
    var all := logs + [log];
    if |all| > Capacity then all[|all| - Capacity..] else all
  }

  /** `auditLogStorage.clear`: the key is removed, which reads back as no entries. */
  const Cleared: seq<AuditLog> := []

  /** A sequence of `add` calls, oldest first. */
  function AddAll(logs: seq<AuditLog>, entries: seq<AuditLog>): seq<AuditLog>
    decreases |entries|
  {
    if entries == [] then logs
    else AddAll(AddLog(logs, entries[0]), entries[1..])
  }

  /** Adding one at a time keeps exactly the newest `Capacity` entries of everything added. */
  lemma {:induction false} AddAllKeepsNewest(logs: seq<AuditLog>, entries: seq<AuditLog>)
    requires |logs| <= Capacity
    ensures AddAll(logs, entries) == Newest(logs + entries, Capacity)
    decreases |entries|
  {
    if entries != [] {
      assert (logs + [entries[0]]) + entries[1..] == logs + entries;
      var next := AddLog(logs, entries[0]);
      AddLogIsNewest(logs, entries[0]);
      AddAllKeepsNewest(next, entries[1..]);
      NewestAppend(logs + [entries[0]], entries[1..]);
    }
  }

  lemma AddLogIsNewest(logs: seq<AuditLog>, e: AuditLog)
    ensures AddLog(logs, e) == Newest(logs + [e], Capacity)
  {
  }

  /** Truncating early or late gives the same newest entries. */
  lemma NewestAppend(s: seq<AuditLog>, t: seq<AuditLog>)
    ensures Newest(Newest(s, Capacity) + t, Capacity) == Newest(s + t, Capacity)
  {
    if |s| > Capacity {
      var u := s[|s| - Capacity..];
      assert (u + t)[|u + t| - Capacity..] == (s + t)[|s + t| - Capacity..];
    }
  }

  /** Starting from a cleared log, 1005 additions leave the last 1000 of them. */
  lemma OverflowDropsOldest(entries: seq<AuditLog>)
    requires |entries| == 1005
    ensures AddAll(Cleared, entries) == entries[5..]
  {
    AddAllKeepsNewest(Cleared, entries);
    assert Cleared + entries == entries;
  }

  /**
   * `createAuditLog`: the actor is the stored session user; a missing session
   * or an empty field falls back to user id "unknown" and name "System". The
   * entry is appended with `add`.
   */
  function CreateAuditLog(
    logs: seq<AuditLog>, current: Option<SessionUser>, freshId: string, now: int,
    action: string, entityType: EntityType, entityId: string, details: string): (r: seq<AuditLog>)
    ensures |r| == if |logs| + 1 <= Capacity then |logs| + 1 else Capacity
    ensures r[..|r| - 1] == logs[|logs| - (|r| - 1)..]
    ensures var e := r[|r| - 1];
      && e.id == freshId && e.timestamp == now
      && e.action == action && e.entityType == entityType && e.entityId == entityId && e.details == details
      && (current.None? || current.value.id == "" ==> e.userId == "unknown")
      && (current.None? || current.value.username == "" ==> e.username == "System")
      && (current.Some? && current.value.id != "" ==> e.userId == current.value.id)
      && (current.Some? && current.value.username != "" ==> e.username == current.value.username)
  {
    var userId := if current.Some? && current.value.id != "" then current.value.id else "unknown";
    var username := if current.Some? && current.value.username != "" then current.value.username else "System";
    AddLog(logs, AuditLog(freshId, userId, username, action, entityType, entityId, details, now))
  }
}

=== FILE: audit_view.dfy ===
/**
 * The audit-log page (`src/pages/AuditLogs.tsx`): newest-first display,
 * the search and type filter, and the CSV export. Timestamps are printed
 * by the parameter `showTime`.
 */
module AuditView {
  import opened Wrappers
  import opened Seqs
  import opened Text
  import opened Storage
  import opened Audit

  const NoLogsToExport := "No logs to export"
  const LogColumns := ["Timestamp", "User", "Action", "Entity Type", "Entity ID", "Details"]
  const LogHeader := Join(LogColumns, ",")

  /** `loadLogs`: the stored log reversed, so the most recent entry comes first. */
  function Displayed(logs: seq<AuditLog>): (r: seq<AuditLog>)
    ensures |r| == |logs|
    ensures forall i :: 0 <= i < |logs| ==> r[i] == logs[|logs| - 1 - i]
  {
    if logs == [] then [] else [logs[|logs| - 1]] + Displayed(logs[..|logs| - 1])
  }

  /** Reversing twice gives the stored order back. */
  lemma DisplayedTwice(logs: seq<AuditLog>)
    ensures Displayed(Displayed(logs)) == logs
  {
  }

  /** After an entry is logged, it is the first one shown. */
  lemma NewestShownFirst(logs: seq<AuditLog>, e: AuditLog)
    ensures Displayed(AddLog(logs, e))[0] == e
  {
  }

  /** The type drop-down: every type, or one entity type. */
  datatype TypeFilter = AllTypes | OnlyType(kind: EntityType)

  /** The search box: the term occurs in the user name, the action or the details, ignoring case. */
  predicate MatchesSearch(log: AuditLog, term: string) {
    ContainsIgnoreCase(log.username, term) || ContainsIgnoreCase(log.action, term) || ContainsIgnoreCase(log.details, term)
  }

  predicate MatchesType(log: AuditLog, f: TypeFilter) {
    f.AllTypes? || log.entityType == f.kind
  }

  /** `filteredLogs`: the shown entries that pass both the search and the type filter, in shown order. */
  function FilterLogs(logs: seq<AuditLog>, term: string, f: TypeFilter): (r: seq<AuditLog>)
    ensures forall i :: 0 <= i < |r| ==> r[i] in logs && MatchesSearch(r[i], term) && MatchesType(r[i], f)
    ensures forall i :: 0 <= i < |logs| && MatchesSearch(logs[i], term) && MatchesType(logs[i], f) ==> logs[i] in r
  {
    Filter(logs, (log: AuditLog) => MatchesSearch(log, term) && MatchesType(log, f))
  }

  /**
   * Filtering distributes over a split of the list, and a lone entry is kept
   * iff it passes both filters: the shown entries keep their order and
   * multiplicity.
   */
  lemma FilterLogsKeepsOrder(a: seq<AuditLog>, b: seq<AuditLog>, term: string, f: TypeFilter)
    ensures FilterLogs(a + b, term, f) == FilterLogs(a, term, f) + FilterLogs(b, term, f)
    ensures forall log: AuditLog :: FilterLogs([log], term, f) == if MatchesSearch(log, term) && MatchesType(log, f) then [log] else []
  {
    FilterConcat(a, b, (log: AuditLog) => MatchesSearch(log, term) && MatchesType(log, f));
    forall log: AuditLog
      ensures FilterLogs([log], term, f) == if MatchesSearch(log, term) && MatchesType(log, f) then [log] else []
    {
      FilterSingle(log, (log: AuditLog) => MatchesSearch(log, term) && MatchesType(log, f));
    }
  }

  /** With an empty search and every type selected, nothing is filtered out. */
  lemma NoFilterKeepsAll(logs: seq<AuditLog>)
    ensures FilterLogs(logs, "", AllTypes) == logs
  {
    forall i | 0 <= i < |logs|
      ensures MatchesSearch(logs[i], "")
    {
      EmptyTermMatches(logs[i].username);
    }
    FilterKeepsAll(logs, (log: AuditLog) => MatchesSearch(log, "") && MatchesType(log, AllTypes));
  }

  /** The entity type as the log stores it. */
  function TypeName(t: EntityType): string {
    match t
    case SaleEntity => "sale"
    case RefundEntity => "refund"
    case MedicineEntity => "medicine"
    case ExpenseEntity => "expense"
  }

  /** Every field but the last, each wrapped in quotes as written (no quote doubling), with the separating commas. */
  function LogPrefix(log: AuditLog, showTime: int -> string): string {
    "\"" + showTime(log.timestamp) + "\",\"" + log.username + "\",\"" + log.action + "\",\""
      + TypeName(log.entityType) + "\",\"" + log.entityId + "\","
  }

  /** One export line: only the details field has its quotes doubled. */
  function LogLine(log: AuditLog, showTime: int -> string): (r: string)
    ensures |LogPrefix(log, showTime)| <= |r| && r[..|LogPrefix(log, showTime)|] == LogPrefix(log, showTime)
    ensures ParseQuotedField(r[|LogPrefix(log, showTime)|..]) == Some(log.details)
  {
    var p := LogPrefix(log, showTime);
    QuoteFieldRoundTrip(log.details);
    var r := p + QuoteField(log.details);
    assert r[|p|..] == QuoteField(log.details);
    r
  }

  function LogLines(logs: seq<AuditLog>, showTime: int -> string): (r: seq<string>)
    ensures |r| == |logs| + 1 && r[0] == LogHeader
    ensures forall k :: 0 <= k < |logs| ==> r[k + 1] == LogLine(logs[k], showTime)
  {
    [LogHeader] + seq(|logs|, k requires 0 <= k < |logs| => LogLine(logs[k], showTime))
  }

  /** `exportLogs`: refused when the filtered list is empty, otherwise the header and one line per entry. */
  function ExportLogs(filtered: seq<AuditLog>, showTime: int -> string): (r: Result<string>)
    ensures r.Failure? <==> filtered == []
    ensures r.Failure? ==> r.error == NoLogsToExport
    ensures r.Success? ==> r.value == Join(LogLines(filtered, showTime), "\n")
  {
    if filtered == [] then Failure(NoLogsToExport)
    else Success(Join(LogLines(filtered, showTime), "\n"))
  }

  /** No line break in any field of the entry. */
  predicate SingleLine(log: AuditLog, showTime: int -> string) {
    '\n' !in showTime(log.timestamp) && '\n' !in log.username && '\n' !in log.action
    && '\n' !in log.entityId && '\n' !in log.details
  }

  /**
   * Reading the export back: when no field holds a line break, splitting at
   * line breaks gives the header and one line per exported entry, in order,
   * each ending with the entry's details recovered exactly.
   */
  lemma ExportLogsReadsBack(filtered: seq<AuditLog>, showTime: int -> string)
    requires filtered != []
    requires forall k :: 0 <= k < |filtered| ==> SingleLine(filtered[k], showTime)
    ensures var lines := Split(ExportLogs(filtered, showTime).value, '\n');
      && |lines| == |filtered| + 1 && lines[0] == LogHeader
      && forall k :: 0 <= k < |filtered| ==>
           var p := LogPrefix(filtered[k], showTime);
           |p| <= |lines[k + 1]| && lines[k + 1][..|p|] == p
           && ParseQuotedField(lines[k + 1][|p|..]) == Some(filtered[k].details)
  {
    var lines := LogLines(filtered, showTime);
    LogLinesHaveNoBreaks(filtered, showTime);
    SplitJoin(lines, '\n');
    assert Split(ExportLogs(filtered, showTime).value, '\n') == lines;
  }

  lemma LogLinesHaveNoBreaks(logs: seq<AuditLog>, showTime: int -> string)
    requires forall k :: 0 <= k < |logs| ==> SingleLine(logs[k], showTime)
    ensures forall i :: 0 <= i < |LogLines(logs, showTime)| ==> '\n' !in LogLines(logs, showTime)[i]
  {
    var lines := LogLines(logs, showTime);
    forall i | 0 <= i < |lines|
      ensures '\n' !in lines[i]
    {
      if i > 0 {
        LogLineHasNoBreak(logs[i - 1], showTime);
      } else {
        HeaderHasNoBreak();
      }
    }
  }

  lemma HeaderHasNoBreak()
    ensures '\n' !in LogHeader
  {
    forall i | 0 <= i < |LogColumns|
      ensures '\n' !in LogColumns[i]
    {
      var col := LogColumns[i];
      assert forall j :: 0 <= j < |col| ==> col[j] != '\n';
    }
    JoinAvoids(LogColumns, ",", '\n');
  }

  lemma LogLineHasNoBreak(log: AuditLog, showTime: int -> string)
    requires SingleLine(log, showTime)
    ensures '\n' !in LogLine(log, showTime)
  {
    var t := TypeName(log.entityType);
    assert '\n' !in t by {
      assert forall j :: 0 <= j < |t| ==> t[j] != '\n';
    }
    QuotedTail(LogPrefix(log, showTime), log.details);
  }
}

=== FILE: billing.dfy ===
/**
 * The point-of-sale cart (`src/pages/Billing.tsx`): adding medicines,
 * changing and removing lines, and checkout, which records the sale and
 * takes the sold quantities out of stock. Money is in integer cents.
 */
module Billing {
  import opened Wrappers
  import opened Seqs
  import opened Storage

  const OutOfStock := "Medicine out of stock"
  const InsufficientStock := "Insufficient stock"
  const CartEmpty := "Cart is empty"

  /** The cart after a user action, and the error shown, if any. */
  datatype Reply = Reply(cart: seq<SaleItem>, error: Option<string>)

  /** At most one line per medicine. */
  ghost predicate OneLinePerMedicine(cart: seq<SaleItem>) {
    forall i, j :: 0 <= i < j < |cart| ==> cart[i].medicineId != cart[j].medicineId
  }

  /** Every line has a positive quantity, its total is quantity times price, and it does not exceed the stock of its medicine. */
  ghost predicate WithinStock(cart: seq<SaleItem>, ms: seq<Medicine>) {
    forall i :: 0 <= i < |cart| ==>
      && cart[i].quantity >= 1
      && cart[i].total == cart[i].quantity * cart[i].price
      && (FindMedicine(ms, cart[i].medicineId).Some? ==> cart[i].quantity <= FindMedicine(ms, cart[i].medicineId).value.quantity)
  }

  predicate HasLine(cart: seq<SaleItem>, id: string) {
    exists i :: 0 <= i < |cart| && cart[i].medicineId == id
  }

  /** `cart.find(item => item.medicineId === id)`: the first line for the medicine. */
  function LineFor(cart: seq<SaleItem>, id: string): (r: Option<SaleItem>)
    ensures r.None? <==> !HasLine(cart, id)
    ensures r.Some? ==> r.value in cart && r.value.medicineId == id
    ensures r.Some? ==> exists i :: 0 <= i < |cart| && cart[i] == r.value && forall j :: 0 <= j < i ==> cart[j].medicineId != id
  {
    match IndexWhere(cart, (item: SaleItem) => item.medicineId == id)
    case Some(i) => Some(cart[i])
    case None => None
  }

  /** Sets the quantity of every line for `id` and recomputes its total. */
  function SetLineQuantity(cart: seq<SaleItem>, id: string, quantity: int): (r: seq<SaleItem>)
    ensures |r| == |cart|
    ensures forall i :: 0 <= i < |cart| ==> r[i].medicineId == cart[i].medicineId
    ensures forall i :: 0 <= i < |cart| && cart[i].medicineId != id ==> r[i] == cart[i]
    ensures forall i :: 0 <= i < |cart| && cart[i].medicineId == id ==>
      r[i] == cart[i].(quantity := quantity, total := quantity * cart[i].price)
  {
    seq(|cart|, i requires 0 <= i < |cart| =>
      if cart[i].medicineId == id then cart[i].(quantity := quantity, total := quantity * cart[i].price) else cart[i])
  }

  /** The page's increment: every line for `id` grows by one from its own quantity, and its total is recomputed. */
  function IncrementLines(cart: seq<SaleItem>, id: string): (r: seq<SaleItem>)
    ensures |r| == |cart|
    ensures forall i :: 0 <= i < |cart| && cart[i].medicineId != id ==> r[i] == cart[i]
    ensures forall i :: 0 <= i < |cart| && cart[i].medicineId == id ==>
      r[i] == cart[i].(quantity := cart[i].quantity + 1, total := (cart[i].quantity + 1) * cart[i].price)
  {
    seq(|cart|, i requires 0 <= i < |cart| =>
      if cart[i].medicineId == id then cart[i].(quantity := cart[i].quantity + 1, total := (cart[i].quantity + 1) * cart[i].price)
      else cart[i])
  }

  /** With one line per medicine, incrementing is setting that line's quantity one higher. */
  lemma IncrementIsSetOneHigher(cart: seq<SaleItem>, id: string, line: SaleItem)
    requires OneLinePerMedicine(cart) && LineFor(cart, id) == Some(line)
    ensures IncrementLines(cart, id) == SetLineQuantity(cart, id, line.quantity + 1)
  {
    forall i | 0 <= i < |cart| && cart[i].medicineId == id
      ensures cart[i] == line
    {
      var k :| 0 <= k < |cart| && cart[k] == line;
      assert cart[k].medicineId == cart[i].medicineId;
    }
  }

  /**
   * `addToCart`: an unknown medicine changes nothing; a medicine with no
   * stock is refused; when the first line for it already holds the whole
   * stock the add is refused, otherwise every line for it grows by one;
   * without a line, a new line of quantity one is appended at the sale price.
   */
  function AddToCart(ms: seq<Medicine>, cart: seq<SaleItem>, id: string): (r: Reply)
    ensures FindMedicine(ms, id).None? ==> r == Reply(cart, None)
    ensures FindMedicine(ms, id).Some? && FindMedicine(ms, id).value.quantity <= 0 ==> r == Reply(cart, Some(OutOfStock))
    // An existing line at its medicine's stock is refused; below it, the line grows by one.
    ensures FindMedicine(ms, id).Some? && FindMedicine(ms, id).value.quantity > 0 && LineFor(cart, id).Some? ==>
      if LineFor(cart, id).value.quantity >= FindMedicine(ms, id).value.quantity then r == Reply(cart, Some(InsufficientStock))
      else r == Reply(IncrementLines(cart, id), None)
    // A medicine in stock without a line is always added, as one unit at its sale price.
    ensures FindMedicine(ms, id).Some? && FindMedicine(ms, id).value.quantity > 0 && !HasLine(cart, id) ==>
      var m := FindMedicine(ms, id).value;
      r == Reply(cart + [SaleItem(id, m.name, 1, m.salePrice, m.salePrice)], None)
    ensures r.error.Some? ==> r.cart == cart
    ensures OneLinePerMedicine(cart) ==> OneLinePerMedicine(r.cart)
    ensures OneLinePerMedicine(cart) && WithinStock(cart, ms) ==> WithinStock(r.cart, ms)
  {
    match FindMedicine(ms, id)
    case None => Reply(cart, None)
    case Some(m) =>
      if m.quantity <= 0 then Reply(cart, Some(OutOfStock))
      else match LineFor(cart, id)
        case Some(line) =>
          if line.quantity >= m.quantity then Reply(cart, Some(InsufficientStock))
          else
            AddOneKeepsBounds(ms, cart, id, line);
            Reply(IncrementLines(cart, id), None)
        case None =>
          AppendKeepsBounds(ms, cart, id, m);
          Reply(cart + [SaleItem(id, m.name, 1, m.salePrice, m.salePrice)], None)
  }

  /** A new line of one unit for a medicine in stock that has no line yet keeps both cart invariants. */
  lemma AppendKeepsBounds(ms: seq<Medicine>, cart: seq<SaleItem>, id: string, m: Medicine)
    requires FindMedicine(ms, id) == Some(m) && m.quantity > 0 && !HasLine(cart, id)
    ensures var r := cart + [SaleItem(id, m.name, 1, m.salePrice, m.salePrice)];
      && (OneLinePerMedicine(cart) ==> OneLinePerMedicine(r))
      && (WithinStock(cart, ms) ==> WithinStock(r, ms))
  {
    var r := cart + [SaleItem(id, m.name, 1, m.salePrice, m.salePrice)];
    assert forall i :: 0 <= i < |cart| ==> r[i] == cart[i];
  }

  /** Incrementing a medicine whose first line is below its stock keeps both cart invariants, given one line per medicine. */
  lemma AddOneKeepsBounds(ms: seq<Medicine>, cart: seq<SaleItem>, id: string, line: SaleItem)
    requires FindMedicine(ms, id).Some? && LineFor(cart, id) == Some(line)
    requires line.quantity < FindMedicine(ms, id).value.quantity
    ensures OneLinePerMedicine(cart) ==> OneLinePerMedicine(IncrementLines(cart, id))
    ensures WithinStock(cart, ms) && OneLinePerMedicine(cart) ==> WithinStock(IncrementLines(cart, id), ms)
  {
    if OneLinePerMedicine(cart) {
      IncrementIsSetOneHigher(cart, id, line);
      forall i | 0 <= i < |cart| && cart[i].medicineId == id
        ensures cart[i] == line
      {
        var k :| 0 <= k < |cart| && cart[k] == line;
        assert cart[k].medicineId == cart[i].medicineId;
      }
    }
  }

  /**
   * On a cart holding two lines for one medicine, each line grows from its
   * own quantity, so a line already at the stock passes it: the stock bound
   * needs one line per medicine.
   */
  lemma TwoLinesGrowSeparately()
    ensures var a := SaleItem("A", "A", 1, 5, 5);
      var b := SaleItem("A", "A", 3, 5, 15);
      var ms := [Medicine("A", "A", "", "", 3, 0, 5, "", 10, 0, 0)];
      && AddToCart(ms, [a, b], "A") == Reply([a.(quantity := 2, total := 10), b.(quantity := 4, total := 20)], None)
      && WithinStock([a, b], ms) && !WithinStock(AddToCart(ms, [a, b], "A").cart, ms)
  {
    var a := SaleItem("A", "A", 1, 5, 5);
    var b := SaleItem("A", "A", 3, 5, 15);
    var ms := [Medicine("A", "A", "", "", 3, 0, 5, "", 10, 0, 0)];
    assert FindMedicine(ms, "A") == Some(ms[0]);
    assert LineFor([a, b], "A") == Some(a);
    var r := AddToCart(ms, [a, b], "A").cart;
    assert r[1].quantity == 4;
  }

  /**
   * `updateQuantity`: a quantity above the stock (or for an unknown
   * medicine) is refused; zero or less removes the line; anything else sets
   * the quantity and recomputes the total.
   */
  function UpdateQuantity(ms: seq<Medicine>, cart: seq<SaleItem>, id: string, quantity: int): (r: Reply)
    ensures FindMedicine(ms, id).None? || quantity > FindMedicine(ms, id).value.quantity <==> r == Reply(cart, Some(InsufficientStock))
    ensures r.error.None? && quantity <= 0 ==> r.cart == RemoveFromCart(cart, id) && !HasLine(r.cart, id)
    ensures r.error.None? && quantity > 0 ==> r.cart == SetLineQuantity(cart, id, quantity)
    ensures r.error.None? && quantity > 0 ==> forall i :: 0 <= i < |r.cart| && r.cart[i].medicineId == id ==>
      r.cart[i].quantity == quantity && r.cart[i].total == quantity * r.cart[i].price
    ensures forall i :: 0 <= i < |cart| && cart[i].medicineId != id ==> cart[i] in r.cart
    ensures OneLinePerMedicine(cart) ==> OneLinePerMedicine(r.cart)
    ensures WithinStock(cart, ms) ==> WithinStock(r.cart, ms)
  {
    match FindMedicine(ms, id)
    case None => Reply(cart, Some(InsufficientStock))
    case Some(m) =>
      if quantity > m.quantity then Reply(cart, Some(InsufficientStock))
      else if quantity <= 0 then Reply(RemoveFromCart(cart, id), None)
      else Reply(SetLineQuantity(cart, id, quantity), None)
  }

  /** `removeFromCart`: drops exactly the lines for `id`, keeping the others in order. */
  function RemoveFromCart(cart: seq<SaleItem>, id: string): (r: seq<SaleItem>)
    ensures !HasLine(r, id)
    ensures forall i :: 0 <= i < |r| ==> r[i] in cart
    ensures forall i :: 0 <= i < |cart| && cart[i].medicineId != id ==> cart[i] in r
    ensures OneLinePerMedicine(cart) ==> OneLinePerMedicine(r)
  {
    RemoveKeepsOneLine(cart, id);
    Filter(cart, (item: SaleItem) => item.medicineId != id)
  }

  /** Filtering out one medicine's lines keeps one line per medicine. */
  lemma {:induction false} RemoveKeepsOneLine(cart: seq<SaleItem>, id: string)
    ensures OneLinePerMedicine(cart) ==> OneLinePerMedicine(Filter(cart, (item: SaleItem) => item.medicineId != id))
    decreases |cart|
  {
    if cart != [] && OneLinePerMedicine(cart) {
      RemoveKeepsOneLine(cart[1..], id);
      if cart[0].medicineId != id {
        PrependKeepsLines(cart, Filter(cart[1..], (item: SaleItem) => item.medicineId != id), id);
      }
    }
  }

  /** Removal works line by line: the kept lines of a split cart stay in their order, and a lone line goes iff it is for `id`. */
  lemma RemoveKeepsOrder(a: seq<SaleItem>, b: seq<SaleItem>, id: string)
    ensures RemoveFromCart(a + b, id) == RemoveFromCart(a, id) + RemoveFromCart(b, id)
    ensures forall x: SaleItem :: RemoveFromCart([x], id) == if x.medicineId == id then [] else [x]
  {
    FilterConcat(a, b, (item: SaleItem) => item.medicineId != id);
    forall x: SaleItem
      ensures RemoveFromCart([x], id) == if x.medicineId == id then [] else [x]
    {
      FilterSingle(x, (item: SaleItem) => item.medicineId != id);
    }
  }

  /** Putting back a line for another medicine in front of the filtered rest keeps one line per medicine. */
  lemma PrependKeepsLines(cart: seq<SaleItem>, rest: seq<SaleItem>, id: string)
    requires cart != [] && cart[0].medicineId != id && !HasLine(rest, id)
    requires forall i :: 0 <= i < |rest| ==> rest[i] in cart[1..]
    ensures !HasLine([cart[0]] + rest, id)
    ensures OneLinePerMedicine(cart) && OneLinePerMedicine(rest) ==> OneLinePerMedicine([cart[0]] + rest)
  {
    var r := [cart[0]] + rest;
    assert forall i :: 1 <= i < |r| ==> r[i] == rest[i - 1];
    if OneLinePerMedicine(cart) {
      forall i | 0 <= i < |rest|
        ensures rest[i].medicineId != cart[0].medicineId
      {
        var k :| 0 <= k < |cart[1..]| && cart[1..][k] == rest[i];
        assert cart[k + 1] == rest[i];
      }
    }
  }

  /** Subtotal in cents: the sum of the line totals. */
  function Subtotal(cart: seq<SaleItem>): int {
    SumOf(cart, (item: SaleItem) => item.total)
  }

  /** One iteration of the stock update: reads the medicine again and subtracts the line quantity. */
  function DeductLine(ms: seq<Medicine>, item: SaleItem, now: int): seq<Medicine> {
    match FindMedicine(ms, item.medicineId)
    case None => ms
    case Some(m) => UpdateMedicine(ms, item.medicineId, NoChange.(quantity := Some(m.quantity - item.quantity)), now)
  }

  function DeductStock(ms: seq<Medicine>, items: seq<SaleItem>, now: int): seq<Medicine>
    decreases |items|
  {
    if items == [] then ms else DeductStock(DeductLine(ms, items[0], now), items[1..], now)
  }

  lemma DeductLineEffect(ms: seq<Medicine>, item: SaleItem, now: int)
    requires UniqueIds(ms)
    ensures var r := DeductLine(ms, item, now);
      && |r| == |ms| && UniqueIds(r)
      && forall j :: 0 <= j < |ms| ==>
           && SameButStock(ms[j], r[j])
           && r[j].quantity == ms[j].quantity - (if ms[j].id == item.medicineId then item.quantity else 0)
  {
    match FindMedicine(ms, item.medicineId)
    case None =>
    case Some(m) =>
      var p := NoChange.(quantity := Some(m.quantity - item.quantity));
      UpdateKeepsUnique(ms, item.medicineId, p, now);
      forall j | 0 <= j < |ms|
        ensures DeductLine(ms, item, now)[j] == if ms[j].id == item.medicineId then Patched(ms[j], p, now) else ms[j]
      {
        UpdateUnique(ms, item.medicineId, p, now, j);
      }
      forall j | 0 <= j < |ms| && ms[j].id == item.medicineId
        ensures ms[j] == m
      {
        var k :| IsFirstWithId(ms, k, item.medicineId) && ms[k] == m;
      }
  }

  /** After the stock update each medicine has lost exactly what the cart holds for it; nothing else changes. */
  lemma {:induction false} DeductStockEffect(ms: seq<Medicine>, items: seq<SaleItem>, now: int)
    requires UniqueIds(ms)
    ensures var r := DeductStock(ms, items, now);
      && |r| == |ms| && UniqueIds(r)
      && forall j :: 0 <= j < |ms| ==> SameButStock(ms[j], r[j]) && r[j].quantity == ms[j].quantity - QtyFor(items, ms[j].id)
    decreases |items|
  {
    if items != [] {
      var next := DeductLine(ms, items[0], now);
      DeductLineEffect(ms, items[0], now);
      DeductStockEffect(next, items[1..], now);
    }
  }

  /** A refused checkout leaves the cart as it was; a completed one returns the emptied cart. */
  datatype Checkout = CheckoutRefused(error: string) | CheckedOut(store: Store, sale: Sale, cart: seq<SaleItem>)

  /**
   * `handleCheckout`: an empty cart is refused. Otherwise the sale, holding
   * the cart's lines and their subtotal, is appended to the sales and every
   * line's quantity is taken out of its medicine's stock (lines whose
   * medicine is gone are skipped). The cart is then emptied. The discount
   * and tax amounts are computed by the caller.
   */
  function DoCheckout(st: Store, cart: seq<SaleItem>, saleId: string, now: int,
                      discount: int, tax: int, customerName: string, isCredit: bool): (r: Checkout)
    ensures cart == [] <==> r == CheckoutRefused(CartEmpty)
    ensures r.CheckedOut? ==>
      && r.sale.items == cart && r.sale.id == saleId
      && r.sale.subtotal == Subtotal(cart)
      && r.sale.total == r.sale.subtotal - discount + tax
      && r.sale.discount == discount && r.sale.tax == tax
      && r.sale.paymentMethod == "cash" && r.sale.isCredit == isCredit && r.sale.createdAt == now
      && (r.sale.customerName.None? <==> customerName == "")
      && (customerName != "" ==> r.sale.customerName == Some(customerName))
      && r.store.sales == st.sales + [r.sale]
      && r.store.(medicines := st.medicines, sales := st.sales) == st
      && r.cart == []
    ensures r.CheckedOut? && UniqueIds(st.medicines) ==>
      && |r.store.medicines| == |st.medicines| && UniqueIds(r.store.medicines)
      && forall j :: 0 <= j < |st.medicines| ==>
           && SameButStock(st.medicines[j], r.store.medicines[j])
           && r.store.medicines[j].quantity == st.medicines[j].quantity - QtyFor(cart, st.medicines[j].id)
  {
    if cart == [] then CheckoutRefused(CartEmpty)
    else
      var subtotal := Subtotal(cart);
      var sale := Sale(saleId, cart, subtotal, discount, tax, subtotal - discount + tax, "cash",
                       if customerName == "" then None else Some(customerName), isCredit, now);
      var ms := DeductStock(st.medicines, cart, now);
      assert UniqueIds(st.medicines) ==> |ms| == |st.medicines| && UniqueIds(ms) by {
        if UniqueIds(st.medicines) {
          DeductStockEffect(st.medicines, cart, now);
        }
      }
      assert UniqueIds(st.medicines) ==> forall j :: 0 <= j < |st.medicines| ==>
        SameButStock(st.medicines[j], ms[j]) && ms[j].quantity == st.medicines[j].quantity - QtyFor(cart, st.medicines[j].id) by {
        if UniqueIds(st.medicines) {
          DeductStockEffect(st.medicines, cart, now);
        }
      }
      CheckedOut(st.(sales := st.sales + [sale], medicines := DeductStock(st.medicines, cart, now)), sale, [])
  }

  /** With one line per medicine, a medicine's stock drops by its line's quantity, or not at all. */
  lemma {:induction false} QtyForSingleLine(cart: seq<SaleItem>, i: nat)
    requires OneLinePerMedicine(cart) && i < |cart|
    ensures QtyFor(cart, cart[i].medicineId) == cart[i].quantity
    decreases |cart|
  {
    if i == 0 {
      QtyForAbsent(cart[1..], cart[0].medicineId);
    } else {
      assert OneLinePerMedicine(cart[1..]);
      assert cart[1..][i - 1] == cart[i];
      QtyForSingleLine(cart[1..], i - 1);
    }
  }

  lemma {:induction false} QtyForAbsent(cart: seq<SaleItem>, id: string)
    requires !HasLine(cart, id)
    ensures QtyFor(cart, id) == 0
    decreases |cart|
  {
    if cart != [] {
      assert !HasLine(cart[1..], id) by {
        forall i | 0 <= i < |cart[1..]|
          ensures cart[1..][i].medicineId != id
        {
          assert cart[1..][i] == cart[i + 1];
        }
      }
      QtyForAbsent(cart[1..], id);
    }
  }
}

=== FILE: expenses.dfy ===
/**
 * The expenses page (`src/pages/Expenses.tsx`): validating and adding an
 * expense, deleting one, and the CSV export. Amounts are integer cents;
 * the page's `parseFloat` is the parameter `parseAmount` and the printing
 * of a number inside the export is the parameter `showAmount`.
 */
module ExpensesPage {
  import opened Wrappers
  import opened Seqs
  import opened Text
  import opened Storage

  const MissingFields := "Please fill in all required fields"
  const InvalidAmount := "Please enter a valid amount"
  const NothingToExport := "No expenses to export"
  const ExportHeader := "date,type,amount,note"

  /** The form's text fields. */
  datatype ExpenseForm = ExpenseForm(date: string, kind: string, amount: string, note: string)

  datatype Submitted = Refused(error: string) | Added(expenses: seq<Expense>, expense: Expense)

  /**
   * `handleSubmit`: an empty type or amount, or an amount that does not
   * parse to a positive number, is refused; otherwise the expense is
   * appended with a fresh id and the note trimmed.
   */
  function SubmitExpense(
    es: seq<Expense>, f: ExpenseForm, parseAmount: string -> Option<int>, freshId: string, now: int): (r: Submitted)
    ensures f.kind == "" || f.amount == "" <==> r == Refused(MissingFields)
    ensures r == Refused(InvalidAmount) <==>
      f.kind != "" && f.amount != "" && (parseAmount(f.amount).None? || parseAmount(f.amount).value <= 0)
    ensures r.Added? ==>
      && r.expenses == es + [r.expense]
      && r.expense == Expense(freshId, f.date, f.kind, parseAmount(f.amount).value, Trim(f.note), now)
      && r.expense.amount > 0
  {
    if f.kind == "" || f.amount == "" then Refused(MissingFields)
    else match parseAmount(f.amount)
      case None => Refused(InvalidAmount)
      case Some(amount) =>
        if amount <= 0 then Refused(InvalidAmount)
        else
          var e := Expense(freshId, f.date, f.kind, amount, Trim(f.note), now);
          Added(es + [e], e)
  }

  /** Every stored note has no surrounding white space, and adding keeps it that way. */
  lemma AddedNotesAreTrimmed(
    es: seq<Expense>, f: ExpenseForm, parseAmount: string -> Option<int>, freshId: string, now: int)
    requires forall i :: 0 <= i < |es| ==> Trim(es[i].note) == es[i].note
    requires SubmitExpense(es, f, parseAmount, freshId, now).Added?
    ensures var r := SubmitExpense(es, f, parseAmount, freshId, now).expenses;
      forall i :: 0 <= i < |r| ==> Trim(r[i].note) == r[i].note
  {
    TrimIdempotent(f.note);
  }

  /** `handleDelete`: drops the expenses with that id and keeps the rest in order. */
  function DeleteExpense(es: seq<Expense>, id: string): (r: seq<Expense>)
    ensures forall i :: 0 <= i < |r| ==> r[i] in es && r[i].id != id
    ensures forall i :: 0 <= i < |es| && es[i].id != id ==> es[i] in r
  {
    Filter(es, (e: Expense) => e.id != id)
  }

  /** Deleting an id nobody has changes nothing; deleting distributes over a split of the list. */
  lemma DeleteAbsent(es: seq<Expense>, id: string)
    requires forall i :: 0 <= i < |es| ==> es[i].id != id
    ensures DeleteExpense(es, id) == es
  {
    FilterKeepsAll(es, (e: Expense) => e.id != id);
  }

  lemma DeleteKeepsOrder(a: seq<Expense>, b: seq<Expense>, id: string)
    ensures DeleteExpense(a + b, id) == DeleteExpense(a, id) + DeleteExpense(b, id)
    ensures forall e: Expense :: DeleteExpense([e], id) == if e.id == id then [] else [e]
  {
    FilterConcat(a, b, (e: Expense) => e.id != id);
    forall e: Expense
      ensures DeleteExpense([e], id) == if e.id == id then [] else [e]
    {
      FilterSingle(e, (e: Expense) => e.id != id);
    }
  }

  /** The first three fields of an export line, each followed by a comma. */
  function LinePrefix(e: Expense, showAmount: int -> string): string {
    e.date + "," + e.kind + "," + showAmount(e.amount) + ","
  }

  /** One export line: the note is always enclosed in quotes with its quotes doubled. */
  function ExportLine(e: Expense, showAmount: int -> string): (r: string)
    ensures |LinePrefix(e, showAmount)| <= |r| && r[..|LinePrefix(e, showAmount)|] == LinePrefix(e, showAmount)
    ensures ParseQuotedField(r[|LinePrefix(e, showAmount)|..]) == Some(e.note)
  {
    var p := LinePrefix(e, showAmount);
    QuoteFieldRoundTrip(e.note);
    var r := p + QuoteField(e.note);
    assert r[|p|..] == QuoteField(e.note);
    r
  }

  function ExportLines(es: seq<Expense>, showAmount: int -> string): (r: seq<string>)
    ensures |r| == |es| + 1 && r[0] == ExportHeader
    ensures forall k :: 0 <= k < |es| ==> r[k + 1] == ExportLine(es[k], showAmount)
  {
    [ExportHeader] + seq(|es|, k requires 0 <= k < |es| => ExportLine(es[k], showAmount))
  }

  /** `exportExpenses`: refused on an empty list, otherwise the header and one line per expense. */
  function ExportExpenses(es: seq<Expense>, showAmount: int -> string): (r: Result<string>)
    ensures r.Failure? <==> es == []
    ensures r.Failure? ==> r.error == NothingToExport
    ensures r.Success? ==> r.value == Join(ExportLines(es, showAmount), "\n")
  {
    if es == [] then Failure(NothingToExport)
    else Success(Join(ExportLines(es, showAmount), "\n"))
  }

  /** No line break in any field of the expense. */
  predicate SingleLine(e: Expense, showAmount: int -> string) {
    '\n' !in e.date && '\n' !in e.kind && '\n' !in showAmount(e.amount) && '\n' !in e.note
  }

  /**
   * Reading the export back: when no field holds a line break, splitting
   * at line breaks gives the header and then, for each expense in order, a
   * line that starts with its date, type and amount and ends with its
   * note, recovered exactly from the quoted field.
   */
  lemma ExportReadsBack(es: seq<Expense>, showAmount: int -> string)
    requires es != []
    requires forall k :: 0 <= k < |es| ==> SingleLine(es[k], showAmount)
    ensures var lines := Split(ExportExpenses(es, showAmount).value, '\n');
      && |lines| == |es| + 1 && lines[0] == ExportHeader
      && forall k :: 0 <= k < |es| ==>
           var p := LinePrefix(es[k], showAmount);
           |p| <= |lines[k + 1]| && lines[k + 1][..|p|] == p
           && ParseQuotedField(lines[k + 1][|p|..]) == Some(es[k].note)
  {
    var lines := ExportLines(es, showAmount);
    LinesHaveNoBreaks(es, showAmount);
    SplitJoin(lines, '\n');
    assert Split(ExportExpenses(es, showAmount).value, '\n') == lines;
  }

  lemma LinesHaveNoBreaks(es: seq<Expense>, showAmount: int -> string)
    requires forall k :: 0 <= k < |es| ==> SingleLine(es[k], showAmount)
    ensures forall i :: 0 <= i < |ExportLines(es, showAmount)| ==> '\n' !in ExportLines(es, showAmount)[i]
  {
    var lines := ExportLines(es, showAmount);
    forall i | 0 <= i < |lines|
      ensures '\n' !in lines[i]
    {
      if i > 0 {
        LineHasNoBreak(es[i - 1], showAmount);
      } else {
        assert forall j :: 0 <= j < |ExportHeader| ==> ExportHeader[j] != '\n';
      }
    }
  }

  lemma LineHasNoBreak(e: Expense, showAmount: int -> string)
    requires SingleLine(e, showAmount)
    ensures '\n' !in ExportLine(e, showAmount)
  {
    QuotedTail(LinePrefix(e, showAmount), e.note);
  }
}

=== FILE: inventory.dfy ===
/**
 * The medicines page (`src/pages/Medicines.tsx`): the search filter, the
 * low-stock flag and the CSV import, which reads one medicine per line and
 * counts every non-blank line as either imported or skipped.
 */
module Inventory {
  import opened Wrappers
  import opened Seqs
  import opened Text
  import opened Storage

  /** The search box: the term occurs in the name or the type, ignoring case. */
  predicate MatchesSearch(m: Medicine, term: string) {
    ContainsIgnoreCase(m.name, term) || ContainsIgnoreCase(m.kind, term)
  }

  /** `filteredMedicines`: the matching medicines, in catalogue order. */
  function SearchMedicines(ms: seq<Medicine>, term: string): (r: seq<Medicine>)
    ensures forall i :: 0 <= i < |r| ==> r[i] in ms && MatchesSearch(r[i], term)
    ensures forall i :: 0 <= i < |ms| && MatchesSearch(ms[i], term) ==> ms[i] in r
  {
    Filter(ms, (m: Medicine) => MatchesSearch(m, term))
  }

  /** The search follows catalogue order: a split catalogue gives its parts' matches in order, and a lone medicine is shown iff it matches. */
  lemma {:induction false} SearchKeepsOrder(a: seq<Medicine>, b: seq<Medicine>, term: string)
    ensures SearchMedicines(a + b, term) == SearchMedicines(a, term) + SearchMedicines(b, term)
    ensures forall m: Medicine :: SearchMedicines([m], term) == if MatchesSearch(m, term) then [m] else []
  {
    FilterConcat(a, b, (m: Medicine) => MatchesSearch(m, term));
    forall m: Medicine
      ensures SearchMedicines([m], term) == if MatchesSearch(m, term) then [m] else []
    {
      FilterSingle(m, (m: Medicine) => MatchesSearch(m, term));
    }
  }

  /** An empty search box shows the whole catalogue. */
  lemma {:induction false} EmptySearchShowsAll(ms: seq<Medicine>)
    ensures SearchMedicines(ms, "") == ms
  {
    forall i | 0 <= i < |ms|
      ensures MatchesSearch(ms[i], "")
    {
      EmptyTermMatches(ms[i].name);
    }
    FilterKeepsAll(ms, (m: Medicine) => MatchesSearch(m, ""));
  }

  /** `isLowStock`: at or below the reorder level, so an empty shelf with a non-negative level is always flagged. */
  predicate IsLowStock(m: Medicine)
    ensures IsLowStock(m) <==> m.quantity <= m.reorderLevel
    ensures m.quantity <= 0 <= m.reorderLevel ==> IsLowStock(m)
  {
    m.quantity <= m.reorderLevel
  }

  // ---------------------------------------------------------------------------
  // CSV import
  // ---------------------------------------------------------------------------

  /** Header names: each comma-separated cell of the first line, trimmed and lower-cased. */
  function HeaderNames(first: string): (r: seq<string>)
    ensures |r| == |Split(first, ',')|
    ensures forall i :: 0 <= i < |r| ==> r[i] == Lower(Trim(Split(first, ',')[i]))
  {
    var cells := Split(first, ',');
    seq(|cells|, i requires 0 <= i < |cells| => Lower(Trim(cells[i])))
  }

  /** The cells of a data line: the trimmed line split at commas, each cell trimmed. */
  function RowValues(line: string): (r: seq<string>)
    ensures |r| == |Split(line, ',')|
    ensures forall i :: 0 <= i < |r| ==> r[i] == Trim(Split(line, ',')[i])
  {
    var cells := Split(line, ',');
    seq(|cells|, i requires 0 <= i < |cells| => Trim(cells[i]))
  }

  /** `headers.indexOf(column)`, None for -1. */
  function ColumnIndex(headers: seq<string>, column: string): (r: Option<nat>)
    ensures r.Some? <==> column in headers
    ensures r.Some? ==> r.value < |headers| && headers[r.value] == column
    ensures r.Some? ==> forall j :: 0 <= j < r.value ==> headers[j] != column
  {
    IndexWhere(headers, (h: string) => h == column)
  }

  /**
   * `values[headers.indexOf(column)] || ''`: a missing column or a short
   * row reads as the empty string.
   */
  function Field(headers: seq<string>, values: seq<string>, column: string): (r: string)
    ensures column !in headers ==> r == ""
    ensures r != "" ==> r in values
    ensures forall k :: 0 <= k < |values| && ColumnIndex(headers, column) == Some(k) ==> r == values[k]
    ensures forall k :: k >= |values| && ColumnIndex(headers, column) == Some(k) ==> r == ""
  {
    match ColumnIndex(headers, column)
    case Some(k) => if k < |values| then values[k] else ""
    case None => ""
  }

  /** Some medicine in the store already has this name, ignoring case: `some` over the store, first to last. */
  predicate NameTaken(ms: seq<Medicine>, name: string)
    decreases |ms|
  {
    |ms| > 0 && (EqualsIgnoreCase(ms[0].name, name) || NameTaken(ms[1..], name))
  }

  /** `NameTaken` holds exactly when some position of the store holds a medicine of that name. */
  lemma {:induction false} NameTakenAt(ms: seq<Medicine>, name: string)
    ensures NameTaken(ms, name) <==> exists i :: 0 <= i < |ms| && EqualsIgnoreCase(ms[i].name, name)
    decreases |ms|
  {
    if |ms| > 0 {
      NameTakenAt(ms[1..], name);
      if NameTaken(ms[1..], name) {
        var i :| 0 <= i < |ms| - 1 && EqualsIgnoreCase(ms[1..][i].name, name);
        assert ms[i + 1] == ms[1..][i];
      }
      if exists i :: 0 <= i < |ms| && EqualsIgnoreCase(ms[i].name, name) {
        var i :| 0 <= i < |ms| && EqualsIgnoreCase(ms[i].name, name);
        if i > 0 {
          assert ms[1..][i - 1] == ms[i];
        }
      }
    }
  }

  /**
   * `parseInt(v || '0') || 0`: an empty or unparsable cell gives 0; a cell
   * with a `0x` prefix is read in base 16, as `parseInt` without a radix does.
   */
  function QuantityOf(v: string): (r: int)
    ensures ParseInt(v).Some? ==> r == ParseInt(v).value
    ensures ParseInt(v).None? ==> r == 0
  {
    assert ParseInt("0") == Some(0) by { ParseIntRoundTrip(0); }
    ParseInt(if v == "" then "0" else v).GetOr(0)
  }

  /** `parseInt(v || '10') || 10`: an empty, unparsable or zero cell gives 10. */
  function ReorderLevelOf(v: string): (r: int)
    ensures r != 0
    ensures v == "" ==> r == 10
    ensures ParseInt(v).None? || ParseInt(v) == Some(0) ==> r == 10
    ensures ParseInt(v).Some? && ParseInt(v).value != 0 ==> r == ParseInt(v).value
  {
    assert ParseInt("10") == Some(10) by {
      assert IntToString(10) == "10";
      ParseIntRoundTrip(10);
    }
    match ParseInt(if v == "" then "10" else v)
    case Some(n) => if n == 0 then 10 else n
    case None => 10
  }

  /** A quantity cell of `0x10` is sixteen, and a `-0x0` reorder level falls back to 10. */
  lemma {:induction false} HexCellsAreRead()
    ensures QuantityOf("0x10") == 16
    ensures ReorderLevelOf("-0x0") == 10
  {
    HexPrefixReadsHex("10");
    HexPrefixReadsHex("0");
  }

  /**
   * `parseFloat(v || '0') || 0`, with the decimal parser given as a parameter
   * in cents. A missing value reads `'0'`, which `parseFloat` takes to 0, so
   * it is 0 whatever the parameter answers; NaN also gives 0.
   */
  function PriceOf(v: string, parsePrice: string -> Option<int>): (r: int)
    ensures v == "" ==> r == 0
    ensures v != "" && parsePrice(v).None? ==> r == 0
    ensures v != "" && parsePrice(v).Some? ==> r == parsePrice(v).value
  {
    if v == "" then 0 else parsePrice(v).GetOr(0)
  }

  /** What one data line contributes. */
  datatype Row = Blank | Skipped | Imported(medicine: Medicine)

  /** The name cell of a data line. */
  function NameCell(headers: seq<string>, raw: string): string {
    Field(headers, RowValues(Trim(raw)), "name")
  }

  /** A data line that is not blank but cannot be imported: no name column, no name, or a name already stored. */
  predicate Rejects(headers: seq<string>, ms: seq<Medicine>, raw: string) {
    var name := NameCell(headers, raw);
    Trim(raw) != [] && ("name" !in headers || name == "" || NameTaken(ms, name))
  }

  /**
   * `m` is the medicine the page builds from the cells of a data line: the
   * named columns, with 0 for a missing quantity or price, 10 for a missing,
   * zero or unparsable reorder level, and the default expiry for a missing
   * one; its name is non-empty and not yet stored.
   */
  predicate BuiltFrom(
    m: Medicine, headers: seq<string>, ms: seq<Medicine>, raw: string,
    id: string, now: int, defaultExpiry: string, parsePrice: string -> Option<int>)
  {
    var values := RowValues(Trim(raw));
    && "name" in headers && m.name == NameCell(headers, raw) && m.name != ""
    && !NameTaken(ms, m.name)
    && m.id == id && m.createdAt == now && m.updatedAt == now
    && m.kind == Field(headers, values, "type")
    && m.strength == Field(headers, values, "strength")
    && m.quantity == QuantityOf(Field(headers, values, "quantity"))
    && m.costPrice == PriceOf(Field(headers, values, "costprice"), parsePrice)
    && m.salePrice == PriceOf(Field(headers, values, "saleprice"), parsePrice)
    && m.expiry == (if Field(headers, values, "expiry") == "" then defaultExpiry else Field(headers, values, "expiry"))
    && m.reorderLevel == ReorderLevelOf(Field(headers, values, "reorderlevel"))
  }

  /**
   * One iteration of the import loop. A line that is empty after trimming
   * is ignored. It is skipped when there is no `name` column, its name
   * cell is empty, or a stored medicine already has that name ignoring
   * case. Otherwise a medicine is built from the named columns, with the
   * defaults the page applies to empty cells.
   */
  function ReadRow(
    headers: seq<string>, ms: seq<Medicine>, raw: string,
    id: string, now: int, defaultExpiry: string, parsePrice: string -> Option<int>): (r: Row)
    ensures r == Blank <==> Trim(raw) == []
    ensures r.Skipped? <==> Rejects(headers, ms, raw)
  {
    if Trim(raw) == [] then Blank
    else if Rejects(headers, ms, raw) then Skipped
    else Imported(Build(headers, raw, id, now, defaultExpiry, parsePrice))
  }

  /** The medicine the page builds from the named cells of a data line, with the defaults it applies to empty cells. */
  function Build(
    headers: seq<string>, raw: string,
    id: string, now: int, defaultExpiry: string, parsePrice: string -> Option<int>): Medicine
  {
    var values := RowValues(Trim(raw));
    var expiry := Field(headers, values, "expiry");
    Medicine(
      id, NameCell(headers, raw),
      Field(headers, values, "type"),
      Field(headers, values, "strength"),
      QuantityOf(Field(headers, values, "quantity")),
      PriceOf(Field(headers, values, "costprice"), parsePrice),
      PriceOf(Field(headers, values, "saleprice"), parsePrice),
      if expiry == "" then defaultExpiry else expiry,
      ReorderLevelOf(Field(headers, values, "reorderlevel")),
      now, now)
  }

  /**
   * A row that is imported holds the medicine built from its line's cells,
   * under a name that is non-empty and not stored yet.
   */
  lemma {:induction false} ReadRowBuilds(
    headers: seq<string>, ms: seq<Medicine>, raw: string,
    id: string, now: int, defaultExpiry: string, parsePrice: string -> Option<int>)
    requires ReadRow(headers, ms, raw, id, now, defaultExpiry, parsePrice).Imported?
    ensures BuiltFrom(ReadRow(headers, ms, raw, id, now, defaultExpiry, parsePrice).medicine, headers, ms, raw, id, now, defaultExpiry, parsePrice)
  {
  }

  /** The store after the import and the two counters the page reports. */
  datatype Import = Import(medicines: seq<Medicine>, imported: nat, skipped: nat)

  /**
   * Reads one data line against the store as it stands; the number is the
   * line's position in the file, counting the header as line 0.
   */
  type LineReader = (seq<Medicine>, string, nat) -> Row

  /**
   * The import loop over the data lines, oldest first, for any way of
   * reading a line. Each line is read against the store as it stands, so it
   * sees the lines imported before it.
   */
  function Loop(read: LineReader, ms: seq<Medicine>, lines: seq<string>): (r: Import)
    ensures |r.medicines| == |ms| + r.imported && r.medicines[..|ms|] == ms
    decreases |lines|
  {
    if lines == [] then Import(ms, 0, 0)
    else
      var prev := Loop(read, ms, lines[..|lines| - 1]);
      Absorb(prev, read(prev.medicines, lines[|lines| - 1], |lines|))
  }

  /** The page's way of reading a line: `ReadRow`, with id `newId(k)` for line `k`. */
  function Reader(
    headers: seq<string>, newId: nat -> string, now: int, defaultExpiry: string, parsePrice: string -> Option<int>): LineReader
  {
    (store: seq<Medicine>, raw: string, k: nat) => ReadRow(headers, store, raw, newId(k), now, defaultExpiry, parsePrice)
  }

  /** The import loop of the page: `Loop` with `Reader`. */
  function ImportLines(
    headers: seq<string>, ms: seq<Medicine>, lines: seq<string>,
    newId: nat -> string, now: int, defaultExpiry: string, parsePrice: string -> Option<int>): (r: Import)
    ensures |r.medicines| == |ms| + r.imported && r.medicines[..|ms|] == ms
  {
    Loop(Reader(headers, newId, now, defaultExpiry, parsePrice), ms, lines)
  }

  /** Adds one line's outcome to the running result. */
  function Absorb(acc: Import, row: Row): (r: Import)
    ensures r.medicines == acc.medicines + (if row.Imported? then [row.medicine] else [])
    ensures r.imported == acc.imported + (if row.Imported? then 1 else 0)
    ensures r.skipped == acc.skipped + (if row.Skipped? then 1 else 0)
  {
    match row
    case Blank => acc
    case Skipped => acc.(skipped := acc.skipped + 1)
    case Imported(m) => Import(acc.medicines + [m], acc.imported + 1, acc.skipped)
  }

  /**
   * `handleCSVImport`: the first line names the columns, the rest are data.
   * The stored medicines stay first, every non-blank data line is counted
   * once as imported or skipped, and no name is stored twice.
   */
  function ImportCsv(
    ms: seq<Medicine>, csv: string,
    newId: nat -> string, now: int, defaultExpiry: string, parsePrice: string -> Option<int>): (r: Import)
    ensures |r.medicines| == |ms| + r.imported && r.medicines[..|ms|] == ms
    ensures r.imported + r.skipped == |Filter(Split(csv, '\n')[1..], NonBlank)|
    ensures DistinctNames(ms) ==> DistinctNames(r.medicines)
    // A file whose data lines all carry fresh, pairwise distinct names imports every line, in order.
    ensures var lines := Split(csv, '\n');
      var headers := HeaderNames(lines[0]);
      FreshRows(headers, ms, lines[1..]) ==>
        && r.skipped == 0 && r.imported == |lines| - 1
        && forall k :: 0 <= k < |lines[1..]| ==>
             BuiltFrom(r.medicines[|ms| + k], headers, r.medicines[..|ms| + k], lines[1..][k], newId(k + 1), now, defaultExpiry, parsePrice)
  {
    var lines := Split(csv, '\n');
    var headers := HeaderNames(lines[0]);
    ImportCounts(headers, ms, lines[1..], newId, now, defaultExpiry, parsePrice);
    var r := ImportLines(headers, ms, lines[1..], newId, now, defaultExpiry, parsePrice);
    assert FreshRows(headers, ms, lines[1..]) ==> r.skipped == 0 && r.imported == |lines| - 1 && forall k :: 0 <= k < |lines[1..]| ==>
      BuiltFrom(r.medicines[|ms| + k], headers, r.medicines[..|ms| + k], lines[1..][k], newId(k + 1), now, defaultExpiry, parsePrice) by {
      if FreshRows(headers, ms, lines[1..]) {
        FreshLinesBuilt(headers, ms, lines[1..], newId, now, defaultExpiry, parsePrice);
      }
    }
    assert DistinctNames(ms) ==> DistinctNames(r.medicines) by {
      if DistinctNames(ms) {
        ImportKeepsNamesDistinct(headers, ms, lines[1..], newId, now, defaultExpiry, parsePrice);
      }
    }
    r
  }

  predicate NonBlank(line: string) {
    Trim(line) != []
  }

  /** Every non-blank data line is counted exactly once, as imported or as skipped. */
  lemma {:induction false} ImportCounts(
    headers: seq<string>, ms: seq<Medicine>, lines: seq<string>,
    newId: nat -> string, now: int, defaultExpiry: string, parsePrice: string -> Option<int>)
    ensures var r := ImportLines(headers, ms, lines, newId, now, defaultExpiry, parsePrice);
      r.imported + r.skipped == |Filter(lines, NonBlank)|
  {
    ReaderSeesBlanks(headers, newId, now, defaultExpiry, parsePrice);
    LoopCounts(Reader(headers, newId, now, defaultExpiry, parsePrice), ms, lines);
  }

  /** A reader that reads exactly the blank lines as `Blank`. */
  ghost predicate BlankOnlyWhenBlank(read: LineReader) {
    forall store, raw, k :: read(store, raw, k).Blank? <==> !NonBlank(raw)
  }

  /** The page reads exactly the blank lines as `Blank`. */
  lemma {:induction false} ReaderSeesBlanks(
    headers: seq<string>, newId: nat -> string, now: int, defaultExpiry: string, parsePrice: string -> Option<int>)
    ensures BlankOnlyWhenBlank(Reader(headers, newId, now, defaultExpiry, parsePrice))
  {
    var read := Reader(headers, newId, now, defaultExpiry, parsePrice);
    forall store, raw, k ensures read(store, raw, k).Blank? <==> !NonBlank(raw) {
      assert read(store, raw, k) == ReadRow(headers, store, raw, newId(k), now, defaultExpiry, parsePrice);
    }
  }

  /** For a reader that reads exactly the blank lines as `Blank`, each non-blank line is counted once. */
  lemma {:induction false} LoopCounts(read: LineReader, ms: seq<Medicine>, lines: seq<string>)
    requires BlankOnlyWhenBlank(read)
    ensures Loop(read, ms, lines).imported + Loop(read, ms, lines).skipped == |Filter(lines, NonBlank)|
    decreases |lines|
  {
    if lines != [] {
      var front := lines[..|lines| - 1];
      var last := lines[|lines| - 1];
      assert front + [last] == lines;
      var prev, row := LoopLast(read, ms, lines);
      LoopCounts(read, ms, front);
      CountStep(prev, row, front, last);
    }
  }

  /**
   * One more line is absorbed on top of the result for the lines before it
   * (`prev`): the row `ReadRow` makes of the last line against the store as
   * it stands, with the id for its position.
   */
  lemma {:induction false} ImportStep(
    headers: seq<string>, ms: seq<Medicine>, lines: seq<string>,
    newId: nat -> string, now: int, defaultExpiry: string, parsePrice: string -> Option<int>)
    returns (prev: Import, row: Row)
    requires lines != []
    ensures prev == ImportLines(headers, ms, lines[..|lines| - 1], newId, now, defaultExpiry, parsePrice)
    ensures ImportLines(headers, ms, lines, newId, now, defaultExpiry, parsePrice) == Absorb(prev, row)
    ensures row == ReadRow(headers, prev.medicines, lines[|lines| - 1], newId(|lines|), now, defaultExpiry, parsePrice)
    ensures row.Blank? <==> !NonBlank(lines[|lines| - 1])
  {
    var read := Reader(headers, newId, now, defaultExpiry, parsePrice);
    prev, row := LoopLast(read, ms, lines);
    assert row == ReadRow(headers, prev.medicines, lines[|lines| - 1], newId(|lines|), now, defaultExpiry, parsePrice);
  }

  /** The loop over a non-empty file is the loop over all but its last line, plus the row read from that line. */
  lemma {:induction false} LoopLast(read: LineReader, ms: seq<Medicine>, lines: seq<string>)
    returns (prev: Import, row: Row)
    requires lines != []
    ensures prev == Loop(read, ms, lines[..|lines| - 1])
    ensures row == read(prev.medicines, lines[|lines| - 1], |lines|)
    ensures Loop(read, ms, lines) == Absorb(prev, row)
  {
    prev := Loop(read, ms, lines[..|lines| - 1]);
    row := read(prev.medicines, lines[|lines| - 1], |lines|);
  }

  /** One more line keeps the counters in step with the non-blank lines. */
  lemma {:induction false} CountStep(prev: Import, row: Row, front: seq<string>, last: string)
    requires prev.imported + prev.skipped == |Filter(front, NonBlank)|
    requires row.Blank? <==> !NonBlank(last)
    ensures Absorb(prev, row).imported + Absorb(prev, row).skipped == |Filter(front + [last], NonBlank)|
  {
    FilterConcat(front, [last], NonBlank);
    assert Filter([last], NonBlank) == if NonBlank(last) then [last] else [] by {
      assert [last][1..] == [];
    }
  }

  /** Importing never introduces a second medicine with the same name, ignoring case. */
  lemma {:induction false} ImportKeepsNamesDistinct(
    headers: seq<string>, ms: seq<Medicine>, lines: seq<string>,
    newId: nat -> string, now: int, defaultExpiry: string, parsePrice: string -> Option<int>)
    requires DistinctNames(ms)
    ensures DistinctNames(ImportLines(headers, ms, lines, newId, now, defaultExpiry, parsePrice).medicines)
    decreases |lines|
  {
    if lines != [] {
      var front := lines[..|lines| - 1];
      var prev := ImportLines(headers, ms, front, newId, now, defaultExpiry, parsePrice);
      ImportKeepsNamesDistinct(headers, ms, front, newId, now, defaultExpiry, parsePrice);
      var row := ReadRow(headers, prev.medicines, lines[|lines| - 1], newId(|lines|), now, defaultExpiry, parsePrice);
      if row.Imported? {
        ReadRowBuilds(headers, prev.medicines, lines[|lines| - 1], newId(|lines|), now, defaultExpiry, parsePrice);
        NameTakenAt(prev.medicines, row.medicine.name);
        var r := prev.medicines + [row.medicine];
        forall i, j | 0 <= i < j < |r|
          ensures !EqualsIgnoreCase(r[i].name, r[j].name)
        {
          if j == |prev.medicines| {
            assert r[i] == prev.medicines[i];
          }
        }
      }
    }
  }

  /** Re-importing a file whose names are all stored already imports nothing. */
  lemma {:induction false} ReimportSkipsEverything(
    headers: seq<string>, ms: seq<Medicine>, lines: seq<string>,
    newId: nat -> string, now: int, defaultExpiry: string, parsePrice: string -> Option<int>)
    requires forall k :: 0 <= k < |lines| ==>
      NameTaken(ms, Field(headers, RowValues(Trim(lines[k])), "name"))
    ensures ImportLines(headers, ms, lines, newId, now, defaultExpiry, parsePrice).medicines == ms
    ensures ImportLines(headers, ms, lines, newId, now, defaultExpiry, parsePrice).imported == 0
    decreases |lines|
  {
    if lines != [] {
      var front := lines[..|lines| - 1];
      ReimportSkipsEverything(headers, ms, front, newId, now, defaultExpiry, parsePrice);
      var prev, row := ImportStep(headers, ms, lines, newId, now, defaultExpiry, parsePrice);
      assert row.Blank? || row.Skipped?;
    }
  }

  /**
   * Every data line is non-blank and names a medicine, no name is stored
   * already, and no two lines name the same medicine, ignoring case.
   */
  predicate FreshRows(headers: seq<string>, ms: seq<Medicine>, lines: seq<string>) {
    && "name" in headers
    && (forall k :: 0 <= k < |lines| ==> NonBlank(lines[k]) && NameCell(headers, lines[k]) != "" && !NameTaken(ms, NameCell(headers, lines[k])))
    && (forall k, l :: 0 <= k < l < |lines| ==> !EqualsIgnoreCase(NameCell(headers, lines[k]), NameCell(headers, lines[l])))
  }

  /**
   * The dual of `ReimportSkipsEverything`: when every line is fresh, nothing
   * is skipped, every line is imported, and the medicine for line `k` is the
   * `k`-th one appended, carrying that line's name.
   */
  lemma {:induction false} FreshRowsAllImported(
    headers: seq<string>, ms: seq<Medicine>, lines: seq<string>,
    newId: nat -> string, now: int, defaultExpiry: string, parsePrice: string -> Option<int>)
    requires FreshRows(headers, ms, lines)
    ensures var r := ImportLines(headers, ms, lines, newId, now, defaultExpiry, parsePrice);
      && r.skipped == 0 && r.imported == |lines|
      && forall k :: 0 <= k < |lines| ==> r.medicines[|ms| + k].name == NameCell(headers, lines[k])
    decreases |lines|
  {
    if lines != [] {
      var front := lines[..|lines| - 1];
      FreshRowsPrefix(headers, ms, lines, |lines| - 1);
      FreshRowsAllImported(headers, ms, front, newId, now, defaultExpiry, parsePrice);
      FreshStep(headers, ms, lines, front, newId, now, defaultExpiry, parsePrice);
    }
  }

  /** `FreshRowsAllImported` for one more line, given it for the lines before. */
  lemma {:induction false} FreshStep(
    headers: seq<string>, ms: seq<Medicine>, lines: seq<string>, front: seq<string>,
    newId: nat -> string, now: int, defaultExpiry: string, parsePrice: string -> Option<int>)
    requires FreshRows(headers, ms, lines) && lines != [] && front == lines[..|lines| - 1]
    requires var p := ImportLines(headers, ms, front, newId, now, defaultExpiry, parsePrice);
      && p.skipped == 0 && p.imported == |front|
      && forall k :: 0 <= k < |front| ==> p.medicines[|ms| + k].name == NameCell(headers, front[k])
    ensures var r := ImportLines(headers, ms, lines, newId, now, defaultExpiry, parsePrice);
      && r.skipped == 0 && r.imported == |lines|
      && forall k :: 0 <= k < |lines| ==> r.medicines[|ms| + k].name == NameCell(headers, lines[k])
  {
    var prev, m := FreshLastImported(headers, ms, lines, front, newId, now, defaultExpiry, parsePrice);
    NamesAfterAppend(headers, ms, lines, front, prev.medicines, m);
  }

  /**
   * A file of fresh lines imports every line, and the `k`-th appended
   * medicine is the one built from line `k` against the store before it.
   */
  lemma {:induction false} FreshLinesBuilt(
    headers: seq<string>, ms: seq<Medicine>, lines: seq<string>,
    newId: nat -> string, now: int, defaultExpiry: string, parsePrice: string -> Option<int>)
    requires FreshRows(headers, ms, lines)
    ensures var r := ImportLines(headers, ms, lines, newId, now, defaultExpiry, parsePrice);
      && r.skipped == 0 && r.imported == |lines|
      && forall k :: 0 <= k < |lines| ==>
           BuiltFrom(r.medicines[|ms| + k], headers, r.medicines[..|ms| + k], lines[k], newId(k + 1), now, defaultExpiry, parsePrice)
  {
    var r := ImportLines(headers, ms, lines, newId, now, defaultExpiry, parsePrice);
    FreshRowsAllImported(headers, ms, lines, newId, now, defaultExpiry, parsePrice);
    forall k | 0 <= k < |lines|
      ensures BuiltFrom(r.medicines[|ms| + k], headers, r.medicines[..|ms| + k], lines[k], newId(k + 1), now, defaultExpiry, parsePrice)
    {
      FreshLineImported(headers, ms, lines, k, newId, now, defaultExpiry, parsePrice);
      ReadRowBuilds(headers, r.medicines[..|ms| + k], lines[k], newId(k + 1), now, defaultExpiry, parsePrice);
    }
  }

  /** The names of the appended medicines follow the lines, one more line and medicine at a time. */
  lemma {:induction false} NamesAfterAppend(headers: seq<string>, ms: seq<Medicine>, lines: seq<string>, front: seq<string>, prev: seq<Medicine>, m: Medicine)
    requires lines != [] && front == lines[..|lines| - 1] && |prev| == |ms| + |front|
    requires forall k :: 0 <= k < |front| ==> prev[|ms| + k].name == NameCell(headers, front[k])
    requires m.name == NameCell(headers, lines[|lines| - 1])
    ensures forall k :: 0 <= k < |lines| ==> (prev + [m])[|ms| + k].name == NameCell(headers, lines[k])
  {
    forall k | 0 <= k < |lines|
      ensures (prev + [m])[|ms| + k].name == NameCell(headers, lines[k])
    {
      if k < |front| {
        assert lines[k] == front[k];
        assert (prev + [m])[|ms| + k] == prev[|ms| + k];
      } else {
        assert k == |lines| - 1;
        assert (prev + [m])[|ms| + k] == m;
      }
    }
  }

  /**
   * The last line of a fresh file, read against the store the lines before
   * it left, is imported as the medicine `ReadRow` builds from it.
   */
  lemma {:induction false} FreshLastImported(
    headers: seq<string>, ms: seq<Medicine>, lines: seq<string>, front: seq<string>,
    newId: nat -> string, now: int, defaultExpiry: string, parsePrice: string -> Option<int>)
    returns (prev: Import, m: Medicine)
    requires FreshRows(headers, ms, lines) && lines != [] && front == lines[..|lines| - 1]
    requires var p := ImportLines(headers, ms, front, newId, now, defaultExpiry, parsePrice);
      && p.imported == |front|
      && forall k :: 0 <= k < |front| ==> p.medicines[|ms| + k].name == NameCell(headers, front[k])
    ensures prev == ImportLines(headers, ms, front, newId, now, defaultExpiry, parsePrice)
    ensures ImportLines(headers, ms, lines, newId, now, defaultExpiry, parsePrice)
      == Import(prev.medicines + [m], prev.imported + 1, prev.skipped)
    ensures ReadRow(headers, prev.medicines, lines[|lines| - 1], newId(|lines|), now, defaultExpiry, parsePrice) == Imported(m)
    ensures m.name == NameCell(headers, lines[|lines| - 1])
  {
    var last := lines[|lines| - 1];
    prev := ImportLines(headers, ms, front, newId, now, defaultExpiry, parsePrice);
    assert !NameTaken(prev.medicines, NameCell(headers, last)) by {
      FreshLast(headers, ms, lines, front);
      FreshNameIsFree(headers, ms, front, last, prev.medicines);
    }
    var prev', row := ImportStep(headers, ms, lines, newId, now, defaultExpiry, parsePrice);
    assert !Rejects(headers, prev.medicines, last) by {
      FreshLast(headers, ms, lines, front);
    }
    m := row.medicine;
    ReadRowBuilds(headers, prev.medicines, last, newId(|lines|), now, defaultExpiry, parsePrice);
  }

  /** The last line of a fresh file is non-blank, named, and fresh against the store and every line before it. */
  lemma {:induction false} FreshLast(headers: seq<string>, ms: seq<Medicine>, lines: seq<string>, front: seq<string>)
    requires FreshRows(headers, ms, lines) && lines != [] && front == lines[..|lines| - 1]
    ensures var name := NameCell(headers, lines[|lines| - 1]);
      && "name" in headers && NonBlank(lines[|lines| - 1]) && name != "" && !NameTaken(ms, name)
      && forall k :: 0 <= k < |front| ==> !EqualsIgnoreCase(NameCell(headers, front[k]), name)
  {
    var n := |lines|;
    forall k | 0 <= k < |front|
      ensures !EqualsIgnoreCase(NameCell(headers, front[k]), NameCell(headers, lines[n - 1]))
    {
      assert front[k] == lines[k];
      assert k < n - 1;
    }
  }

  /** The store after the earlier fresh lines holds no name of the last line. */
  lemma {:induction false} FreshNameIsFree(headers: seq<string>, ms: seq<Medicine>, front: seq<string>, last: string, store: seq<Medicine>)
    requires !NameTaken(ms, NameCell(headers, last))
    requires forall k :: 0 <= k < |front| ==> !EqualsIgnoreCase(NameCell(headers, front[k]), NameCell(headers, last))
    requires |store| == |ms| + |front| && store[..|ms|] == ms
    requires forall k :: 0 <= k < |front| ==> store[|ms| + k].name == NameCell(headers, front[k])
    ensures !NameTaken(store, NameCell(headers, last))
  {
    var name := NameCell(headers, last);
    NameTakenAt(ms, name);
    NameTakenAt(store, name);
    forall i | 0 <= i < |store|
      ensures !EqualsIgnoreCase(store[i].name, name)
    {
      if i < |ms| {
        assert store[i] == store[..|ms|][i];
      } else {
        assert store[|ms| + (i - |ms|)].name == NameCell(headers, front[i - |ms|]);
      }
    }
  }

  /** The result for the first `j` lines is a prefix of the result for all of them. */
  lemma {:induction false} LoopPrefix(read: LineReader, ms: seq<Medicine>, lines: seq<string>, j: nat)
    requires j <= |lines|
    ensures var p := Loop(read, ms, lines[..j]).medicines;
      var r := Loop(read, ms, lines).medicines;
      |p| <= |r| && r[..|p|] == p
    decreases |lines| - j
  {
    if j == |lines| {
      assert lines[..j] == lines;
      var r := Loop(read, ms, lines).medicines;
      assert r[..|r|] == r;
    } else {
      var front := lines[..|lines| - 1];
      LoopPrefix(read, ms, front, j);
      PrefixOfFront(lines, j);
      var p := Loop(read, ms, lines[..j]).medicines;
      var prev, row := LoopLast(read, ms, lines);
      var extra := if row.Imported? then [row.medicine] else [];
      PrefixThroughAppend(prev.medicines, extra, p);
      assert Loop(read, ms, lines).medicines == prev.medicines + extra;
    }
  }

  /** What the first `k + 1` lines append stays in place once the rest of the file is read. */
  lemma {:induction false} LoopPrefixInWhole(
    read: LineReader, ms: seq<Medicine>, lines: seq<string>, k: nat, prev: seq<Medicine>, m: Medicine)
    requires k < |lines| && |prev| == |ms| + k
    requires Loop(read, ms, lines[..k + 1]).medicines == prev + [m]
    ensures var r := Loop(read, ms, lines).medicines;
      |ms| + k < |r| && r[..|ms| + k] == prev && r[|ms| + k] == m
  {
    LoopPrefix(read, ms, lines, k + 1);
    SplitPrefix(Loop(read, ms, lines).medicines, Loop(read, ms, lines[..k + 1]).medicines, prev, m, |ms| + k);
  }

  /**
   * In a file of fresh lines, line `k` is read, against the store as it
   * stood before it, as exactly the `k`-th appended medicine.
   */
  lemma {:induction false} FreshLineImported(
    headers: seq<string>, ms: seq<Medicine>, lines: seq<string>, k: nat,
    newId: nat -> string, now: int, defaultExpiry: string, parsePrice: string -> Option<int>)
    requires FreshRows(headers, ms, lines) && k < |lines|
    ensures var r := ImportLines(headers, ms, lines, newId, now, defaultExpiry, parsePrice).medicines;
      && |ms| + k < |r|
      && ReadRow(headers, r[..|ms| + k], lines[k], newId(k + 1), now, defaultExpiry, parsePrice) == Imported(r[|ms| + k])
  {
    var prev, m := FreshLineOnPrefix(headers, ms, lines, k, newId, now, defaultExpiry, parsePrice);
    LoopPrefixInWhole(Reader(headers, newId, now, defaultExpiry, parsePrice), ms, lines, k, prev, m);
  }

  /**
   * Importing the first `k + 1` lines of a fresh file ends by appending the
   * medicine line `k` reads as, built from it against the store before it.
   */
  lemma {:induction false} FreshLineOnPrefix(
    headers: seq<string>, ms: seq<Medicine>, lines: seq<string>, k: nat,
    newId: nat -> string, now: int, defaultExpiry: string, parsePrice: string -> Option<int>)
    returns (prev: seq<Medicine>, m: Medicine)
    requires FreshRows(headers, ms, lines) && k < |lines|
    ensures |prev| == |ms| + k
    ensures ImportLines(headers, ms, lines[..k + 1], newId, now, defaultExpiry, parsePrice).medicines == prev + [m]
    ensures ReadRow(headers, prev, lines[k], newId(k + 1), now, defaultExpiry, parsePrice) == Imported(m)
  {
    var pre := lines[..k + 1];
    var front := lines[..k];
    PrefixOfPrefix(lines, k + 1, k);
    FreshRowsPrefix(headers, ms, lines, k);
    FreshRowsAllImported(headers, ms, front, newId, now, defaultExpiry, parsePrice);
    FreshRowsPrefix(headers, ms, lines, k + 1);
    var p;
    p, m := FreshLastImported(headers, ms, pre, front, newId, now, defaultExpiry, parsePrice);
    prev := p.medicines;
    assert pre[k] == lines[k];
  }

  /** The lines up to any point of a fresh file are fresh. */
  lemma {:induction false} FreshRowsPrefix(headers: seq<string>, ms: seq<Medicine>, lines: seq<string>, j: nat)
    requires FreshRows(headers, ms, lines) && j <= |lines|
    ensures FreshRows(headers, ms, lines[..j])
  {
  }

  /** A row imported without quantity and reorder-level cells starts at 0 with level 10, so it shows as low stock. */
  lemma {:induction false} ImportedWithoutStockIsLow(
    headers: seq<string>, ms: seq<Medicine>, raw: string,
    id: string, now: int, defaultExpiry: string, parsePrice: string -> Option<int>)
    requires "quantity" !in headers && "reorderlevel" !in headers
    requires ReadRow(headers, ms, raw, id, now, defaultExpiry, parsePrice).Imported?
    ensures var m := ReadRow(headers, ms, raw, id, now, defaultExpiry, parsePrice).medicine;
      m.quantity == 0 && m.reorderLevel == 10 && IsLowStock(m)
  {
    assert ParseInt("0") == Some(0) by { ParseIntRoundTrip(0); }
  }
}

=== FILE: medicine_form.dfy ===
/**
 * The add/edit medicine form (`handleSubmit` in
 * `src/components/MedicineDialog.tsx`): name validation, the
 * case-insensitive duplicate check, and the choice between adding a record
 * and updating the edited one.
 */
module MedicineForm {
  import opened Wrappers
  import opened Text
  import opened Storage

  const NameRequired := "Medicine name is required"
  const NameTaken := "Medicine with this name already exists"

  /** The form's fields. */
  datatype Form = Form(
    name: string,
    kind: string,
    strength: string,
    quantity: int,
    costPrice: int,
    salePrice: int,
    expiry: string,
    reorderLevel: int)

  datatype Submit = Rejected(error: string) | Saved(medicines: seq<Medicine>)

  /** Another medicine (not the one being edited) already has this name, ignoring case. */
  predicate NameClashes(ms: seq<Medicine>, name: string, editing: Option<Medicine>) {
    exists i :: 0 <= i < |ms| && EqualsIgnoreCase(ms[i].name, name) && (editing.None? || ms[i].id != editing.value.id)
  }

  /** Every form field, as the update patch. */
  function FormPatch(f: Form): MedicinePatch {
    MedicinePatch(Some(f.name), Some(f.kind), Some(f.strength), Some(f.quantity),
                  Some(f.costPrice), Some(f.salePrice), Some(f.expiry), Some(f.reorderLevel))
  }

  /**
   * `handleSubmit`. A blank name (after trimming) or a name another medicine
   * already has is refused. Editing updates the edited record with every
   * form field; adding appends a new record with a fresh id and equal
   * creation and update times. The name is stored as typed.
   */
  function SubmitMedicine(ms: seq<Medicine>, f: Form, editing: Option<Medicine>, freshId: string, now: int): (r: Submit)
    ensures Trim(f.name) == [] ==> r == Rejected(NameRequired)
    ensures Trim(f.name) != [] ==> (NameClashes(ms, f.name, editing) <==> r == Rejected(NameTaken))
    ensures r.Saved? && editing.Some? ==> r.medicines == UpdateMedicine(ms, editing.value.id, FormPatch(f), now)
    ensures r.Saved? && editing.None? ==>
      && |r.medicines| == |ms| + 1 && r.medicines[..|ms|] == ms
      && var m := r.medicines[|ms|];
         m.id == freshId && m.createdAt == now && m.updatedAt == now
         && m.name == f.name && m.kind == f.kind && m.strength == f.strength && m.quantity == f.quantity
         && m.costPrice == f.costPrice && m.salePrice == f.salePrice && m.expiry == f.expiry && m.reorderLevel == f.reorderLevel
  {
    if Trim(f.name) == [] then Rejected(NameRequired)
    else if NameClashes(ms, f.name, editing) then Rejected(NameTaken)
    else match editing
      case Some(e) => Saved(UpdateMedicine(ms, e.id, FormPatch(f), now))
      case None =>
        Saved(AddMedicine(ms, Medicine(freshId, f.name, f.kind, f.strength, f.quantity, f.costPrice,
                                       f.salePrice, f.expiry, f.reorderLevel, now, now)))
  }

  /** Saving through the form keeps ids unique and names distinct. */
  lemma SubmitKeepsCatalogueClean(ms: seq<Medicine>, f: Form, editing: Option<Medicine>, freshId: string, now: int)
    requires UniqueIds(ms) && DistinctNames(ms)
    requires forall i :: 0 <= i < |ms| ==> ms[i].id != freshId
    requires SubmitMedicine(ms, f, editing, freshId, now).Saved?
    ensures UniqueIds(SubmitMedicine(ms, f, editing, freshId, now).medicines)
    ensures DistinctNames(SubmitMedicine(ms, f, editing, freshId, now).medicines)
  {
    var r := SubmitMedicine(ms, f, editing, freshId, now).medicines;
    match editing
    case Some(e) =>
      UpdateKeepsUnique(ms, e.id, FormPatch(f), now);
      forall j | 0 <= j < |ms|
        ensures r[j] == if ms[j].id == e.id then Patched(ms[j], FormPatch(f), now) else ms[j]
      {
        UpdateUnique(ms, e.id, FormPatch(f), now, j);
      }
    case None =>
      assert forall j :: 0 <= j < |ms| ==> r[j] == ms[j];
  }

  /** Editing a medicine without renaming it is never refused as a duplicate of itself. */
  lemma KeepingOwnNameIsAccepted(ms: seq<Medicine>, k: nat, f: Form, freshId: string, now: int)
    requires UniqueIds(ms) && DistinctNames(ms) && k < |ms|
    requires f.name == ms[k].name && Trim(f.name) != []
    ensures SubmitMedicine(ms, f, Some(ms[k]), freshId, now).Saved?
  {
    forall i | 0 <= i < |ms| && i != k
      ensures !EqualsIgnoreCase(ms[i].name, f.name)
    {
      if i < k {
        assert !EqualsIgnoreCase(ms[i].name, ms[k].name);
      } else {
        assert !EqualsIgnoreCase(ms[k].name, ms[i].name);
      }
    }
  }
}

=== FILE: merge.dfy ===
/**
 * `mergeData` (`src/lib/sync.ts`): record-granular reconciliation of a local
 * and a remote record list, keyed by id.
 *
 * The code builds a JavaScript `Map` (which remembers insertion order) from
 * the remote list and overlays the local list on it. `MergeData` models that
 * fold step by step; `Reconcile` is an independent description of the
 * intended result (remote records in remote order, each replaced by a
 * strictly newer local version, followed by the local-only records in local
 * order). `MergeIsReconcile` proves the two agree whenever ids are unique
 * within each list, and the remaining lemmas state the merge's properties.
 *
 * A record type is described by two accessors: `key` (the id) and `stamp`
 * (the `updatedAt` instant; None when the record has none, it is empty, or
 * it does not parse).
 */
module Merge {
  import opened Wrappers

  /** `x` is strictly newer than `y`: both carry an instant and `x`'s is later. */
  predicate Newer<T>(x: T, y: T, stamp: T -> Option<int>) {
    stamp(x).Some? && stamp(y).Some? && stamp(x).value > stamp(y).value
  }

  predicate HasKey<T>(s: seq<T>, k: string, key: T -> string) {
    exists i :: 0 <= i < |s| && key(s[i]) == k
  }

  ghost predicate UniqueKeys<T>(s: seq<T>, key: T -> string) {
    forall i, j :: 0 <= i < j < |s| ==> key(s[i]) != key(s[j])
  }

  /** Position of the first element with key `k` (`Map.get` on the ordered map). */
  function KeyIndex<T>(s: seq<T>, k: string, key: T -> string): (r: Option<nat>)
    ensures r.Some? ==> r.value < |s| && key(s[r.value]) == k && forall j :: 0 <= j < r.value ==> key(s[j]) != k
    ensures r.None? ==> forall j :: 0 <= j < |s| ==> key(s[j]) != k
  {
    if s == [] then None
    else if key(s[0]) == k then Some(0)
    else match KeyIndex(s[1..], k, key)
      case Some(i) => Some(i + 1)
      case None => None
  }

  lemma KeyIndexUnique<T>(s: seq<T>, i: nat, key: T -> string)
    requires UniqueKeys(s, key) && i < |s|
    ensures KeyIndex(s, key(s[i]), key) == Some(i)
  {
  }

  /** First element with key `k`. */
  function Lookup<T>(s: seq<T>, k: string, key: T -> string): (r: Option<T>)
    ensures r.Some? ==> key(r.value) == k && r.value in s
    ensures r.None? <==> !HasKey(s, k, key)
  {
    match KeyIndex(s, k, key)
    case Some(i) => Some(s[i])
    case None => None
  }

  lemma LookupAppend<T>(s: seq<T>, y: T, k: string, key: T -> string)
    ensures Lookup(s + [y], k, key) == if HasKey(s, k, key) then Lookup(s, k, key) else if key(y) == k then Some(y) else None
  {
    var t := s + [y];
    match KeyIndex(s, k, key)
    case Some(i) =>
      assert t[i] == s[i];
      assert forall j :: 0 <= j < i ==> t[j] == s[j];
      assert KeyIndex(t, k, key) == Some(i);
    case None =>
      assert forall j :: 0 <= j < |s| ==> t[j] == s[j];
      if key(y) == k {
        assert t[|s|] == y;
        assert KeyIndex(t, k, key) == Some(|s|);
      } else {
        assert KeyIndex(t, k, key) == None;
      }
  }

  // ---------------------------------------------------------------------------
  // The code: a fold over an insertion-ordered map

  /** `merged.set(key(x), x)`: replaces the entry in place or appends a new key at the end. */
  function Put<T>(m: seq<T>, x: T, key: T -> string): seq<T> {
    match KeyIndex(m, key(x), key)
    case Some(i) => m[i := x]
    case None => m + [x]
  }

  /** `remote.forEach(item => merged.set(item.id, item))` */
  function Load<T>(remote: seq<T>, key: T -> string): (m: seq<T>)
    ensures UniqueKeys(m, key)
    ensures forall k :: HasKey(m, k, key) <==> HasKey(remote, k, key)
    decreases |remote|
  {
    if remote == [] then []
    else
      var front, x := remote[..|remote| - 1], remote[|remote| - 1];
      var m := Load(front, key);
      assert remote == front + [x];
      PutKeys(m, x, key);
      Put(m, x, key)
  }

  lemma PutKeys<T>(m: seq<T>, x: T, key: T -> string)
    requires UniqueKeys(m, key)
    ensures UniqueKeys(Put(m, x, key), key)
    ensures forall k :: HasKey(Put(m, x, key), k, key) <==> HasKey(m, k, key) || k == key(x)
  {
    var r := Put(m, x, key);
    match KeyIndex(m, key(x), key)
    case Some(i) =>
      assert forall j :: 0 <= j < |m| ==> key(r[j]) == key(m[j]);
    case None =>
      assert r[|m|] == x;
      assert forall j :: 0 <= j < |m| ==> r[j] == m[j];
  }

  /** One iteration of `local.forEach`: insert an unknown id, replace only with a strictly newer version. */
  function Step<T>(m: seq<T>, x: T, key: T -> string, stamp: T -> Option<int>): seq<T> {
    match KeyIndex(m, key(x), key)
    case None => m + [x]
    case Some(i) => if Newer(x, m[i], stamp) then m[i := x] else m
  }

  lemma StepKeys<T>(m: seq<T>, x: T, key: T -> string, stamp: T -> Option<int>)
    requires UniqueKeys(m, key)
    ensures UniqueKeys(Step(m, x, key, stamp), key)
    ensures forall k :: HasKey(Step(m, x, key, stamp), k, key) <==> HasKey(m, k, key) || k == key(x)
  {
    var r := Step(m, x, key, stamp);
    match KeyIndex(m, key(x), key)
    case Some(i) =>
      assert forall j :: 0 <= j < |m| ==> key(r[j]) == key(m[j]);
    case None =>
      assert r[|m|] == x;
      assert forall j :: 0 <= j < |m| ==> r[j] == m[j];
  }

  function OverlayLocal<T>(m: seq<T>, local: seq<T>, key: T -> string, stamp: T -> Option<int>): (r: seq<T>)
    requires UniqueKeys(m, key)
    ensures UniqueKeys(r, key)
    ensures forall k :: HasKey(r, k, key) <==> HasKey(m, k, key) || HasKey(local, k, key)
    decreases |local|
  {
    if local == [] then m
    else
      var front, x := local[..|local| - 1], local[|local| - 1];
      var r := OverlayLocal(m, front, key, stamp);
      assert local == front + [x];
      StepKeys(r, x, key, stamp);
      Step(r, x, key, stamp)
  }

  /**
   * `mergeData(local, remote)`. Whatever the inputs, every id present in
   * either list appears in the result exactly once.
   */
  function MergeData<T>(local: seq<T>, remote: seq<T>, key: T -> string, stamp: T -> Option<int>): (r: seq<T>)
    ensures UniqueKeys(r, key)
    ensures forall k :: HasKey(r, k, key) <==> HasKey(local, k, key) || HasKey(remote, k, key)
  {
    OverlayLocal(Load(remote, key), local, key, stamp)
  }

  // ---------------------------------------------------------------------------
  // The reference description

  /** The version of remote record `x` that survives: a strictly newer local one, else `x`. */
  function Pick<T>(local: seq<T>, x: T, key: T -> string, stamp: T -> Option<int>): (r: T)
    ensures key(r) == key(x)
    ensures r == x || (r in local && Newer(r, x, stamp))
  {
    match Lookup(local, key(x), key)
    case Some(y) => if Newer(y, x, stamp) then y else x
    case None => x
  }

  ghost function Winners<T>(local: seq<T>, remote: seq<T>, key: T -> string, stamp: T -> Option<int>): (w: seq<T>)
    ensures |w| == |remote|
    ensures forall i :: 0 <= i < |remote| ==> w[i] == Pick(local, remote[i], key, stamp)
  {
    seq(|remote|, i requires 0 <= i < |remote| => Pick(local, remote[i], key, stamp))
  }

  /** The local records whose id the remote list does not have, in local order. */
  function LocalOnly<T>(local: seq<T>, remote: seq<T>, key: T -> string): (r: seq<T>)
    ensures forall i :: 0 <= i < |r| ==> r[i] in local && !HasKey(remote, key(r[i]), key)
    ensures forall i :: 0 <= i < |local| && !HasKey(remote, key(local[i]), key) ==> local[i] in r
    decreases |local|
  {
    if local == [] then []
    else
      var front, y := local[..|local| - 1], local[|local| - 1];
      assert local == front + [y];
      LocalOnly(front, remote, key) + (if HasKey(remote, key(y), key) then [] else [y])
  }

  ghost function Reconcile<T>(local: seq<T>, remote: seq<T>, key: T -> string, stamp: T -> Option<int>): seq<T> {
    Winners(local, remote, key, stamp) + LocalOnly(local, remote, key)
  }

  // ---------------------------------------------------------------------------
  // The code computes the reference result

  lemma {:induction false} LoadUnique<T>(remote: seq<T>, key: T -> string)
    requires UniqueKeys(remote, key)
    ensures Load(remote, key) == remote
    decreases |remote|
  {
    if remote != [] {
      var front, x := remote[..|remote| - 1], remote[|remote| - 1];
      LoadUnique(front, key);
      assert KeyIndex(front, key(x), key) == None;
      assert front + [x] == remote;
    }
  }

  lemma {:induction false} LocalOnlyConcat<T>(a: seq<T>, b: seq<T>, remote: seq<T>, key: T -> string)
    ensures LocalOnly(a + b, remote, key) == LocalOnly(a, remote, key) + LocalOnly(b, remote, key)
    decreases |b|
  {
    if b == [] {
      assert a + b == a;
    } else {
      var front, y := b[..|b| - 1], b[|b| - 1];
      assert (a + b)[..|a + b| - 1] == a + front;
      assert (a + b)[|a + b| - 1] == y;
      LocalOnlyConcat(a, front, remote, key);
    }
  }

  lemma {:induction false} LocalOnlyNone<T>(local: seq<T>, remote: seq<T>, key: T -> string)
    requires forall i :: 0 <= i < |local| ==> !HasKey(remote, key(local[i]), key)
    ensures LocalOnly(local, remote, key) == local
    decreases |local|
  {
    if local != [] {
      LocalOnlyNone(local[..|local| - 1], remote, key);
      assert local[..|local| - 1] + [local[|local| - 1]] == local;
    }
  }

  lemma {:induction false} LocalOnlyAll<T>(local: seq<T>, remote: seq<T>, key: T -> string)
    requires forall i :: 0 <= i < |local| ==> HasKey(remote, key(local[i]), key)
    ensures LocalOnly(local, remote, key) == []
    decreases |local|
  {
    if local != [] {
      LocalOnlyAll(local[..|local| - 1], remote, key);
    }
  }

  /** The reference result has unique keys when both inputs do. */
  lemma ReconcileUnique<T>(local: seq<T>, remote: seq<T>, key: T -> string, stamp: T -> Option<int>)
    requires UniqueKeys(local, key) && UniqueKeys(remote, key)
    ensures UniqueKeys(Reconcile(local, remote, key, stamp), key)
  {
    var w, o := Winners(local, remote, key, stamp), LocalOnly(local, remote, key);
    var m := w + o;
    LocalOnlyUnique(local, remote, key);
    forall i, j | 0 <= i < j < |m|
      ensures key(m[i]) != key(m[j])
    {
      if j < |w| {
        assert key(m[i]) == key(remote[i]) && key(m[j]) == key(remote[j]);
      } else if i < |w| {
        assert m[j] == o[j - |w|];
        assert key(m[i]) == key(remote[i]);
      } else {
        assert m[i] == o[i - |w|] && m[j] == o[j - |w|];
      }
    }
  }

  /** Appending `y` does not change the version picked for a record with another id. */
  lemma PickOther<T>(front: seq<T>, y: T, x: T, key: T -> string, stamp: T -> Option<int>)
    requires key(x) != key(y)
    ensures Pick(front + [y], x, key, stamp) == Pick(front, x, key, stamp)
  {
    LookupAppend(front, y, key(x), key);
  }

  lemma LastKeyIsNew<T>(front: seq<T>, y: T, key: T -> string)
    requires UniqueKeys(front + [y], key)
    ensures UniqueKeys(front, key)
    ensures !HasKey(front, key(y), key)
  {
    var l := front + [y];
    assert forall j :: 0 <= j < |front| ==> l[j] == front[j];
    assert l[|front|] == y;
    forall j | 0 <= j < |front|
      ensures key(front[j]) != key(y)
    {
      assert key(l[j]) != key(l[|front|]);
    }
  }

  /** One more local record whose id the remote list has: at most that remote record's slot changes. */
  lemma ReconcileStepShared<T>(front: seq<T>, y: T, remote: seq<T>, i: nat, key: T -> string, stamp: T -> Option<int>)
    requires UniqueKeys(remote, key) && !HasKey(front, key(y), key)
    requires i < |remote| && key(remote[i]) == key(y)
    ensures Step(Reconcile(front, remote, key, stamp), y, key, stamp) == Reconcile(front + [y], remote, key, stamp)
  {
    var w, o := Winners(front, remote, key, stamp), LocalOnly(front, remote, key);
    WinnersStepShared(front, y, remote, i, key, stamp);
    LocalOnlyStepShared(front, y, remote, key);
    SharedSlot(w, o, remote, i, key);
  }

  /** In `w + o`, where `w` follows the remote ids slot by slot, remote id `i` is found at slot `i`. */
  lemma SharedSlot<T>(w: seq<T>, o: seq<T>, remote: seq<T>, i: nat, key: T -> string)
    requires UniqueKeys(remote, key) && |w| == |remote| && i < |remote|
    requires forall j :: 0 <= j < |w| ==> key(w[j]) == key(remote[j])
    ensures KeyIndex(w + o, key(remote[i]), key) == Some(i)
    ensures forall x :: key(x) == key(remote[i]) ==> (w + o)[i := x] == w[i := x] + o
  {
    var m := w + o;
    assert m[i] == w[i];
    forall j | 0 <= j < i
      ensures key(m[j]) != key(remote[i])
    {
      assert m[j] == w[j];
    }
  }

  lemma LocalOnlyStepShared<T>(front: seq<T>, y: T, remote: seq<T>, key: T -> string)
    requires HasKey(remote, key(y), key)
    ensures LocalOnly(front + [y], remote, key) == LocalOnly(front, remote, key)
  {
    var l := front + [y];
    assert l[..|l| - 1] == front && l[|l| - 1] == y;
  }

  lemma WinnersStepShared<T>(front: seq<T>, y: T, remote: seq<T>, i: nat, key: T -> string, stamp: T -> Option<int>)
    requires UniqueKeys(remote, key) && !HasKey(front, key(y), key)
    requires i < |remote| && key(remote[i]) == key(y)
    ensures Winners(front, remote, key, stamp)[i] == remote[i]
    ensures var w := Winners(front, remote, key, stamp);
      Winners(front + [y], remote, key, stamp) == if Newer(y, remote[i], stamp) then w[i := y] else w
  {
    var w, w' := Winners(front, remote, key, stamp), Winners(front + [y], remote, key, stamp);
    LookupAppend(front, y, key(y), key);
    assert w'[i] == (if Newer(y, remote[i], stamp) then y else remote[i]);
    forall j | 0 <= j < |remote| && j != i
      ensures w'[j] == w[j]
    {
      PickOther(front, y, remote[j], key, stamp);
    }
  }

  /** One more local record whose id the remote list lacks: it is appended. */
  lemma ReconcileStepNew<T>(front: seq<T>, y: T, remote: seq<T>, key: T -> string, stamp: T -> Option<int>)
    requires !HasKey(front, key(y), key) && !HasKey(remote, key(y), key)
    ensures Step(Reconcile(front, remote, key, stamp), y, key, stamp) == Reconcile(front + [y], remote, key, stamp)
  {
    var l := front + [y];
    var w, o := Winners(front, remote, key, stamp), LocalOnly(front, remote, key);
    var m := w + o;
    forall j | 0 <= j < |m|
      ensures key(m[j]) != key(y)
    {
      if j < |w| {
        assert key(m[j]) == key(remote[j]);
      } else {
        assert m[j] == o[j - |w|];
      }
    }
    assert KeyIndex(m, key(y), key) == None;
    forall j | 0 <= j < |remote|
      ensures Winners(l, remote, key, stamp)[j] == w[j]
    {
      PickOther(front, y, remote[j], key, stamp);
    }
    assert Winners(l, remote, key, stamp) == w;
    assert LocalOnly(l, remote, key) == o + [y];
  }

  /** One more local record: the reference result changes exactly as one code step does. */
  lemma ReconcileStep<T>(front: seq<T>, y: T, remote: seq<T>, key: T -> string, stamp: T -> Option<int>)
    requires UniqueKeys(front + [y], key) && UniqueKeys(remote, key)
    ensures Step(Reconcile(front, remote, key, stamp), y, key, stamp) == Reconcile(front + [y], remote, key, stamp)
  {
    LastKeyIsNew(front, y, key);
    if HasKey(remote, key(y), key) {
      var i :| 0 <= i < |remote| && key(remote[i]) == key(y);
      ReconcileStepShared(front, y, remote, i, key, stamp);
    } else {
      ReconcileStepNew(front, y, remote, key, stamp);
    }
  }

  lemma LocalOnlyUnique<T>(local: seq<T>, remote: seq<T>, key: T -> string)
    requires UniqueKeys(local, key)
    ensures UniqueKeys(LocalOnly(local, remote, key), key)
    decreases |local|
  {
    if local != [] {
      var front := local[..|local| - 1];
      assert UniqueKeys(front, key);
      LocalOnlyUnique(front, remote, key);
    }
  }

  lemma {:induction false} OverlayIsReconcile<T>(local: seq<T>, remote: seq<T>, key: T -> string, stamp: T -> Option<int>)
    requires UniqueKeys(local, key) && UniqueKeys(remote, key)
    ensures OverlayLocal(remote, local, key, stamp) == Reconcile(local, remote, key, stamp)
    decreases |local|
  {
    if local == [] {
      assert Winners(local, remote, key, stamp) == remote;
    } else {
      var front, y := local[..|local| - 1], local[|local| - 1];
      assert front + [y] == local;
      assert UniqueKeys(front, key);
      OverlayIsReconcile(front, remote, key, stamp);
      ReconcileStep(front, y, remote, key, stamp);
    }
  }

  /** With unique ids in each list, the code's result is the reference result. */
  lemma MergeIsReconcile<T>(local: seq<T>, remote: seq<T>, key: T -> string, stamp: T -> Option<int>)
    requires UniqueKeys(local, key) && UniqueKeys(remote, key)
    ensures MergeData(local, remote, key, stamp) == Reconcile(local, remote, key, stamp)
  {
    LoadUnique(remote, key);
    OverlayIsReconcile(local, remote, key, stamp);
  }

  // ---------------------------------------------------------------------------
  // Properties of the merge

  /**
   * Shape and winner rule: the result starts with one record per remote
   * record, in remote order, each the remote version unless the local record
   * with that id is strictly newer; then come the local-only records in local
   * order.
   */
  lemma MergeShape<T>(local: seq<T>, remote: seq<T>, key: T -> string, stamp: T -> Option<int>)
    requires UniqueKeys(local, key) && UniqueKeys(remote, key)
    ensures var r := MergeData(local, remote, key, stamp);
      && |r| >= |remote|
      && r[|remote|..] == LocalOnly(local, remote, key)
      && (forall i :: 0 <= i < |remote| ==> key(r[i]) == key(remote[i]))
      && (forall i, j :: 0 <= i < |remote| && 0 <= j < |local| && key(local[j]) == key(remote[i]) ==>
            r[i] == (if Newer(local[j], remote[i], stamp) then local[j] else remote[i]))
      && (forall i :: 0 <= i < |remote| && !HasKey(local, key(remote[i]), key) ==> r[i] == remote[i])
  {
    MergeIsReconcile(local, remote, key, stamp);
    var r := MergeData(local, remote, key, stamp);
    forall i, j | 0 <= i < |remote| && 0 <= j < |local| && key(local[j]) == key(remote[i])
      ensures r[i] == if Newer(local[j], remote[i], stamp) then local[j] else remote[i]
    {
      KeyIndexUnique(local, j, key);
    }
  }

  /** `merge(local, [])` is `local`. */
  lemma MergeWithEmptyRemote<T>(local: seq<T>, key: T -> string, stamp: T -> Option<int>)
    requires UniqueKeys(local, key)
    ensures MergeData(local, [], key, stamp) == local
  {
    LocalOnlyNone(local, [], key);
    assert Winners(local, [], key, stamp) == [];
    assert Reconcile(local, [], key, stamp) == local;
    MergeIsReconcile(local, [], key, stamp);
  }

  /** `merge([], remote)` is `remote`. */
  lemma MergeWithEmptyLocal<T>(remote: seq<T>, key: T -> string, stamp: T -> Option<int>)
    requires UniqueKeys(remote, key)
    ensures MergeData([], remote, key, stamp) == remote
  {
    MergeIsReconcile([], remote, key, stamp);
    assert Winners([], remote, key, stamp) == remote;
  }

  /** Merging the same remote list again changes nothing: `merge(merge(l, r), r) == merge(l, r)`. */
  lemma MergeIdempotent<T>(local: seq<T>, remote: seq<T>, key: T -> string, stamp: T -> Option<int>)
    requires UniqueKeys(local, key) && UniqueKeys(remote, key)
    ensures MergeData(MergeData(local, remote, key, stamp), remote, key, stamp) == MergeData(local, remote, key, stamp)
  {
    var m := MergeData(local, remote, key, stamp);
    MergeIsReconcile(local, remote, key, stamp);
    MergeIsReconcile(m, remote, key, stamp);
    ReconcileFixpoint(local, remote, key, stamp);
  }

  /** Reconciling the reference result with the same remote list again is a no-op. */
  lemma ReconcileFixpoint<T>(local: seq<T>, remote: seq<T>, key: T -> string, stamp: T -> Option<int>)
    requires UniqueKeys(Reconcile(local, remote, key, stamp), key)
    ensures Reconcile(Reconcile(local, remote, key, stamp), remote, key, stamp) == Reconcile(local, remote, key, stamp)
  {
    var w, o := Winners(local, remote, key, stamp), LocalOnly(local, remote, key);
    var m := w + o;
    assert Reconcile(local, remote, key, stamp) == m;
    PickedFixpoint(m, remote, key, stamp);
    assert Winners(m, remote, key, stamp) == w by {
      assert m[..|remote|] == w;
    }
    LocalOnlyConcat(w, o, remote, key);
    WinnersAllShared(local, remote, key, stamp);
    LocalOnlyAll(w, remote, key);
    LocalOnlyNone(o, remote, key);
    assert LocalOnly(m, remote, key) == o;
  }

  /** A list that already holds, slot by slot, a winning version of each remote record picks itself again. */
  lemma PickedFixpoint<T>(m: seq<T>, remote: seq<T>, key: T -> string, stamp: T -> Option<int>)
    requires UniqueKeys(m, key) && |remote| <= |m|
    requires forall i :: 0 <= i < |remote| ==> key(m[i]) == key(remote[i]) && (m[i] == remote[i] || Newer(m[i], remote[i], stamp))
    ensures Winners(m, remote, key, stamp) == m[..|remote|]
  {
    forall i | 0 <= i < |remote|
      ensures Pick(m, remote[i], key, stamp) == m[i]
    {
      KeyIndexUnique(m, i, key);
    }
  }

  lemma WinnersAllShared<T>(local: seq<T>, remote: seq<T>, key: T -> string, stamp: T -> Option<int>)
    ensures var w := Winners(local, remote, key, stamp);
      forall i :: 0 <= i < |w| ==> HasKey(remote, key(w[i]), key)
  {
    var w := Winners(local, remote, key, stamp);
    forall i | 0 <= i < |w|
      ensures HasKey(remote, key(w[i]), key)
    {
      assert key(w[i]) == key(remote[i]);
    }
  }

  /**
   * For a record type without an update instant (expenses) the remote
   * version always wins: the result is the remote list followed by the
   * local-only records.
   */
  lemma NoStampRemoteWins<T>(local: seq<T>, remote: seq<T>, key: T -> string, stamp: T -> Option<int>)
    requires UniqueKeys(local, key) && UniqueKeys(remote, key)
    requires forall x :: stamp(x) == None
    ensures MergeData(local, remote, key, stamp) == remote + LocalOnly(local, remote, key)
  {
    MergeIsReconcile(local, remote, key, stamp);
    assert Winners(local, remote, key, stamp) == remote;
  }
}

=== FILE: refunds.dfy ===
/**
 * Refund processing (`src/pages/Refunds.tsx`): finding a sale, choosing the
 * quantities to return, and recording the refund, which puts the returned
 * quantities back into stock.
 */
module Refunds {
  import opened Wrappers
  import opened Seqs
  import opened Text
  import opened Storage

  const NeedSaleAndReason := "Please select a sale and provide a reason"
  const NeedItems := "Please select items to refund"

  /** The search matches a sale's id, or its customer name when it has one, ignoring case. */
  predicate Matches(s: Sale, query: string) {
    ContainsIgnoreCase(s.id, query) || (s.customerName.Some? && ContainsIgnoreCase(s.customerName.value, query))
  }

  /** A sale's lines with nothing chosen yet: same medicines and prices, quantity and total zero. */
  function ZeroLines(items: seq<SaleItem>): (lines: seq<RefundItem>)
    ensures |lines| == |items|
    ensures forall i :: 0 <= i < |items| ==>
      lines[i] == SaleItem(items[i].medicineId, items[i].medicineName, 0, items[i].price, 0)
  {
    seq(|items|, i requires 0 <= i < |items| => SaleItem(items[i].medicineId, items[i].medicineName, 0, items[i].price, 0))
  }

  /** `handleSearch`: the first matching sale, with its refund lines set to zero. */
  function Search(sales: seq<Sale>, query: string): (r: Option<(Sale, seq<RefundItem>)>)
    ensures r.None? <==> forall i :: 0 <= i < |sales| ==> !Matches(sales[i], query)
    ensures r.Some? ==> exists i :: 0 <= i < |sales| && sales[i] == r.value.0 && Matches(sales[i], query)
                                   && forall j :: 0 <= j < i ==> !Matches(sales[j], query)
    ensures r.Some? ==> r.value.1 == ZeroLines(r.value.0.items)
  {
    match IndexWhere(sales, (s: Sale) => Matches(s, query))
    case Some(i) => Some((sales[i], ZeroLines(sales[i].items)))
    case None => None
  }

  /** `Math.min(Math.max(0, quantity), max)` */
  function Clamp(quantity: int, max: int): (r: int)
    ensures max >= 0 ==> 0 <= r <= max
    ensures 0 <= quantity <= max ==> r == quantity
    ensures quantity < 0 && max >= 0 ==> r == 0
    ensures quantity > max ==> r == max
  {
    var low := if quantity < 0 then 0 else quantity;
    if low < max then low else max
  }

  /**
   * `updateRefundQuantity`: the chosen quantity is clamped between zero and
   * the quantity sold on that line (zero when no sale is selected) and the
   * line's total is recomputed; the other lines do not change.
   */
  function UpdateRefundQuantity(sale: Option<Sale>, lines: seq<RefundItem>, index: nat, quantity: int): (r: seq<RefundItem>)
    requires index < |lines|
    requires sale.Some? ==> index < |sale.value.items|
    ensures |r| == |lines|
    ensures forall i :: 0 <= i < |lines| && i != index ==> r[i] == lines[i]
    ensures r[index].medicineId == lines[index].medicineId && r[index].price == lines[index].price
    ensures r[index].total == r[index].quantity * r[index].price
    ensures sale.None? ==> r[index].quantity == 0
    ensures sale.Some? && sale.value.items[index].quantity >= 0 ==> 0 <= r[index].quantity <= sale.value.items[index].quantity
    ensures sale.Some? && 0 <= quantity <= sale.value.items[index].quantity ==> r[index].quantity == quantity
  {
    var max := if sale.Some? then sale.value.items[index].quantity else 0;
    var q := Clamp(quantity, max);
    lines[index := lines[index].(quantity := q, total := q * lines[index].price)]
  }

  datatype Outcome = Refused(error: string) | Processed(store: Store, refund: Refund)

  predicate Chosen(line: RefundItem) {
    line.quantity > 0
  }

  function LineTotal(line: RefundItem): int {
    line.total
  }

  /** One iteration of the restock: the medicine's current quantity (zero if gone) plus the refunded quantity. */
  function RestockLine(ms: seq<Medicine>, item: RefundItem, now: int): seq<Medicine> {
    var current := match FindMedicine(ms, item.medicineId) case Some(m) => m.quantity case None => 0;
    UpdateMedicine(ms, item.medicineId, NoChange.(quantity := Some(current + item.quantity)), now)
  }

  function Restock(ms: seq<Medicine>, items: seq<RefundItem>, now: int): seq<Medicine>
    decreases |items|
  {
    if items == [] then ms else Restock(RestockLine(ms, items[0], now), items[1..], now)
  }

  lemma RestockLineEffect(ms: seq<Medicine>, item: RefundItem, now: int)
    requires UniqueIds(ms)
    ensures var r := RestockLine(ms, item, now);
      && |r| == |ms| && UniqueIds(r)
      && forall j :: 0 <= j < |ms| ==>
           && SameButStock(ms[j], r[j])
           && r[j].quantity == ms[j].quantity + (if ms[j].id == item.medicineId then item.quantity else 0)
  {
    var current := match FindMedicine(ms, item.medicineId) case Some(m) => m.quantity case None => 0;
    var p := NoChange.(quantity := Some(current + item.quantity));
    UpdateKeepsUnique(ms, item.medicineId, p, now);
    forall j | 0 <= j < |ms|
      ensures RestockLine(ms, item, now)[j] == if ms[j].id == item.medicineId then Patched(ms[j], p, now) else ms[j]
    {
      UpdateUnique(ms, item.medicineId, p, now, j);
    }
    forall j | 0 <= j < |ms| && ms[j].id == item.medicineId
      ensures current == ms[j].quantity
    {
      var k :| IsFirstWithId(ms, k, item.medicineId) && ms[k] == FindMedicine(ms, item.medicineId).value;
    }
  }

  /** Each medicine gains exactly the refunded quantity for it; medicines that are gone are not recreated. */
  lemma {:induction false} RestockEffect(ms: seq<Medicine>, items: seq<RefundItem>, now: int)
    requires UniqueIds(ms)
    ensures var r := Restock(ms, items, now);
      && |r| == |ms| && UniqueIds(r)
      && forall j :: 0 <= j < |ms| ==> SameButStock(ms[j], r[j]) && r[j].quantity == ms[j].quantity + QtyFor(items, ms[j].id)
    decreases |items|
  {
    if items != [] {
      RestockLineEffect(ms, items[0], now);
      RestockEffect(RestockLine(ms, items[0], now), items[1..], now);
    }
  }

  /** The lines with a positive quantity, in order. Unchosen well-formed lines carry a zero total, so nothing is lost from the sum. */
  function ChosenLines(lines: seq<RefundItem>): (items: seq<RefundItem>)
    ensures forall i :: 0 <= i < |items| ==> items[i] in lines && items[i].quantity > 0
    ensures forall i :: 0 <= i < |lines| && lines[i].quantity > 0 ==> lines[i] in items
    ensures (forall i :: 0 <= i < |lines| ==> lines[i].quantity >= 0 && lines[i].total == lines[i].quantity * lines[i].price) ==>
      SumOf(items, LineTotal) == SumOf(lines, LineTotal)
  {
    var items := Filter(lines, Chosen);
    assert (forall i :: 0 <= i < |lines| ==> lines[i].quantity >= 0 && lines[i].total == lines[i].quantity * lines[i].price) ==>
      SumOf(items, LineTotal) == SumOf(lines, LineTotal) by {
      if forall i :: 0 <= i < |lines| ==> lines[i].quantity >= 0 && lines[i].total == lines[i].quantity * lines[i].price {
        SumOfFilterZeros(lines, Chosen, LineTotal);
      }
    }
    items
  }

  /** The chosen lines follow the form's order: a split list gives its parts' chosen lines in order, and a lone line is chosen iff positive. */
  lemma ChosenKeepsOrder(a: seq<RefundItem>, b: seq<RefundItem>)
    ensures ChosenLines(a + b) == ChosenLines(a) + ChosenLines(b)
    ensures forall x: RefundItem :: ChosenLines([x]) == if x.quantity > 0 then [x] else []
  {
    FilterConcat(a, b, Chosen);
    forall x: RefundItem
      ensures ChosenLines([x]) == if x.quantity > 0 then [x] else []
    {
      FilterSingle(x, Chosen);
    }
  }

  /** The store's medicines after restocking every refunded line. */
  function RestockAll(ms: seq<Medicine>, items: seq<RefundItem>, now: int): (r: seq<Medicine>)
    ensures UniqueIds(ms) ==>
      && |r| == |ms|
      && forall j :: 0 <= j < |ms| ==> SameButStock(ms[j], r[j]) && r[j].quantity == ms[j].quantity + QtyFor(items, ms[j].id)
  {
    var r := Restock(ms, items, now);
    assert UniqueIds(ms) ==> |r| == |ms| && forall j :: 0 <= j < |ms| ==>
      SameButStock(ms[j], r[j]) && r[j].quantity == ms[j].quantity + QtyFor(items, ms[j].id) by {
      if UniqueIds(ms) {
        RestockEffect(ms, items, now);
      }
    }
    r
  }

  /**
   * `handleProcessRefund`: refused without a selected sale or with a blank
   * reason, and refused when no line has a positive quantity. Otherwise the
   * refund holds exactly the positive lines, its total is their sum, its
   * reason is trimmed, it is appended to the refunds, and the stock of every
   * refunded medicine rises by the refunded quantity.
   */
  function ProcessRefund(st: Store, sale: Option<Sale>, lines: seq<RefundItem>, reason: string,
                         refundId: string, now: int): (r: Outcome)
    ensures sale.None? || Trim(reason) == [] ==> r == Refused(NeedSaleAndReason)
    ensures sale.Some? && Trim(reason) != [] && (forall i :: 0 <= i < |lines| ==> lines[i].quantity <= 0) ==> r == Refused(NeedItems)
    ensures sale.Some? && Trim(reason) != [] && (exists i :: 0 <= i < |lines| && lines[i].quantity > 0) ==> r.Processed?
    ensures r.Processed? ==>
      && sale.Some? && r.refund.saleId == sale.value.id && r.refund.id == refundId
      && r.refund.createdAt == now && r.refund.items == ChosenLines(lines)
      && r.refund.reason == Trim(reason) && r.refund.reason != []
      && |r.refund.items| > 0
      && (forall i :: 0 <= i < |r.refund.items| ==> r.refund.items[i] in lines && r.refund.items[i].quantity > 0)
      && (forall i :: 0 <= i < |lines| && lines[i].quantity > 0 ==> lines[i] in r.refund.items)
      && r.refund.total == SumOf(r.refund.items, LineTotal)
      && r.store.refunds == st.refunds + [r.refund]
      && r.store.(medicines := st.medicines, refunds := st.refunds) == st
    // Unchosen lines left by the clamp carry a zero total, so the refund total is the total over all lines.
    ensures r.Processed? && (forall i :: 0 <= i < |lines| ==> lines[i].quantity >= 0 && lines[i].total == lines[i].quantity * lines[i].price) ==>
      r.refund.total == SumOf(lines, LineTotal)
    ensures r.Processed? && UniqueIds(st.medicines) ==>
      && |r.store.medicines| == |st.medicines|
      && forall j :: 0 <= j < |st.medicines| ==>
           && SameButStock(st.medicines[j], r.store.medicines[j])
           && r.store.medicines[j].quantity == st.medicines[j].quantity + QtyFor(r.refund.items, st.medicines[j].id)
  {
    if sale.None? || Trim(reason) == [] then Refused(NeedSaleAndReason)
    else
      var items := ChosenLines(lines);
      if items == [] then Refused(NeedItems)
      else
        var refund := Refund(refundId, sale.value.id, items, SumOf(items, LineTotal), Trim(reason), now);
        Processed(st.(medicines := RestockAll(st.medicines, items, now), refunds := st.refunds + [refund]), refund)
  }
}

=== FILE: reports.dfy ===
/**
 * The reports page (`src/pages/Reports.tsx`): the date-range filter, the
 * generic CSV builder and the expansion of sales into one row per sold
 * line. Dates are integer timestamps; printing a timestamp or a number is
 * done by the parameters `showTime` and `showNumber`.
 */
module Reports {
  import opened Wrappers
  import opened Seqs
  import opened Text
  import opened Storage

  const NoData := "No data to export"

  // ---------------------------------------------------------------------------
  // Date range

  /** An optional lower and upper bound, both inclusive. */
  predicate InRange(t: int, from: Option<int>, to: Option<int>) {
    (from.None? || from.value <= t) && (to.None? || t <= to.value)
  }

  /** `filterByDate`: everything when no bound is set, otherwise the items within the bounds, in order. */
  function FilterByDate<T>(items: seq<T>, createdAt: T -> int, from: Option<int>, to: Option<int>): (r: seq<T>)
    ensures from.None? && to.None? ==> r == items
    ensures forall i :: 0 <= i < |r| ==> r[i] in items && InRange(createdAt(r[i]), from, to)
    ensures forall i :: 0 <= i < |items| && InRange(createdAt(items[i]), from, to) ==> items[i] in r
  {
    if from.None? && to.None? then items
    else Filter(items, (x: T) => InRange(createdAt(x), from, to))
  }

  /** The date filter follows the list order: a split list gives its parts' kept items in order, and a lone item stays iff it is in range. */
  lemma FilterByDateKeepsOrder<T>(a: seq<T>, b: seq<T>, createdAt: T -> int, from: Option<int>, to: Option<int>)
    ensures FilterByDate(a + b, createdAt, from, to) == FilterByDate(a, createdAt, from, to) + FilterByDate(b, createdAt, from, to)
    ensures forall x: T :: FilterByDate([x], createdAt, from, to) == if InRange(createdAt(x), from, to) then [x] else []
  {
    FilterConcat(a, b, (x: T) => InRange(createdAt(x), from, to));
    forall x: T
      ensures FilterByDate([x], createdAt, from, to) == if InRange(createdAt(x), from, to) then [x] else []
    {
      FilterSingle(x, (x: T) => InRange(createdAt(x), from, to));
    }
  }

  /** Narrowing the range never brings an item back. */
  lemma NarrowerRangeKeepsLess<T>(items: seq<T>, createdAt: T -> int, from: int, to: int, from': int, to': int)
    requires from <= from' && to' <= to
    ensures forall x :: x in FilterByDate(items, createdAt, Some(from'), Some(to')) ==>
      x in FilterByDate(items, createdAt, Some(from), Some(to))
  {
    var wide := FilterByDate(items, createdAt, Some(from), Some(to));
    var narrow := FilterByDate(items, createdAt, Some(from'), Some(to'));
    forall x | x in narrow
      ensures x in wide
    {
      var i :| 0 <= i < |narrow| && narrow[i] == x;
      var j :| 0 <= j < |items| && items[j] == x;
    }
  }

  // ---------------------------------------------------------------------------
  // CSV builder

  /** A value in a report row: text, a number, or nothing (`undefined`). */
  datatype Cell = StrCell(s: string) | NumCell(n: int) | NoCell

  /** A report row: values by column name. */
  type Row = map<string, Cell>

  function CellOf(row: Row, column: string): Cell {
    if column in row then row[column] else NoCell
  }

  /**
   * `row[h] || ''` followed by the quoting rule as written: a falsy value
   * (empty text, zero, nothing) is empty; text holding a comma is enclosed
   * in quotes without doubling the quotes inside it; anything else is
   * printed as it is.
   */
  function RenderAsWritten(c: Cell, showNumber: int -> string): (r: string)
    ensures c == NoCell || c == StrCell("") || c == NumCell(0) ==> r == ""
    ensures c.StrCell? && ',' !in c.s ==> r == c.s
    ensures c.StrCell? && ',' in c.s ==> r == "\"" + c.s + "\""
    ensures c.NumCell? && c.n != 0 ==> r == showNumber(c.n)
  {
    match c
    case NoCell => ""
    case NumCell(n) => if n == 0 then "" else showNumber(n)
    case StrCell(s) => if ',' in s then "\"" + s + "\"" else s
  }

  /** A report line: the rendered cells of the row, in header order, joined by commas. */
  function ReportLine(headers: seq<string>, row: Row, showNumber: int -> string): string {
    Join(RenderedCells(headers, row, showNumber), ",")
  }

  /**
   * The cells of a row in header order, rendered with the corrected quoting
   * rule (see `RenderQuoted`): each text cell reads back as its value.
   */
  function RenderedCells(headers: seq<string>, row: Row, showNumber: int -> string): (r: seq<string>)
    ensures |r| == |headers|
    ensures forall i :: 0 <= i < |headers| ==> r[i] == RenderQuoted(CellOf(row, headers[i]), showNumber)
  {
    seq(|headers|, i requires 0 <= i < |headers| => RenderQuoted(CellOf(row, headers[i]), showNumber))
  }

  function ReportLines(headers: seq<string>, rows: seq<Row>, showNumber: int -> string): (r: seq<string>)
    ensures |r| == |rows| + 1 && r[0] == Join(headers, ",")
    ensures forall k :: 0 <= k < |rows| ==> r[k + 1] == ReportLine(headers, rows[k], showNumber)
  {
    [Join(headers, ",")] + seq(|rows|, k requires 0 <= k < |rows| => ReportLine(headers, rows[k], showNumber))
  }

  /**
   * `exportToCSV`: refused on no rows, otherwise the joined headers and one
   * line per row. Cells use the corrected quoting of `RenderQuoted`, which
   * agrees with the page for every value without a quote or a line break.
   */
  function ExportToCsv(headers: seq<string>, rows: seq<Row>, showNumber: int -> string): (r: Result<string>)
    ensures r.Failure? <==> rows == []
    ensures r.Failure? ==> r.error == NoData
    ensures r.Success? ==> r.value == Join(ReportLines(headers, rows, showNumber), "\n")
  {
    if rows == [] then Failure(NoData)
    else Success(Join(ReportLines(headers, rows, showNumber), "\n"))
  }

  /** Text that can stand in a CSV line as it is. */
  predicate Plain(s: string) {
    ',' !in s && '\n' !in s
  }

  /**
   * Reading a report back: when no header and no rendered value holds a
   * comma or a line break, splitting at line breaks and then at commas
   * gives the headers and, for each row in order, its rendered values in
   * header order.
   */
  lemma ReportReadsBack(headers: seq<string>, rows: seq<Row>, showNumber: int -> string)
    requires rows != [] && headers != []
    requires forall i :: 0 <= i < |headers| ==> Plain(headers[i])
    requires forall k, i :: 0 <= k < |rows| && 0 <= i < |headers| ==>
      Plain(RenderQuoted(CellOf(rows[k], headers[i]), showNumber))
    ensures var lines := Split(ExportToCsv(headers, rows, showNumber).value, '\n');
      && |lines| == |rows| + 1
      && Split(lines[0], ',') == headers
      && forall k :: 0 <= k < |rows| ==> Split(lines[k + 1], ',') == RenderedCells(headers, rows[k], showNumber)
  {
    var lines := ReportLines(headers, rows, showNumber);
    forall i | 0 <= i < |lines|
      ensures '\n' !in lines[i]
    {
      if i == 0 {
        JoinAvoids(headers, ",", '\n');
      } else {
        JoinAvoids(RenderedCells(headers, rows[i - 1], showNumber), ",", '\n');
      }
    }
    SplitJoin(lines, '\n');
    SplitJoin(headers, ',');
    forall k | 0 <= k < |rows|
      ensures Split(lines[k + 1], ',') == RenderedCells(headers, rows[k], showNumber)
    {
      SplitJoin(RenderedCells(headers, rows[k], showNumber), ',');
    }
  }

  /** A rendered value containing both a comma and a quote does not read back as the value. */
  lemma QuoteInsideCommaValueIsMangled(showNumber: int -> string)
    ensures var v := "a\",b";
      var out := RenderAsWritten(StrCell(v), showNumber);
      out != v && ParseQuotedField(out) == None
  {
    var v := "a\",b";
    assert ',' in v by { assert v[2] == ','; }
    var out := RenderAsWritten(StrCell(v), showNumber);
    assert out == "\"a\",b\"";
    assert out[1..|out| - 1] == "a\",b";
    assert UnescapeQuotes("\",b") == None;
    assert UnescapeQuotes("a\",b") == None;
  }

  /** Text that has to be enclosed in quotes to survive in a CSV line. */
  predicate NeedsQuotes(s: string) {
    ',' in s || '"' in s || '\n' in s
  }

  /**
   * The rendering section 2 of RFC 4180 asks for: a value holding a comma,
   * a quote or a line break is enclosed in quotes with its quotes doubled.
   * Falsy values still render empty.
   */
  function RenderQuoted(c: Cell, showNumber: int -> string): (r: string)
    ensures c == NoCell || c == StrCell("") || c == NumCell(0) ==> r == ""
    ensures c.NumCell? && c.n != 0 ==> r == showNumber(c.n)
    ensures c.StrCell? ==> (r == c.s && !NeedsQuotes(c.s)) || ParseQuotedField(r) == Some(c.s)
  {
    match c
    case NoCell => ""
    case NumCell(n) => if n == 0 then "" else showNumber(n)
    case StrCell(s) =>
      if NeedsQuotes(s) then
        QuoteFieldRoundTrip(s);
        QuoteField(s)
      else s
  }

  /** Text rendered the corrected way reads back unchanged, and agrees with the page whenever it holds no quote. */
  lemma RenderQuotedAgrees(s: string, showNumber: int -> string)
    requires '"' !in s && '\n' !in s
    ensures RenderQuoted(StrCell(s), showNumber) == RenderAsWritten(StrCell(s), showNumber)
  {
    if ',' in s {
      EscapeNoQuotes(s);
    }
  }

  /** Doubling quotes changes nothing in text without quotes. */
  lemma {:induction false} EscapeNoQuotes(s: string)
    requires '"' !in s
    ensures EscapeQuotes(s) == s
    decreases |s|
  {
    if s != [] {
      assert '"' !in s[1..] by {
        assert forall d :: d in s[1..] ==> d in s;
      }
      EscapeNoQuotes(s[1..]);
      assert [s[0]] + s[1..] == s;
    }
  }

  // ---------------------------------------------------------------------------
  // Sales report

  const SaleColumns := ["date", "saleId", "customer", "medicine", "quantity", "price", "total", "paymentMethod", "isCredit"]

  /** The first eight characters of an id (`slice(0, 8)`). */
  function ShortId(id: string): (r: string)
    ensures |r| <= 8 && |r| <= |id| && r == id[..|r|]
    ensures |id| >= 8 ==> |r| == 8
  {
    if |id| <= 8 then id else id[..8]
  }

  /** The row for one sold line: sale columns repeated on every line of the sale. */
  function ItemRow(s: Sale, item: SaleItem, showTime: int -> string): Row {
    map[
      "date" := StrCell(showTime(s.createdAt)),
      "saleId" := StrCell(ShortId(s.id)),
      "customer" := StrCell(if s.customerName.Some? && s.customerName.value != "" then s.customerName.value else "Walk-in"),
      "medicine" := StrCell(item.medicineName),
      "quantity" := NumCell(item.quantity),
      "price" := StrCell(Fixed2(item.price)),
      "total" := StrCell(Fixed2(item.total)),
      "paymentMethod" := StrCell(s.paymentMethod),
      "isCredit" := StrCell(if s.isCredit then "Yes" else "No")
    ]
  }

  /** The number of sold lines across the sales. */
  function ItemCount(sales: seq<Sale>): nat {
    if sales == [] then 0 else |sales[0].items| + ItemCount(sales[1..])
  }

  /** `flatMap` over the sales: each sale's lines, sale after sale. */
  function SalesRows(sales: seq<Sale>, showTime: int -> string): (r: seq<Row>)
    ensures |r| == ItemCount(sales)
  {
    if sales == [] then []
    else
      seq(|sales[0].items|, j requires 0 <= j < |sales[0].items| => ItemRow(sales[0], sales[0].items[j], showTime))
      + SalesRows(sales[1..], showTime)
  }

  /** Line `j` of sale `k` lands right after the lines of the sales before it. */
  lemma {:induction false} SalesRowAt(sales: seq<Sale>, showTime: int -> string, k: nat, j: nat)
    requires k < |sales| && j < |sales[k].items|
    ensures ItemCount(sales[..k]) + j < |SalesRows(sales, showTime)|
    ensures SalesRows(sales, showTime)[ItemCount(sales[..k]) + j] == ItemRow(sales[k], sales[k].items[j], showTime)
    decreases k
  {
    if k > 0 {
      SalesRowAt(sales[1..], showTime, k - 1, j);
      assert sales[1..][..k - 1] == sales[..k][1..];
      assert sales[1..][k - 1] == sales[k];
    }
  }

  /** The customer column reads "Walk-in" exactly when no customer name was given. */
  lemma WalkInCustomer(s: Sale, item: SaleItem, showTime: int -> string)
    ensures CellOf(ItemRow(s, item, showTime), "customer") == StrCell("Walk-in") <==>
      s.customerName.None? || s.customerName.value in {"", "Walk-in"}
  {
  }

  /** `exportSales`: the sales within the date range, one CSV row per sold line. */
  function ExportSales(
    sales: seq<Sale>, from: Option<int>, to: Option<int>, showTime: int -> string, showNumber: int -> string): (r: Result<string>)
    ensures r.Failure? <==> ItemCount(FilterByDate(sales, (s: Sale) => s.createdAt, from, to)) == 0
    ensures r.Success? ==> r.value == Join(ReportLines(SaleColumns, SalesRows(FilterByDate(sales, (s: Sale) => s.createdAt, from, to), showTime), showNumber), "\n")
  {
    var rows := SalesRows(FilterByDate(sales, (s: Sale) => s.createdAt, from, to), showTime);
    ExportToCsv(SaleColumns, rows, showNumber)
  }
}

=== FILE: seqs.dfy ===
/** Order-preserving filtering, first-match search and sums over sequences. */
module Seqs {
  import opened Wrappers

  /** `s.filter(p)`: keeps the elements satisfying `p`, in their original order. */
  function Filter<T>(s: seq<T>, p: T -> bool): (r: seq<T>)
    ensures |r| <= |s|
    ensures forall i :: 0 <= i < |r| ==> r[i] in s && p(r[i])
    ensures forall i :: 0 <= i < |s| && p(s[i]) ==> s[i] in r
  {
    if s == [] then [] else (if p(s[0]) then [s[0]] else []) + Filter(s[1..], p)
  }

  /** Filtering distributes over concatenation: the relative order of kept elements is preserved. */
  lemma {:induction false} FilterConcat<T>(a: seq<T>, b: seq<T>, p: T -> bool)
    ensures Filter(a + b, p) == Filter(a, p) + Filter(b, p)
    decreases |a|
  {
    if a == [] {
      assert a + b == b;
    } else {
      assert (a + b)[1..] == a[1..] + b;
      FilterConcat(a[1..], b, p);
    }
  }

  /** A prefix of `q` is still a prefix after anything is appended to `q`. */
  lemma PrefixThroughAppend<T>(q: seq<T>, extra: seq<T>, p: seq<T>)
    requires |p| <= |q| && q[..|p|] == p
    ensures |p| <= |q + extra| && (q + extra)[..|p|] == p
  {
    assert (q + extra)[..|p|] == q[..|p|];
  }

  /** Dropping the last element does not touch a shorter prefix. */
  lemma PrefixOfFront<T>(s: seq<T>, j: nat)
    requires j < |s|
    ensures s[..|s| - 1][..j] == s[..j]
  {
  }

  /** A prefix of a prefix is a prefix. */
  lemma PrefixOfPrefix<T>(s: seq<T>, i: nat, j: nat)
    requires j <= i <= |s|
    ensures s[..i][..j] == s[..j]
  {
  }

  /**
   * A prefix `p` of `r` that is `q + [x]` makes `r` hold `q` up to position
   * `n`, the length of `q`, and `x` at `n`.
   */
  lemma SplitPrefix<T>(r: seq<T>, p: seq<T>, q: seq<T>, x: T, n: nat)
    requires |p| <= |r| && r[..|p|] == p && p == q + [x] && n == |q|
    ensures n < |r| && r[..n] == q && r[n] == x
  {
    assert r[..n] == r[..|p|][..n];
    assert r[n] == r[..|p|][n];
  }

  /** A single element is kept exactly when it passes. */
  lemma FilterSingle<T>(x: T, p: T -> bool)
    ensures Filter([x], p) == if p(x) then [x] else []
  {
    assert [x][1..] == [];
  }

  /** A filter that every element passes changes nothing. */
  lemma {:induction false} FilterKeepsAll<T>(s: seq<T>, p: T -> bool)
    requires forall i :: 0 <= i < |s| ==> p(s[i])
    ensures Filter(s, p) == s
    decreases |s|
  {
    if s != [] {
      FilterKeepsAll(s[1..], p);
      assert [s[0]] + s[1..] == s;
    }
  }

  /** Index of the first element satisfying `p` (`findIndex`), None for -1. */
  function IndexWhere<T>(s: seq<T>, p: T -> bool): (r: Option<nat>)
    ensures r.Some? ==> r.value < |s| && p(s[r.value]) && forall j :: 0 <= j < r.value ==> !p(s[j])
    ensures r.None? ==> forall j :: 0 <= j < |s| ==> !p(s[j])
  {
    if s == [] then None
    else if p(s[0]) then Some(0)
    else match IndexWhere(s[1..], p)
      case Some(i) => Some(i + 1)
      case None => None
  }

  /** `s.find(p)`: the first element satisfying `p`. */
  function Find<T>(s: seq<T>, p: T -> bool): (r: Option<T>)
    ensures r.Some? ==> r.value in s && p(r.value)
    ensures r.None? ==> forall i :: 0 <= i < |s| ==> !p(s[i])
  {
    match IndexWhere(s, p)
    case Some(i) => Some(s[i])
    case None => None
  }

  /** `s.some(p)` */
  predicate Any<T>(s: seq<T>, p: T -> bool) {
    exists i :: 0 <= i < |s| && p(s[i])
  }

  /** Sum of `f` over the sequence (`reduce((a, x) => a + f(x), 0)`). */
  function SumOf<T>(s: seq<T>, f: T -> int): int {
    if s == [] then 0 else f(s[0]) + SumOf(s[1..], f)
  }

  lemma {:induction false} SumOfConcat<T>(a: seq<T>, b: seq<T>, f: T -> int)
    ensures SumOf(a + b, f) == SumOf(a, f) + SumOf(b, f)
    decreases |a|
  {
    if a == [] {
      assert a + b == b;
    } else {
      assert (a + b)[1..] == a[1..] + b;
      SumOfConcat(a[1..], b, f);
    }
  }

  /** Dropping elements on which `f` is zero does not change the sum. */
  lemma {:induction false} SumOfFilterZeros<T>(s: seq<T>, p: T -> bool, f: T -> int)
    requires forall i :: 0 <= i < |s| && !p(s[i]) ==> f(s[i]) == 0
    ensures SumOf(Filter(s, p), f) == SumOf(s, f)
    decreases |s|
  {
    if s != [] {
      SumOfFilterZeros(s[1..], p, f);
      var head := if p(s[0]) then [s[0]] else [];
      SumOfConcat(head, Filter(s[1..], p), f);
    }
  }
}

=== FILE: settings.dfy ===
/** Application settings (`settingsStorage` in `src/lib/storage.ts`): stored values overlaid on defaults. */
module Settings {
  import opened Wrappers
  import opened Storage

  const Defaults := AppSettings(
    "Medical POS", "", "", "", "",
    5, true, 0, 100, 10, 30, true,
    "Rs.", "Thank you for your purchase!", "Please visit again", false)

  /** `Partial<AppSettings>`: None leaves a field as it is. */
  datatype SettingsPatch = SettingsPatch(
    businessName: Option<string>,
    businessAddress: Option<string>,
    businessPhone: Option<string>,
    businessEmail: Option<string>,
    taxNumber: Option<string>,
    defaultTaxRate: Option<int>,
    enableTax: Option<bool>,
    defaultDiscount: Option<int>,
    maxDiscount: Option<int>,
    lowStockThreshold: Option<int>,
    expiryWarningDays: Option<int>,
    enableStockAlerts: Option<bool>,
    currencySymbol: Option<string>,
    receiptHeader: Option<string>,
    receiptFooter: Option<string>,
    showLogo: Option<bool>)

  const EmptyPatch := SettingsPatch(None, None, None, None, None, None, None, None,
                                    None, None, None, None, None, None, None, None)

  /** `{ ...s, ...p }` */
  function Overlay(s: AppSettings, p: SettingsPatch): AppSettings {
    AppSettings(
      p.businessName.GetOr(s.businessName),
      p.businessAddress.GetOr(s.businessAddress),
      p.businessPhone.GetOr(s.businessPhone),
      p.businessEmail.GetOr(s.businessEmail),
      p.taxNumber.GetOr(s.taxNumber),
      p.defaultTaxRate.GetOr(s.defaultTaxRate),
      p.enableTax.GetOr(s.enableTax),
      p.defaultDiscount.GetOr(s.defaultDiscount),
      p.maxDiscount.GetOr(s.maxDiscount),
      p.lowStockThreshold.GetOr(s.lowStockThreshold),
      p.expiryWarningDays.GetOr(s.expiryWarningDays),
      p.enableStockAlerts.GetOr(s.enableStockAlerts),
      p.currencySymbol.GetOr(s.currencySymbol),
      p.receiptHeader.GetOr(s.receiptHeader),
      p.receiptFooter.GetOr(s.receiptFooter),
      p.showLogo.GetOr(s.showLogo))
  }

  /** `p` followed by `q`: a field of `q` wins over the same field of `p`. */
  function Then(p: SettingsPatch, q: SettingsPatch): SettingsPatch {
    SettingsPatch(
      if q.businessName.Some? then q.businessName else p.businessName,
      if q.businessAddress.Some? then q.businessAddress else p.businessAddress,
      if q.businessPhone.Some? then q.businessPhone else p.businessPhone,
      if q.businessEmail.Some? then q.businessEmail else p.businessEmail,
      if q.taxNumber.Some? then q.taxNumber else p.taxNumber,
      if q.defaultTaxRate.Some? then q.defaultTaxRate else p.defaultTaxRate,
      if q.enableTax.Some? then q.enableTax else p.enableTax,
      if q.defaultDiscount.Some? then q.defaultDiscount else p.defaultDiscount,
      if q.maxDiscount.Some? then q.maxDiscount else p.maxDiscount,
      if q.lowStockThreshold.Some? then q.lowStockThreshold else p.lowStockThreshold,
      if q.expiryWarningDays.Some? then q.expiryWarningDays else p.expiryWarningDays,
      if q.enableStockAlerts.Some? then q.enableStockAlerts else p.enableStockAlerts,
      if q.currencySymbol.Some? then q.currencySymbol else p.currencySymbol,
      if q.receiptHeader.Some? then q.receiptHeader else p.receiptHeader,
      if q.receiptFooter.Some? then q.receiptFooter else p.receiptFooter,
      if q.showLogo.Some? then q.showLogo else p.showLogo)
  }

  /** A supplied field takes the supplied value; an omitted one keeps its value. */
  ghost predicate FieldOverlaid<T>(before: T, supplied: Option<T>, after: T) {
    (supplied.Some? ==> after == supplied.value) && (supplied.None? ==> after == before)
  }

  ghost predicate Overlaid(before: AppSettings, p: SettingsPatch, after: AppSettings) {
    && FieldOverlaid(before.businessName, p.businessName, after.businessName)
    && FieldOverlaid(before.businessAddress, p.businessAddress, after.businessAddress)
    && FieldOverlaid(before.businessPhone, p.businessPhone, after.businessPhone)
    && FieldOverlaid(before.businessEmail, p.businessEmail, after.businessEmail)
    && FieldOverlaid(before.taxNumber, p.taxNumber, after.taxNumber)
    && FieldOverlaid(before.defaultTaxRate, p.defaultTaxRate, after.defaultTaxRate)
    && FieldOverlaid(before.enableTax, p.enableTax, after.enableTax)
    && FieldOverlaid(before.defaultDiscount, p.defaultDiscount, after.defaultDiscount)
    && FieldOverlaid(before.maxDiscount, p.maxDiscount, after.maxDiscount)
    && FieldOverlaid(before.lowStockThreshold, p.lowStockThreshold, after.lowStockThreshold)
    && FieldOverlaid(before.expiryWarningDays, p.expiryWarningDays, after.expiryWarningDays)
    && FieldOverlaid(before.enableStockAlerts, p.enableStockAlerts, after.enableStockAlerts)
    && FieldOverlaid(before.currencySymbol, p.currencySymbol, after.currencySymbol)
    && FieldOverlaid(before.receiptHeader, p.receiptHeader, after.receiptHeader)
    && FieldOverlaid(before.receiptFooter, p.receiptFooter, after.receiptFooter)
    && FieldOverlaid(before.showLogo, p.showLogo, after.showLogo)
  }

  /** `settingsStorage.get`: nothing stored reads as the defaults. */
  function GetSettings(st: Store): (r: AppSettings)
    ensures st.settings.None? ==> r == Defaults
    ensures st.settings.Some? ==> r == st.settings.value
  {
    st.settings.GetOr(Defaults)
  }

  /** `settingsStorage.save` */
  function SaveSettings(st: Store, s: AppSettings): (r: Store)
    ensures GetSettings(r) == s
    ensures r.(settings := st.settings) == st
  {
    st.(settings := Some(s))
  }

  /**
   * `settingsStorage.update`: the supplied fields replace the current ones
   * (stored or default), the others keep their current values, and no other
   * key of the store changes.
   */
  function UpdateSettings(st: Store, p: SettingsPatch): (r: Store)
    ensures r.(settings := st.settings) == st
    ensures Overlaid(GetSettings(st), p, GetSettings(r))
    ensures p == EmptyPatch ==> GetSettings(r) == GetSettings(st)
  {
    SaveSettings(st, Overlay(GetSettings(st), p))
  }

  /** `settingsStorage.reset` */
  function ResetSettings(st: Store): (r: Store)
    ensures GetSettings(r) == Defaults
    ensures r.(settings := st.settings) == st
  {
    SaveSettings(st, Defaults)
  }

  lemma OverlayThen(s: AppSettings, p: SettingsPatch, q: SettingsPatch)
    ensures Overlay(Overlay(s, p), q) == Overlay(s, Then(p, q))
  {
  }

  /** Two updates in a row act like one update with the later fields winning. */
  lemma UpdateTwice(st: Store, p: SettingsPatch, q: SettingsPatch)
    ensures UpdateSettings(UpdateSettings(st, p), q) == UpdateSettings(st, Then(p, q))
  {
    var s1 := UpdateSettings(st, p);
    assert GetSettings(s1) == Overlay(GetSettings(st), p);
    OverlayThen(GetSettings(st), p, q);
  }

  /** Repeating an update changes nothing more. */
  lemma UpdateIdempotent(st: Store, p: SettingsPatch)
    ensures UpdateSettings(UpdateSettings(st, p), p) == UpdateSettings(st, p)
  {
    UpdateTwice(st, p, p);
    assert Then(p, p) == p;
  }
}

=== FILE: signup.dfy ===
/**
 * The sign-in page (`src/pages/Auth.tsx`): the field rules of the login and
 * signup forms and the choice between local and remote registration. The
 * e-mail check is a library's and enters as the boolean `emailOk`; the
 * remote sign-up is an outcome parameter.
 */
module Signup {
  import opened Wrappers
  import opened Storage
  import opened Accounts
  import Text

  const BadEmail := "Please enter a valid email address"
  const UsernameTooShort := "Username must be at least 3 characters"
  const UsernameTooLong := "Username must be at most 20 characters"
  const UsernameBadChars := "Username can only contain letters, numbers, and underscores"
  const PasswordTooShort := "Password must be at least 6 characters"
  const RegistrationFailed := "Registration failed"

  /** `[a-zA-Z0-9_]` */
  predicate IsWordChar(c: char) {
    ('a' <= c <= 'z') || ('A' <= c <= 'Z') || ('0' <= c <= '9') || c == '_'
  }

  /** `/^[a-zA-Z0-9_]+$/` */
  predicate AllWordChars(s: string) {
    |s| > 0 && forall i :: 0 <= i < |s| ==> IsWordChar(s[i])
  }

  /** The signup username rule as a whole; zod's `min`/`max` count UTF-16 code units. */
  predicate ValidUsername(u: string) {
    3 <= Text.Utf16Length(u) <= 20 && AllWordChars(u)
  }

  /** A username made of `[a-zA-Z0-9_]` has one code unit per character, so the length rules count its characters. */
  lemma WordCharsAreSingleUnits(u: string)
    requires AllWordChars(u)
    ensures Text.Utf16Length(u) == |u|
    ensures ValidUsername(u) <==> 3 <= |u| <= 20
  {
    forall i | 0 <= i < |u|
      ensures u[i] <= '\U{FFFF}'
    {
      assert IsWordChar(u[i]);
    }
  }

  /** A password of three emoji is three characters, yet it meets the six-character minimum of both forms. */
  lemma EmojiPasswordIsLongEnough()
    ensures LoginIssues(true, "\U{1F600}\U{1F600}\U{1F600}") == []
  {
    Text.EmojiCountTwice();
  }

  /**
   * The messages of every failing check, in the order the schema declares
   * them (e-mail, then the username's length and pattern, then the
   * password); the form shows the first.
   */
  function SignupIssues(emailOk: bool, username: string, password: string): (r: seq<string>)
    ensures r == [] <==> emailOk && ValidUsername(username) && Text.Utf16Length(password) >= 6
    ensures !emailOk ==> r[0] == BadEmail
    ensures emailOk && Text.Utf16Length(username) < 3 ==> r[0] == UsernameTooShort
    ensures emailOk && Text.Utf16Length(username) > 20 ==> r[0] == UsernameTooLong
    ensures emailOk && 3 <= Text.Utf16Length(username) <= 20 && !AllWordChars(username) ==> r[0] == UsernameBadChars
    ensures emailOk && ValidUsername(username) && Text.Utf16Length(password) < 6 ==> r == [PasswordTooShort]
  {
    (if emailOk then [] else [BadEmail])
    + (if Text.Utf16Length(username) < 3 then [UsernameTooShort] else [])
    + (if Text.Utf16Length(username) > 20 then [UsernameTooLong] else [])
    + (if AllWordChars(username) then [] else [UsernameBadChars])
    + (if Text.Utf16Length(password) >= 6 then [] else [PasswordTooShort])
  }

  /** The login schema: a valid e-mail and a password of at least six characters. */
  function LoginIssues(emailOk: bool, password: string): (r: seq<string>)
    ensures r == [] <==> emailOk && Text.Utf16Length(password) >= 6
    ensures !emailOk ==> r[0] == BadEmail
    ensures emailOk && Text.Utf16Length(password) < 6 ==> r == [PasswordTooShort]
  {
    (if emailOk then [] else [BadEmail]) + (if Text.Utf16Length(password) >= 6 then [] else [PasswordTooShort])
  }

  /** Any password that passes signup also passes login. */
  lemma SignupPasswordPassesLogin(emailOk: bool, username: string, password: string)
    requires SignupIssues(emailOk, username, password) == []
    ensures LoginIssues(emailOk, password) == []
  {
  }

  /** What the signup handler did. */
  datatype SignupOutcome = SignupOutcome(
    store: Store,
    remoteSignUp: bool,    // the remote sign-up was called
    toDashboard: bool,     // the page navigated to the dashboard
    error: Option<string>) // the message shown on failure

  /**
   * `handleSignup`. Invalid fields stop everything with the first message.
   * Offline, only the local `register` runs, and the page moves on to the
   * dashboard only when the new account needs no approval. Online, only the
   * remote sign-up runs and the local store is untouched. Either way an
   * empty error message is shown as "Registration failed".
   */
  function HandleSignup(
    st: Store, online: bool, emailOk: bool, username: string, password: string,
    hash: string -> string, freshId: string, now: int, remoteError: Option<string>): (r: SignupOutcome)
    ensures SignupIssues(emailOk, username, password) != [] ==>
      r == SignupOutcome(st, false, false, Some(SignupIssues(emailOk, username, password)[0]))
    ensures SignupIssues(emailOk, username, password) == [] && !online ==>
      var reg := Register(st, username, password, hash, freshId, now);
      && !r.remoteSignUp && r.store == reg.1
      && (r.toDashboard <==> reg.0 == Registered(false))
      && (r.error.Some? <==> reg.0.RegisterFailed?)
      && (reg.0.RegisterFailed? && reg.0.error != "" ==> r.error == Some(reg.0.error))
      && (reg.0 == RegisterFailed("") ==> r.error == Some(RegistrationFailed))
    ensures SignupIssues(emailOk, username, password) == [] && online ==>
      && r.remoteSignUp && r.store == st && !r.toDashboard
      && (r.error.Some? <==> remoteError.Some?)
      && (remoteError.Some? && remoteError.value != "" ==> r.error == remoteError)
      && (remoteError == Some("") ==> r.error == Some(RegistrationFailed))
  {
    var issues := SignupIssues(emailOk, username, password);
    if issues != [] then SignupOutcome(st, false, false, Some(issues[0]))
    else if !online then
      var (outcome, st') := Register(st, username, password, hash, freshId, now);
      match outcome
      case RegisterFailed(e) => SignupOutcome(st', false, false, Some(if e == "" then RegistrationFailed else e))
      case Registered(needsApproval) => SignupOutcome(st', false, !needsApproval, None)
    else
      match remoteError
      case None => SignupOutcome(st, true, false, None)
      case Some(e) => SignupOutcome(st, true, false, Some(if e == "" then RegistrationFailed else e))
  }

  /** Offline, the very first signup on an empty device lands on the dashboard as an admin. */
  lemma OfflineFirstSignupEntersDashboard(
    st: Store, username: string, password: string, hash: string -> string, freshId: string, now: int)
    requires st.users == [] && SignupIssues(true, username, password) == []
    ensures var r := HandleSignup(st, false, true, username, password, hash, freshId, now, None);
      r.toDashboard && r.error.None? && IsAdmin(r.store)
  {
    FirstUserIsAdmin(st, username, password, hash, freshId, now, Dashboard);
  }

  /** Offline, a later signup creates a pending account and stays on the page, leaving the session alone. */
  lemma OfflineLaterSignupWaits(
    st: Store, username: string, password: string, hash: string -> string, freshId: string, now: int)
    requires |st.users| > 0 && SignupIssues(true, username, password) == []
    requires forall j :: 0 <= j < |st.users| ==> !Text.EqualsIgnoreCase(st.users[j].username, username)
    ensures var r := HandleSignup(st, false, true, username, password, hash, freshId, now, None);
      !r.toDashboard && r.error.None? && r.store.current == st.current && |r.store.users| == |st.users| + 1
  {
  }
}

=== FILE: storage.dfy ===
/**
 * The local store (`src/lib/storage.ts`): the entity records, the offline
 * action queue, the medicine collection and the offline flag. The browser's
 * `localStorage` with its JSON encoding becomes one immutable `Store` value
 * holding every key; each operation returns the next store.
 */
module Storage {
  import opened Wrappers
  import opened Seqs
  import Text

  // ---------------------------------------------------------------------------
  // Records. Timestamps are integers, money is integer cents.

  datatype Medicine = Medicine(
    id: string,
    name: string,
    kind: string,          // the `type` field
    strength: string,
    quantity: int,
    costPrice: int,
    salePrice: int,
    expiry: string,
    reorderLevel: int,
    createdAt: int,
    updatedAt: int)

  /** A line of a sale; a refund line has the same shape. */
  datatype SaleItem = SaleItem(medicineId: string, medicineName: string, quantity: int, price: int, total: int)

  type RefundItem = SaleItem

  datatype Sale = Sale(
    id: string,
    items: seq<SaleItem>,
    subtotal: int,
    discount: int,
    tax: int,
    total: int,
    paymentMethod: string,
    customerName: Option<string>,
    isCredit: bool,
    createdAt: int)

  datatype Refund = Refund(id: string, saleId: string, items: seq<RefundItem>, total: int, reason: string, createdAt: int)

  /** Expenses carry no `updatedAt`. */
  datatype Expense = Expense(id: string, date: string, kind: string, amount: int, note: string, createdAt: int)

  datatype EntityType = SaleEntity | RefundEntity | MedicineEntity | ExpenseEntity

  datatype Operation = Create | Update | Delete

  /** The untyped `data` of a queued action: the record's id and its remaining fields. */
  datatype Payload = Payload(id: string, fields: map<string, string>)

  datatype QueuedAction = QueuedAction(id: string, entity: EntityType, op: Operation, data: Payload, timestamp: int)

  datatype Page = Dashboard | Medicines | Billing | Refunds | Expenses | Reports | AuditLogs | SettingsPage

  datatype Role = Admin | Manager | Cashier | Viewer | Pending

  datatype LocalUser = LocalUser(
    id: string,
    username: string,
    passwordHash: string,
    role: Role,
    approved: bool,
    approvedBy: Option<string>,
    approvedAt: Option<int>,
    createdAt: int,
    permissions: seq<Page>)

  /** The session record kept under the current-user key. */
  datatype SessionUser = SessionUser(id: string, username: string, role: Role)

  datatype AppSettings = AppSettings(
    businessName: string,
    businessAddress: string,
    businessPhone: string,
    businessEmail: string,
    taxNumber: string,
    defaultTaxRate: int,
    enableTax: bool,
    defaultDiscount: int,
    maxDiscount: int,
    lowStockThreshold: int,
    expiryWarningDays: int,
    enableStockAlerts: bool,
    currencySymbol: string,
    receiptHeader: string,
    receiptFooter: string,
    showLogo: bool)

  /** Every key the application keeps in local storage; a missing key reads as its default. */
  datatype Store = Store(
    medicines: seq<Medicine>,
    sales: seq<Sale>,
    refunds: seq<Refund>,
    expenses: seq<Expense>,
    queue: seq<QueuedAction>,
    offline: Option<bool>,
    users: seq<LocalUser>,
    current: Option<SessionUser>,
    settings: Option<AppSettings>)

  const EmptyStore := Store([], [], [], [], [], None, [], None, None)

  // ---------------------------------------------------------------------------
  // Action queue (`queueStorage`)

  /** `queueStorage.add`: appends; earlier entries keep their order. */
  function Enqueue(q: seq<QueuedAction>, a: QueuedAction): (r: seq<QueuedAction>)
    ensures |r| == |q| + 1 && r[..|q|] == q && r[|q|] == a
  {
    q + [a]
  }

  /** The entries whose id is not in `ids`, in queue order. */
  function Without(q: seq<QueuedAction>, ids: set<string>): (r: seq<QueuedAction>)
    ensures |r| <= |q|
    ensures forall i :: 0 <= i < |r| ==> r[i] in q && r[i].id !in ids
    ensures forall i :: 0 <= i < |q| && q[i].id !in ids ==> q[i] in r
    ensures (forall i :: 0 <= i < |q| ==> q[i].id !in ids) ==> r == q
    decreases |q|
  {
    if q == [] then []
    else
      assert q == [q[0]] + q[1..];
      (if q[0].id in ids then [] else [q[0]]) + Without(q[1..], ids)
  }

  lemma {:induction false} WithoutConcat(q1: seq<QueuedAction>, q2: seq<QueuedAction>, ids: set<string>)
    ensures Without(q1 + q2, ids) == Without(q1, ids) + Without(q2, ids)
    decreases |q1|
  {
    if q1 == [] {
      assert q1 + q2 == q2;
    } else {
      assert (q1 + q2)[1..] == q1[1..] + q2;
      WithoutConcat(q1[1..], q2, ids);
    }
  }

  /** Removing two id sets one after the other removes their union. */
  lemma {:induction false} WithoutWithout(q: seq<QueuedAction>, a: set<string>, b: set<string>)
    ensures Without(Without(q, a), b) == Without(q, a + b)
    decreases |q|
  {
    if q != [] {
      WithoutWithout(q[1..], a, b);
      var head := if q[0].id in a then [] else [q[0]];
      WithoutConcat(head, Without(q[1..], a), b);
    }
  }

  /** `queueStorage.remove`: drops every entry carrying the id, nothing else. */
  function Dequeue(q: seq<QueuedAction>, id: string): (r: seq<QueuedAction>)
    ensures forall i :: 0 <= i < |r| ==> r[i] in q && r[i].id != id
    ensures forall i :: 0 <= i < |q| && q[i].id != id ==> q[i] in r
    ensures (forall i :: 0 <= i < |q| ==> q[i].id != id) ==> r == q
  {
    Without(q, {id})
  }

  /** `queueStorage.clear`: the queue becomes empty and no other key changes. */
  function ClearQueue(st: Store): (r: Store)
    ensures |r.queue| == 0
    ensures r.(queue := st.queue) == st
  {
    st.(queue := [])
  }

  /** Removing an id twice is the same as removing it once. */
  lemma DequeueIdempotent(q: seq<QueuedAction>, id: string)
    ensures Dequeue(Dequeue(q, id), id) == Dequeue(q, id)
  {
    WithoutWithout(q, {id}, {id});
    assert {id} + {id} == {id};
  }

  /** Removal keeps the survivors in their original relative order. */
  lemma DequeueSplits(q1: seq<QueuedAction>, q2: seq<QueuedAction>, id: string)
    ensures Dequeue(q1 + q2, id) == Dequeue(q1, id) + Dequeue(q2, id)
  {
    WithoutConcat(q1, q2, {id});
  }

  /** Enqueuing an action and then removing its id leaves the older entries as `remove` alone would. */
  lemma DequeueEnqueued(q: seq<QueuedAction>, a: QueuedAction)
    ensures Dequeue(Enqueue(q, a), a.id) == Dequeue(q, a.id)
  {
    WithoutConcat(q, [a], {a.id});
  }

  // ---------------------------------------------------------------------------
  // Medicine collection (`medicineStorage`)

  /** The fields of `Partial<Medicine>` that callers pass to `update`. */
  datatype MedicinePatch = MedicinePatch(
    name: Option<string>,
    kind: Option<string>,
    strength: Option<string>,
    quantity: Option<int>,
    costPrice: Option<int>,
    salePrice: Option<int>,
    expiry: Option<string>,
    reorderLevel: Option<int>)

  const NoChange := MedicinePatch(None, None, None, None, None, None, None, None)

  /** `{ ...m, ...patch, updatedAt: now }` */
  function Patched(m: Medicine, p: MedicinePatch, now: int): Medicine {
    m.(name := p.name.GetOr(m.name),
       kind := p.kind.GetOr(m.kind),
       strength := p.strength.GetOr(m.strength),
       quantity := p.quantity.GetOr(m.quantity),
       costPrice := p.costPrice.GetOr(m.costPrice),
       salePrice := p.salePrice.GetOr(m.salePrice),
       expiry := p.expiry.GetOr(m.expiry),
       reorderLevel := p.reorderLevel.GetOr(m.reorderLevel),
       updatedAt := now)
  }

  /** Index `j` holds the first medicine whose id is `id` (what `findIndex` returns). */
  predicate IsFirstWithId(ms: seq<Medicine>, j: int, id: string) {
    0 <= j < |ms| && ms[j].id == id && forall k :: 0 <= k < j ==> ms[k].id != id
  }

  function MedicineIndex(ms: seq<Medicine>, id: string): (r: Option<nat>)
    ensures r.Some? ==> IsFirstWithId(ms, r.value, id)
    ensures r.None? ==> forall j :: 0 <= j < |ms| ==> ms[j].id != id
  {
    var r := IndexWhere(ms, (m: Medicine) => m.id == id);
    assert r.None? ==> forall j :: 0 <= j < |ms| ==> ms[j].id != id;
    r
  }

  /** `medicines.find(m => m.id === id)` */
  function FindMedicine(ms: seq<Medicine>, id: string): (r: Option<Medicine>)
    ensures r.Some? <==> exists j :: 0 <= j < |ms| && ms[j].id == id
    ensures r.Some? ==> exists j :: IsFirstWithId(ms, j, id) && ms[j] == r.value
  {
    match MedicineIndex(ms, id)
    case Some(i) => Some(ms[i])
    case None => None
  }

  /** `medicineStorage.add` */
  function AddMedicine(ms: seq<Medicine>, m: Medicine): seq<Medicine> {
    ms + [m]
  }

  /**
   * `medicineStorage.update`: only the first record with the id changes; it
   * takes the supplied fields, keeps its id and creation time, and its
   * `updatedAt` becomes `now`. An unknown id leaves the collection as it was.
   */
  function UpdateMedicine(ms: seq<Medicine>, id: string, p: MedicinePatch, now: int): (r: seq<Medicine>)
    ensures |r| == |ms|
    ensures (forall j :: 0 <= j < |ms| ==> ms[j].id != id) ==> r == ms
    ensures forall j :: 0 <= j < |ms| && !IsFirstWithId(ms, j, id) ==> r[j] == ms[j]
    ensures forall j :: IsFirstWithId(ms, j, id) ==>
      r[j] == Patched(ms[j], p, now) && r[j].id == id && r[j].createdAt == ms[j].createdAt && r[j].updatedAt == now
  {
    match MedicineIndex(ms, id)
    case Some(i) => ms[i := Patched(ms[i], p, now)]
    case None => ms
  }

  /** Deletion works record by record: the survivors of a split list keep their order, and a lone record goes iff it has the id. */
  lemma DeleteKeepsOrder(a: seq<Medicine>, b: seq<Medicine>, id: string)
    ensures DeleteMedicine(a + b, id) == DeleteMedicine(a, id) + DeleteMedicine(b, id)
    ensures forall m: Medicine :: DeleteMedicine([m], id) == if m.id == id then [] else [m]
  {
    FilterConcat(a, b, (m: Medicine) => m.id != id);
    forall m: Medicine
      ensures DeleteMedicine([m], id) == if m.id == id then [] else [m]
    {
      FilterSingle(m, (m: Medicine) => m.id != id);
    }
  }

  /** `medicineStorage.delete`: removes every record with the id and keeps the rest in order. */
  function DeleteMedicine(ms: seq<Medicine>, id: string): (r: seq<Medicine>)
    ensures forall i :: 0 <= i < |r| ==> r[i] in ms && r[i].id != id
    ensures forall i :: 0 <= i < |ms| && ms[i].id != id ==> ms[i] in r
    ensures (forall i :: 0 <= i < |ms| ==> ms[i].id != id) ==> r == ms
  {
    if forall i :: 0 <= i < |ms| ==> ms[i].id != id then
      FilterKeepsAll(ms, (m: Medicine) => m.id != id); Filter(ms, (m: Medicine) => m.id != id)
    else Filter(ms, (m: Medicine) => m.id != id)
  }

  /** Ids are unique: the store's invariant for records created with fresh UUIDs. */
  ghost predicate UniqueIds(ms: seq<Medicine>) {
    forall i, j :: 0 <= i < j < |ms| ==> ms[i].id != ms[j].id
  }

  /** No two medicines share a name, ignoring case. */
  ghost predicate DistinctNames(ms: seq<Medicine>) {
    forall i, j :: 0 <= i < j < |ms| ==> !Text.EqualsIgnoreCase(ms[i].name, ms[j].name)
  }

  /** Under unique ids, `update` changes exactly the record with that id. */
  lemma UpdateUnique(ms: seq<Medicine>, id: string, p: MedicinePatch, now: int, j: int)
    requires UniqueIds(ms) && 0 <= j < |ms|
    ensures UpdateMedicine(ms, id, p, now)[j] == if ms[j].id == id then Patched(ms[j], p, now) else ms[j]
  {
    if ms[j].id == id {
      assert IsFirstWithId(ms, j, id);
    }
  }

  /** Updating keeps ids unique. */
  lemma UpdateKeepsUnique(ms: seq<Medicine>, id: string, p: MedicinePatch, now: int)
    requires UniqueIds(ms)
    ensures UniqueIds(UpdateMedicine(ms, id, p, now))
  {
    var r := UpdateMedicine(ms, id, p, now);
    forall j | 0 <= j < |ms|
      ensures r[j].id == ms[j].id
    {
      UpdateUnique(ms, id, p, now, j);
    }
  }

  // ---------------------------------------------------------------------------
  // Stock movements

  /** Total quantity the sale or refund lines hold for medicine `id`. */
  function QtyFor(lines: seq<SaleItem>, id: string): int
    decreases |lines|
  {
    if lines == [] then 0 else (if lines[0].medicineId == id then lines[0].quantity else 0) + QtyFor(lines[1..], id)
  }

  /** Medicine `b` is `a` with only its quantity and update time possibly changed. */
  ghost predicate SameButStock(a: Medicine, b: Medicine) {
    b == a.(quantity := b.quantity, updatedAt := b.updatedAt)
  }

  // ---------------------------------------------------------------------------
  // Offline flag (`offlineStorage`)

  /** `offlineStorage.isOffline`: a missing flag reads as online. */
  /** `offlineStorage.isOffline`: the stored flag, with nothing stored reading as online. */
  function IsOffline(st: Store): (r: bool)
    ensures st.offline.None? ==> !r
    ensures st.offline.Some? ==> r == st.offline.value
  {
    st.offline.GetOr(false)
  }

  function SetOffline(st: Store, b: bool): (r: Store)
    ensures IsOffline(r) == b
    ensures r.(offline := st.offline) == st
  {
    st.(offline := Some(b))
  }
}

=== FILE: sync.dfy ===
/**
 * The sync service (`syncService` in `src/lib/sync.ts`): the configuration
 * gate, the row mappers between local records and remote table rows, the
 * replay of queued actions, and the order of a full sync. The remote service
 * is not modelled: each remote call becomes an outcome supplied by the
 * caller.
 */
module Sync {
  import opened Wrappers
  import opened Text
  import opened Storage
  import opened Merge

  // ---------------------------------------------------------------------------
  // Configuration gate (`isSupabaseConfigured`)

  const RemoteHost := "supabase.co"
  const PlaceholderMark := "placeholder"

  /**
   * Syncing is possible only with a stored session, a service URL naming the
   * hosted service and an API key that is not the placeholder. A missing
   * setting reads as the empty string.
   */
  function IsConfigured(current: Option<SessionUser>, url: string, apiKey: string): (r: bool)
    ensures r <==> current.Some?
                   && (exists i :: OccursAt(url, RemoteHost, i))
                   && !(exists i :: OccursAt(apiKey, PlaceholderMark, i))
  {
    ContainsIffOccurs(url, RemoteHost);
    ContainsIffOccurs(apiKey, PlaceholderMark);
    current.Some? && Contains(url, RemoteHost) && !Contains(apiKey, PlaceholderMark)
  }

  // ---------------------------------------------------------------------------
  // Row mappers

  /** A row of the remote `medicines` table; a nullable column is an Option. */
  datatype MedicineRow = MedicineRow(
    id: string,
    name: string,
    kind: string,
    strength: Option<string>,
    quantity: int,
    costPrice: int,
    salePrice: int,
    expiry: Option<string>,
    reorderLevel: int,
    createdAt: int,
    updatedAt: int,
    userId: string)

  /** A row of the remote `expenses` table. */
  datatype ExpenseRow = ExpenseRow(
    id: string,
    expenseDate: string,
    kind: string,
    amount: int,
    note: Option<string>,
    createdAt: int,
    userId: string,
    synced: bool)

  /** `value || null` for a text column. */
  function NullIfEmpty(s: string): (r: Option<string>)
    ensures r.GetOr("") == s
    ensures r != Some("")
  {
    if s == "" then None else Some(s)
  }

  /** `value || ''` when reading a nullable text column. */
  function OrEmpty(o: Option<string>): (s: string)
    ensures o != Some("") ==> NullIfEmpty(s) == o
  {
    o.GetOr("")
  }

  /** `mapMedicineFromSupabase` */
  function MedicineFromRow(row: MedicineRow): Medicine {
    Medicine(row.id, row.name, row.kind, OrEmpty(row.strength), row.quantity, row.costPrice,
             row.salePrice, OrEmpty(row.expiry), row.reorderLevel, row.createdAt, row.updatedAt)
  }

  /** `mapMedicineToSupabase`: reading the row back gives the record unchanged. */
  function MedicineToRow(m: Medicine, userId: string): (row: MedicineRow)
    ensures row.id == m.id && row.userId == userId
    ensures MedicineFromRow(row) == m
  {
    MedicineRow(m.id, m.name, m.kind, NullIfEmpty(m.strength), m.quantity, m.costPrice,
                m.salePrice, NullIfEmpty(m.expiry), m.reorderLevel, m.createdAt, m.updatedAt, userId)
  }

  /** A row whose text columns hold null rather than '' survives the trip through a local record. */
  lemma MedicineRowRoundTrip(row: MedicineRow)
    requires row.strength != Some("") && row.expiry != Some("")
    ensures MedicineToRow(MedicineFromRow(row), row.userId) == row
  {
  }

  /** `mapExpenseFromSupabase` */
  function ExpenseFromRow(row: ExpenseRow): Expense {
    Expense(row.id, row.expenseDate, row.kind, row.amount, OrEmpty(row.note), row.createdAt)
  }

  /** `mapExpenseToSupabase`: the row is marked synced, and reading it back gives the record unchanged. */
  function ExpenseToRow(e: Expense, userId: string): (row: ExpenseRow)
    ensures row.id == e.id && row.userId == userId && row.synced
    ensures ExpenseFromRow(row) == e
  {
    ExpenseRow(e.id, e.date, e.kind, e.amount, NullIfEmpty(e.note), e.createdAt, userId, true)
  }

  lemma ExpenseRowRoundTrip(row: ExpenseRow)
    requires row.synced && row.note != Some("")
    ensures ExpenseToRow(ExpenseFromRow(row), row.userId) == row
  {
  }

  function MedicineRows(ms: seq<Medicine>, userId: string): (rows: seq<MedicineRow>)
    ensures |rows| == |ms|
    ensures forall i :: 0 <= i < |ms| ==> rows[i] == MedicineToRow(ms[i], userId)
  {
    seq(|ms|, i requires 0 <= i < |ms| => MedicineToRow(ms[i], userId))
  }

  function ExpenseRows(es: seq<Expense>, userId: string): (rows: seq<ExpenseRow>)
    ensures |rows| == |es|
    ensures forall i :: 0 <= i < |es| ==> rows[i] == ExpenseToRow(es[i], userId)
  {
    seq(|es|, i requires 0 <= i < |es| => ExpenseToRow(es[i], userId))
  }

  // ---------------------------------------------------------------------------
  // Merging pulled records

  function MedicineId(m: Medicine): string { m.id }
  function MedicineStamp(m: Medicine): Option<int> { Some(m.updatedAt) }
  function ExpenseId(e: Expense): string { e.id }
  /** Expenses have no `updatedAt`. */
  function ExpenseStamp(e: Expense): Option<int> { None }

  function MergeMedicines(local: seq<Medicine>, remote: seq<Medicine>): (r: seq<Medicine>)
    ensures UniqueIds(r)
    ensures forall k :: HasKey(r, k, MedicineId) <==> HasKey(local, k, MedicineId) || HasKey(remote, k, MedicineId)
  {
    MergeData(local, remote, MedicineId, MedicineStamp)
  }

  function MergeExpenses(local: seq<Expense>, remote: seq<Expense>): (r: seq<Expense>)
    ensures UniqueKeys(r, ExpenseId)
    ensures forall k :: HasKey(r, k, ExpenseId) <==> HasKey(local, k, ExpenseId) || HasKey(remote, k, ExpenseId)
  {
    MergeData(local, remote, ExpenseId, ExpenseStamp)
  }

  /** On a shared id the local medicine wins exactly when its `updatedAt` is strictly later. */
  lemma MedicineConflict(local: seq<Medicine>, remote: seq<Medicine>, i: nat, j: nat)
    requires UniqueIds(local) && UniqueIds(remote)
    requires i < |remote| && j < |local| && local[j].id == remote[i].id
    ensures var r := MergeMedicines(local, remote);
      i < |r| && r[i] == if local[j].updatedAt > remote[i].updatedAt then local[j] else remote[i]
  {
    assert UniqueKeys(local, MedicineId) && UniqueKeys(remote, MedicineId);
    MergeShape(local, remote, MedicineId, MedicineStamp);
  }

  /** For expenses the remote copy of a shared id always wins; local-only expenses follow. */
  lemma ExpensesRemoteWins(local: seq<Expense>, remote: seq<Expense>)
    requires UniqueKeys(local, ExpenseId) && UniqueKeys(remote, ExpenseId)
    ensures MergeExpenses(local, remote) == remote + LocalOnly(local, remote, ExpenseId)
  {
    NoStampRemoteWins(local, remote, ExpenseId, ExpenseStamp);
  }

  // ---------------------------------------------------------------------------
  // Replaying queued actions (`processQueuedAction`, `processQueue`)

  /** The remote table an entity type is written to. */
  function TableFor(e: EntityType): (t: string)
    ensures e == MedicineEntity <==> t == "medicines"
    ensures e == SaleEntity <==> t == "sales"
    ensures e == RefundEntity <==> t == "refunds"
    ensures e == ExpenseEntity <==> t == "expenses"
  {
    match e
    case MedicineEntity => "medicines"
    case SaleEntity => "sales"
    case RefundEntity => "refunds"
    case ExpenseEntity => "expenses"
  }

  datatype RemoteCall =
    | Insert(table: string, data: Payload)
    | UpdateById(table: string, data: Payload, id: string)
    | DeleteById(table: string, id: string)

  /** The single remote call that replays a queued action. */
  function ReplayCall(a: QueuedAction): (c: RemoteCall)
    ensures c.table == TableFor(a.entity)
    ensures a.op == Create <==> c == Insert(c.table, a.data)
    ensures a.op == Update <==> c == UpdateById(c.table, a.data, a.data.id)
    ensures a.op == Delete <==> c == DeleteById(c.table, a.data.id)
  {
    var table := TableFor(a.entity);
    match a.op
    case Create => Insert(table, a.data)
    case Update => UpdateById(table, a.data, a.data.id)
    case Delete => DeleteById(table, a.data.id)
  }

  /**
   * Whether a replayed call throws. A call that returns an error object
   * without throwing counts as completed, since the code does not inspect it.
   */
  datatype Replay = Completed | Threw

  /**
   * The loop of `processQueue`: it walks the snapshot `pending` taken at the
   * start and removes an action's id from the live queue `q` when its replay
   * did not throw. It also returns the calls issued.
   */
  function Drain(q: seq<QueuedAction>, pending: seq<QueuedAction>, replay: RemoteCall -> Replay)
    : (r: (seq<QueuedAction>, seq<RemoteCall>))
    ensures |r.1| == |pending|
    ensures forall i :: 0 <= i < |pending| ==> r.1[i] == ReplayCall(pending[i])
    ensures |r.0| <= |q|
    decreases |pending|
  {
    if pending == [] then (q, [])
    else
      var call := ReplayCall(pending[0]);
      var next := if replay(call) == Completed then Dequeue(q, pending[0].id) else q;
      var rest := Drain(next, pending[1..], replay);
      (rest.0, [call] + rest.1)
  }

  /** The ids of the actions in `pending` whose replay completed. */
  ghost function CompletedIds(pending: seq<QueuedAction>, replay: RemoteCall -> Replay): set<string>
    decreases |pending|
  {
    if pending == [] then {}
    else (if replay(ReplayCall(pending[0])) == Completed then {pending[0].id} else {}) + CompletedIds(pending[1..], replay)
  }

  lemma {:induction false} DrainRemovesCompleted(q: seq<QueuedAction>, pending: seq<QueuedAction>, replay: RemoteCall -> Replay)
    ensures Drain(q, pending, replay).0 == Without(q, CompletedIds(pending, replay))
    decreases |pending|
  {
    if pending != [] {
      var a := pending[0];
      var rest := CompletedIds(pending[1..], replay);
      if replay(ReplayCall(a)) == Completed {
        DrainRemovesCompleted(Dequeue(q, a.id), pending[1..], replay);
        WithoutWithout(q, {a.id}, rest);
      } else {
        DrainRemovesCompleted(q, pending[1..], replay);
        assert CompletedIds(pending, replay) == rest;
      }
    }
  }

  /**
   * `processQueue`: nothing happens when the gate is closed. Otherwise every
   * queued action is replayed once, in queue order, without stopping at a
   * failure, and the queue loses exactly the ids whose replay completed.
   */
  function ProcessQueue(configured: bool, q: seq<QueuedAction>, replay: RemoteCall -> Replay)
    : (r: (seq<QueuedAction>, seq<RemoteCall>))
    ensures !configured ==> r.0 == q && r.1 == []
    ensures configured ==> r.0 == Without(q, CompletedIds(q, replay))
    ensures configured ==> |r.1| == |q| && forall i :: 0 <= i < |q| ==> r.1[i] == ReplayCall(q[i])
  {
    if !configured then (q, [])
    else
      DrainRemovesCompleted(q, q, replay);
      Drain(q, q, replay)
  }

  /** Queue entries carry distinct ids. */
  ghost predicate DistinctActionIds(q: seq<QueuedAction>) {
    forall i, j :: 0 <= i < j < |q| ==> q[i].id != q[j].id
  }

  /** The actions whose replay threw, in queue order. */
  ghost function ThrewOnly(q: seq<QueuedAction>, replay: RemoteCall -> Replay): seq<QueuedAction>
    decreases |q|
  {
    if q == [] then []
    else (if replay(ReplayCall(q[0])) == Threw then [q[0]] else []) + ThrewOnly(q[1..], replay)
  }

  lemma {:induction false} WithoutAgrees(q: seq<QueuedAction>, a: set<string>, b: set<string>)
    requires forall i :: 0 <= i < |q| ==> (q[i].id in a <==> q[i].id in b)
    ensures Without(q, a) == Without(q, b)
    decreases |q|
  {
    if q != [] {
      WithoutAgrees(q[1..], a, b);
    }
  }

  lemma {:induction false} CompletedIdsMember(q: seq<QueuedAction>, replay: RemoteCall -> Replay, id: string)
    ensures id in CompletedIds(q, replay) <==> exists i :: 0 <= i < |q| && q[i].id == id && replay(ReplayCall(q[i])) == Completed
    decreases |q|
  {
    if q != [] {
      CompletedIdsMember(q[1..], replay, id);
      if id in CompletedIds(q[1..], replay) {
        var i :| 0 <= i < |q[1..]| && q[1..][i].id == id && replay(ReplayCall(q[1..][i])) == Completed;
        assert q[i + 1] == q[1..][i];
      }
      if exists i :: 0 <= i < |q| && q[i].id == id && replay(ReplayCall(q[i])) == Completed {
        var i :| 0 <= i < |q| && q[i].id == id && replay(ReplayCall(q[i])) == Completed;
        if i > 0 {
          assert q[1..][i - 1] == q[i];
        }
      }
    }
  }

  /** With distinct ids, a drain keeps exactly the actions whose replay threw, in their original order. */
  lemma {:induction false} DrainKeepsFailed(q: seq<QueuedAction>, replay: RemoteCall -> Replay)
    requires DistinctActionIds(q)
    ensures ProcessQueue(true, q, replay).0 == ThrewOnly(q, replay)
    decreases |q|
  {
    KeepsFailed(q, replay);
  }

  lemma {:induction false} KeepsFailed(q: seq<QueuedAction>, replay: RemoteCall -> Replay)
    requires DistinctActionIds(q)
    ensures Without(q, CompletedIds(q, replay)) == ThrewOnly(q, replay)
    decreases |q|
  {
    if q != [] {
      var tail := q[1..];
      assert DistinctActionIds(tail);
      KeepsFailed(tail, replay);
      var all, rest := CompletedIds(q, replay), CompletedIds(tail, replay);
      forall i | 0 <= i < |tail|
        ensures tail[i].id in all <==> tail[i].id in rest
      {
        assert tail[i] == q[i + 1];
        assert tail[i].id != q[0].id;
      }
      WithoutAgrees(tail, all, rest);
      CompletedIdsMember(q, replay, q[0].id);
      if replay(ReplayCall(q[0])) == Threw {
        forall i | 0 <= i < |q| && q[i].id == q[0].id
          ensures replay(ReplayCall(q[i])) == Threw
        {
          assert i == 0;
        }
      }
    }
  }

  /** Three queued actions whose middle replay throws: only the middle one stays, and all three are replayed. */
  lemma MiddleFailureStays(a: QueuedAction, b: QueuedAction, c: QueuedAction, replay: RemoteCall -> Replay)
    requires a.id != b.id && b.id != c.id && a.id != c.id
    requires replay(ReplayCall(a)) == Completed && replay(ReplayCall(b)) == Threw && replay(ReplayCall(c)) == Completed
    ensures ProcessQueue(true, [a, b, c], replay).0 == [b]
    ensures ProcessQueue(true, [a, b, c], replay).1 == [ReplayCall(a), ReplayCall(b), ReplayCall(c)]
  {
    var q := [a, b, c];
    assert DistinctActionIds(q) by {
      forall i, j | 0 <= i < j < 3
        ensures q[i].id != q[j].id
      {
      }
    }
    DrainKeepsFailed(q, replay);
    assert q[1..] == [b, c];
    assert [b, c][1..] == [c];
    assert [c][1..] == [];
    assert ThrewOnly([c], replay) == [];
    assert ThrewOnly([b, c], replay) == [b];
    assert ThrewOnly(q, replay) == [b];
  }

  // ---------------------------------------------------------------------------
  // Full sync (`fullSync`)

  /** What the remote session lookup of `getUserId` returned. */
  datatype UserLookup = RemoteUser(id: string) | NoRemoteUser | LookupThrew

  /** The result of pulling one table: rows, no data (the query reported an error), or an exception. */
  datatype Pull<T> = Rows(rows: seq<T>) | NoData | PullThrew

  /** Whether an upsert succeeded; an error result and an exception both abort the sync. */
  datatype Push = Pushed | PushFailed

  /** The remote service's answers during one full sync. */
  datatype Remote = Remote(
    user: UserLookup,
    medicines: Pull<MedicineRow>,
    expenses: Pull<ExpenseRow>,
    medicinePush: seq<MedicineRow> -> Push,
    expensePush: seq<ExpenseRow> -> Push,
    replay: RemoteCall -> Replay)

  /** `getUserId`: the remote user's id, else the stored session's id; '' counts as missing. */
  function UserIdOf(user: UserLookup, current: Option<SessionUser>): (r: Option<string>)
    requires !user.LookupThrew?
    ensures r.Some? ==> r.value != ""
    ensures user.RemoteUser? && user.id != "" ==> r == Some(user.id)
    ensures r.None? <==> (user.RemoteUser? && user.id == "") || (user.NoRemoteUser? && (current.None? || current.value.id == ""))
  {
    var id := if user.RemoteUser? then user.id else if current.Some? then current.value.id else "";
    if id == "" then None else Some(id)
  }

  datatype SyncStatus = Skipped | Synced | SyncFailed

  /** The store after a full sync, how it ended, and what was sent to the remote service. */
  datatype SyncRun = SyncRun(
    store: Store,
    status: SyncStatus,
    pushedMedicines: Option<seq<MedicineRow>>,
    pushedExpenses: Option<seq<ExpenseRow>>,
    calls: seq<RemoteCall>)

  function MedicinesFromRows(rows: seq<MedicineRow>): (ms: seq<Medicine>)
    ensures |ms| == |rows| && forall i :: 0 <= i < |rows| ==> ms[i] == MedicineFromRow(rows[i])
  {
    seq(|rows|, i requires 0 <= i < |rows| => MedicineFromRow(rows[i]))
  }

  function ExpensesFromRows(rows: seq<ExpenseRow>): (es: seq<Expense>)
    ensures |es| == |rows| && forall i :: 0 <= i < |rows| ==> es[i] == ExpenseFromRow(rows[i])
  {
    seq(|rows|, i requires 0 <= i < |rows| => ExpenseFromRow(rows[i]))
  }

  /** Each table that returned data (even an empty list) is merged into its local collection and saved. */
  function Persist(st: Store, medicines: Pull<MedicineRow>, expenses: Pull<ExpenseRow>): (r: Store)
    ensures r.(medicines := st.medicines, expenses := st.expenses) == st
    ensures !medicines.Rows? ==> r.medicines == st.medicines
    ensures !expenses.Rows? ==> r.expenses == st.expenses
    ensures forall k :: HasKey(st.medicines, k, MedicineId) ==> HasKey(r.medicines, k, MedicineId)
    ensures forall k :: HasKey(st.expenses, k, ExpenseId) ==> HasKey(r.expenses, k, ExpenseId)
  {
    st.(medicines := if medicines.Rows? then MergeMedicines(st.medicines, MedicinesFromRows(medicines.rows)) else st.medicines,
        expenses := if expenses.Rows? then MergeExpenses(st.expenses, ExpensesFromRows(expenses.rows)) else st.expenses)
  }

  /** The gate is open, the user lookup did not throw, and it produced a user id. */
  predicate UserKnown(st: Store, url: string, apiKey: string, remote: Remote) {
    IsConfigured(st.current, url, apiKey) && !remote.user.LookupThrew? && UserIdOf(remote.user, st.current).Some?
  }

  /** A known user and both pulls answered without throwing: the point at which the merge is saved. */
  predicate Pulled(st: Store, url: string, apiKey: string, remote: Remote) {
    UserKnown(st, url, apiKey, remote) && !remote.medicines.PullThrew? && !remote.expenses.PullThrew?
  }

  /** The rows pushed for each table: the saved collection, tagged with the user id. */
  function SavedMedicineRows(st: Store, url: string, apiKey: string, remote: Remote): seq<MedicineRow>
    requires UserKnown(st, url, apiKey, remote)
  {
    MedicineRows(Persist(st, remote.medicines, remote.expenses).medicines, UserIdOf(remote.user, st.current).value)
  }

  function SavedExpenseRows(st: Store, url: string, apiKey: string, remote: Remote): seq<ExpenseRow>
    requires UserKnown(st, url, apiKey, remote)
  {
    ExpenseRows(Persist(st, remote.medicines, remote.expenses).expenses, UserIdOf(remote.user, st.current).value)
  }

  /**
   * `fullSync`. With the gate open and a user id known it pulls both tables,
   * merges and saves them, pushes the saved medicines and then the saved
   * expenses, drains the queue and marks the application online. Any failure
   * on the way marks it offline and stops. A closed gate or a missing user id
   * returns at once and leaves the store, offline flag included, untouched.
   */
  function FullSync(st: Store, url: string, apiKey: string, remote: Remote): (r: SyncRun)
    // A skipped run touches nothing and sends nothing.
    ensures !IsConfigured(st.current, url, apiKey) ==> r.status == Skipped
    ensures r.status == Skipped ==> r.store == st && r.pushedMedicines.None? && r.calls == []
    // A thrown lookup fails the run and marks the application offline; a lookup without a user id skips it.
    ensures IsConfigured(st.current, url, apiKey) && remote.user.LookupThrew? ==>
      r.status == SyncFailed && r.store == SetOffline(st, true)
    ensures IsConfigured(st.current, url, apiKey) && !remote.user.LookupThrew? && UserIdOf(remote.user, st.current).None? ==>
      r.status == Skipped
    // A thrown pull fails the run before anything is saved.
    ensures UserKnown(st, url, apiKey, remote) && (remote.medicines.PullThrew? || remote.expenses.PullThrew?) ==>
      r.status == SyncFailed && r.store == SetOffline(st, true) && r.pushedMedicines.None?
    // Otherwise the saved medicines are pushed; the run succeeds iff both pushes do, and a failed push keeps the merge.
    ensures Pulled(st, url, apiKey, remote) ==> r.pushedMedicines == Some(SavedMedicineRows(st, url, apiKey, remote))
    ensures Pulled(st, url, apiKey, remote) ==>
      (r.status == Synced <==>
         remote.medicinePush(SavedMedicineRows(st, url, apiKey, remote)) == Pushed
         && remote.expensePush(SavedExpenseRows(st, url, apiKey, remote)) == Pushed)
    ensures Pulled(st, url, apiKey, remote) && r.status != Synced ==>
      r.status == SyncFailed && r.store == SetOffline(Persist(st, remote.medicines, remote.expenses), true)
    // Only the two merged collections, the queue and the offline flag can change.
    ensures r.store.(medicines := st.medicines, expenses := st.expenses, queue := st.queue, offline := st.offline) == st
    // The outcome is recorded in the offline flag.
    ensures r.status == Synced ==> !IsOffline(r.store)
    ensures r.status == SyncFailed ==> IsOffline(r.store)
    // Merged data is saved before anything is pushed, and what is pushed is what was saved.
    ensures r.pushedMedicines.Some? ==>
      && Pulled(st, url, apiKey, remote)
      && r.pushedMedicines.value == MedicineRows(r.store.medicines, UserIdOf(remote.user, st.current).value)
    ensures r.pushedExpenses.Some? ==>
      && Pulled(st, url, apiKey, remote)
      && r.pushedExpenses.value == ExpenseRows(r.store.expenses, UserIdOf(remote.user, st.current).value)
    // Medicines are pushed before expenses, and the queue is drained only after both pushes succeeded.
    ensures r.pushedExpenses.Some? ==> r.pushedMedicines.Some? && remote.medicinePush(r.pushedMedicines.value) == Pushed
    ensures r.status == Synced ==> r.pushedExpenses.Some? && remote.expensePush(r.pushedExpenses.value) == Pushed
    ensures r.status != Synced ==> r.store.queue == st.queue && r.calls == []
    // A successful run replays every queued action in order and keeps the ones whose replay threw.
    ensures r.status == Synced ==>
      && r.store.queue == Without(st.queue, CompletedIds(st.queue, remote.replay))
      && |r.calls| == |st.queue|
      && forall i :: 0 <= i < |st.queue| ==> r.calls[i] == ReplayCall(st.queue[i])
    // Pulled records are merged in without losing a local record.
    ensures r.status == Synced ==> r.store == Persist(st, remote.medicines, remote.expenses).(queue := r.store.queue, offline := Some(false))
  {
    if !IsConfigured(st.current, url, apiKey) then SyncRun(st, Skipped, None, None, [])
    else if remote.user.LookupThrew? then SyncRun(SetOffline(st, true), SyncFailed, None, None, [])
    else match UserIdOf(remote.user, st.current)
      case None => SyncRun(st, Skipped, None, None, [])
      case Some(uid) =>
        if remote.medicines.PullThrew? || remote.expenses.PullThrew? then
          SyncRun(SetOffline(st, true), SyncFailed, None, None, [])
        else
          var saved := Persist(st, remote.medicines, remote.expenses);
          var medicineRows := MedicineRows(saved.medicines, uid);
          match remote.medicinePush(medicineRows)
          case PushFailed => SyncRun(SetOffline(saved, true), SyncFailed, Some(medicineRows), None, [])
          case Pushed =>
            var expenseRows := ExpenseRows(saved.expenses, uid);
            match remote.expensePush(expenseRows)
            case PushFailed => SyncRun(SetOffline(saved, true), SyncFailed, Some(medicineRows), Some(expenseRows), [])
            case Pushed =>
              var drained := ProcessQueue(true, saved.queue, remote.replay);
              SyncRun(SetOffline(saved.(queue := drained.0), false), Synced, Some(medicineRows), Some(expenseRows), drained.1)
  }

  /** When the push fails, the merged collections stay saved and the application is marked offline. */
  lemma FailedPushKeepsMerge(st: Store, url: string, apiKey: string, remote: Remote)
    requires IsConfigured(st.current, url, apiKey)
    requires !remote.user.LookupThrew? && UserIdOf(remote.user, st.current).Some?
    requires !remote.medicines.PullThrew? && !remote.expenses.PullThrew?
    requires remote.medicinePush(MedicineRows(Persist(st, remote.medicines, remote.expenses).medicines,
                                              UserIdOf(remote.user, st.current).value)) == PushFailed
    ensures FullSync(st, url, apiKey, remote).status == SyncFailed
    ensures FullSync(st, url, apiKey, remote).store == SetOffline(Persist(st, remote.medicines, remote.expenses), true)
  {
  }
}

=== FILE: text.dfy ===
/**
 * The string primitives the application relies on: JavaScript's
 * `toLowerCase`, `includes`, `trim`, `split`, `join`, number printing and
 * `parseInt`, plus the RFC 4180 quote doubling used by the CSV exporters.
 */
module Text {
  import opened Wrappers

  // ---------------------------------------------------------------------------
  // String length

  /**
   * `s.length`: JavaScript counts UTF-16 code units, so a character beyond
   * U+FFFF (an emoji, say) counts twice.
   */
  function Utf16Length(s: string): (n: nat)
    ensures |s| <= n <= 2 * |s|
    ensures n == |s| <==> forall i :: 0 <= i < |s| ==> s[i] <= '\U{FFFF}'
  {
    if s == [] then 0
    else
      assert forall i :: 1 <= i < |s| ==> s[1..][i - 1] == s[i];
      (if s[0] <= '\U{FFFF}' then 1 else 2) + Utf16Length(s[1..])
  }

  /** Three emoji are three characters but six code units. */
  lemma EmojiCountTwice()
    ensures |"\U{1F600}\U{1F600}\U{1F600}"| == 3
    ensures Utf16Length("\U{1F600}\U{1F600}\U{1F600}") == 6
  {
    var s := "\U{1F600}\U{1F600}\U{1F600}";
    assert s[1..][1..][1..] == [];
  }

  // Case folding

  /** Lower-cases an ASCII letter; every other character is left alone. */
  function LowerChar(c: char): char {
    if 'A' <= c <= 'Z' then (c as int - 'A' as int + 'a' as int) as char else c
  }

  /** `s.toLowerCase()`, restricted to ASCII letters. */
  function Lower(s: string): (r: string)
    ensures |r| == |s|
    ensures forall i :: 0 <= i < |s| ==> r[i] == LowerChar(s[i])
  {
    seq(|s|, i requires 0 <= i < |s| => LowerChar(s[i]))
  }

  /** `a.toLowerCase() === b.toLowerCase()` */
  predicate EqualsIgnoreCase(a: string, b: string) {
    Lower(a) == Lower(b)
  }

  // ---------------------------------------------------------------------------
  // Substrings

  /** `t` occurs in `s` starting at index `i`. */
  ghost predicate OccursAt(s: string, t: string, i: int) {
    0 <= i && i + |t| <= |s| && s[i..i + |t|] == t
  }

  /** `s.includes(t)`: the empty string is contained in every string. */
  predicate Contains(s: string, t: string)
    decreases |s|
  {
    |t| <= |s| && (s[..|t|] == t || (|s| > |t| && Contains(s[1..], t)))
  }

  /** `s.toLowerCase().includes(t.toLowerCase())` */
  predicate ContainsIgnoreCase(s: string, t: string) {
    Contains(Lower(s), Lower(t))
  }

  lemma {:induction false} OccursImpliesContains(s: string, t: string, i: int)
    requires OccursAt(s, t, i)
    ensures Contains(s, t)
    decreases i
  {
    if i > 0 {
      assert s[1..][i - 1..i - 1 + |t|] == s[i..i + |t|];
      OccursImpliesContains(s[1..], t, i - 1);
    } else {
      assert s[..|t|] == s[0..0 + |t|];
    }
  }

  lemma {:induction false} ContainsImpliesOccurs(s: string, t: string) returns (i: int)
    requires Contains(s, t)
    ensures OccursAt(s, t, i)
    decreases |s|
  {
    if s[..|t|] == t {
      i := 0;
      assert s[0..0 + |t|] == s[..|t|];
    } else {
      var j := ContainsImpliesOccurs(s[1..], t);
      i := j + 1;
      assert s[1..][j..j + |t|] == s[i..i + |t|];
    }
  }

  /** `includes` is exactly "occurs at some position". */
  lemma ContainsIffOccurs(s: string, t: string)
    ensures Contains(s, t) <==> exists i :: OccursAt(s, t, i)
  {
    if Contains(s, t) {
      var i := ContainsImpliesOccurs(s, t);
    }
    if exists i :: OccursAt(s, t, i) {
      var i :| OccursAt(s, t, i);
      OccursImpliesContains(s, t, i);
    }
  }

  /** Every string contains the empty string, so an empty search term matches everything. */
  lemma EmptyTermMatches(s: string)
    ensures ContainsIgnoreCase(s, "")
  {
    assert Lower("") == "";
  }

  // ---------------------------------------------------------------------------
  // Trimming

  /** The characters `String.prototype.trim` removes: white space and line terminators. */
  predicate IsSpace(c: char) {
    || c == ' ' || c == '\t' || c == '\n' || c == '\r'
    || c == '\U{000B}' || c == '\U{000C}' || c == '\U{00A0}' || c == '\U{1680}'
    || ('\U{2000}' <= c <= '\U{200A}')
    || c == '\U{2028}' || c == '\U{2029}' || c == '\U{202F}' || c == '\U{205F}'
    || c == '\U{3000}' || c == '\U{FEFF}'
  }

  ghost predicate AllSpace(s: string) {
    forall k :: 0 <= k < |s| ==> IsSpace(s[k])
  }

  function TrimStart(s: string): (r: string)
    ensures |r| <= |s| && r == s[|s| - |r|..]
    ensures AllSpace(s[..|s| - |r|])
    ensures |r| > 0 ==> !IsSpace(r[0])
    decreases |s|
  {
    if |s| > 0 && IsSpace(s[0]) then TrimStart(s[1..]) else s
  }

  function TrimEnd(s: string): (r: string)
    ensures |r| <= |s| && r == s[..|r|]
    ensures AllSpace(s[|r|..])
    ensures |r| > 0 ==> !IsSpace(r[|r| - 1])
    decreases |s|
  {
    if |s| > 0 && IsSpace(s[|s| - 1]) then TrimEnd(s[..|s| - 1]) else s
  }

  /** `s.trim()`: the result is empty exactly when `s` is all white space. */
  function Trim(s: string): (r: string)
    ensures |r| <= |s|
    ensures r == [] <==> AllSpace(s)
    ensures |r| > 0 ==> !IsSpace(r[0]) && !IsSpace(r[|r| - 1])
  {
    var a := TrimStart(s);
    var b := TrimEnd(a);
    TrimParts(s, a, b);
    b
  }

  lemma TrimParts(s: string, a: string, b: string)
    requires |a| <= |s| && a == s[|s| - |a|..] && AllSpace(s[..|s| - |a|])
    requires |a| > 0 ==> !IsSpace(a[0])
    requires |b| <= |a| && b == a[..|b|] && AllSpace(a[|b|..])
    ensures b == [] <==> AllSpace(s)
    ensures |b| > 0 ==> b[0] == a[0]
  {
    var n := |s| - |a|;
    if b == [] {
      assert a[|b|..] == a;
      assert |a| == 0;
      forall k | 0 <= k < |s|
        ensures IsSpace(s[k])
      {
        assert s[k] == s[..n][k];
      }
    }
    if a != [] {
      assert s[n] == a[0];
    }
  }

  /** A string without surrounding white space is its own trim; hence trim is idempotent. */
  lemma TrimOfTrimmed(s: string)
    requires |s| > 0 ==> !IsSpace(s[0]) && !IsSpace(s[|s| - 1])
    ensures Trim(s) == s
  {
  }

  lemma TrimIdempotent(s: string)
    ensures Trim(Trim(s)) == Trim(s)
  {
    TrimOfTrimmed(Trim(s));
  }

  // ---------------------------------------------------------------------------
  // Split and join

  /** `parts.join(sep)` */
  function Join(parts: seq<string>, sep: string): string {
    if |parts| == 0 then ""
    else if |parts| == 1 then parts[0]
    else parts[0] + sep + Join(parts[1..], sep)
  }

  /** `s.split(sep)` for a one-character separator. */
  function Split(s: string, sep: char): (parts: seq<string>)
    ensures |parts| >= 1
    ensures forall i :: 0 <= i < |parts| ==> sep !in parts[i]
    ensures Join(parts, [sep]) == s
    decreases |s|
  {
    if s == [] then [""]
    else
      var rest := Split(s[1..], sep);
      if s[0] == sep then
        assert ([""] + rest)[1..] == rest;
        [""] + rest
      else
        var parts := [[s[0]] + rest[0]] + rest[1..];
        assert parts[1..] == rest[1..];
        assert s == [s[0]] + s[1..];
        parts
  }

  /** A character found in no piece and not in the separator is not in the joined text. */
  lemma {:induction false} JoinAvoids(parts: seq<string>, sep: string, c: char)
    requires c !in sep && forall i :: 0 <= i < |parts| ==> c !in parts[i]
    ensures c !in Join(parts, sep)
    decreases |parts|
  {
    if |parts| > 1 {
      JoinAvoids(parts[1..], sep, c);
    }
  }

  /** Joining pieces that do not contain the separator and splitting again gives the pieces back. */
  lemma {:induction false} SplitJoin(parts: seq<string>, sep: char)
    requires |parts| >= 1
    requires forall i :: 0 <= i < |parts| ==> sep !in parts[i]
    ensures Split(Join(parts, [sep]), sep) == parts
    decreases |parts|, |parts[0]|
  {
    var s := Join(parts, [sep]);
    if |parts| == 1 {
      SplitNoSep(parts[0], sep);
    } else if parts[0] == [] {
      assert s == [sep] + Join(parts[1..], [sep]);
      assert s[1..] == Join(parts[1..], [sep]);
      SplitJoin(parts[1..], sep);
      assert [""] + parts[1..] == parts;
    } else {
      var p := [parts[0][1..]] + parts[1..];
      assert p[1..] == parts[1..];
      assert Join(p, [sep]) == parts[0][1..] + [sep] + Join(parts[1..], [sep]);
      assert s == [parts[0][0]] + Join(p, [sep]);
      assert s[1..] == Join(p, [sep]);
      assert sep !in p[0] by {
        assert forall c :: c in parts[0][1..] ==> c in parts[0];
      }
      SplitJoin(p, sep);
      assert [parts[0][0]] + parts[0][1..] == parts[0];
      assert s[0] == parts[0][0];
      assert [[parts[0][0]] + p[0]] + p[1..] == parts;
    }
  }

  lemma {:induction false} SplitNoSep(s: string, sep: char)
    requires sep !in s
    ensures Split(s, sep) == [s]
    decreases |s|
  {
    if s != [] {
      assert sep !in s[1..] by {
        assert forall c :: c in s[1..] ==> c in s;
      }
      SplitNoSep(s[1..], sep);
      assert [s[0]] + s[1..] == s;
    }
  }

  // ---------------------------------------------------------------------------
  // RFC 4180 quote doubling

  /** `s.replace(/"/g, '""')` */
  function EscapeQuotes(s: string): (e: string)
    ensures |e| >= |s|
  {
    if s == [] then []
    else (if s[0] == '"' then "\"\"" else [s[0]]) + EscapeQuotes(s[1..])
  }

  /** Reads back an escaped field body; a lone double quote is malformed. */
  function UnescapeQuotes(e: string): Option<string>
    decreases |e|
  {
    if e == [] then Some([])
    else if e[0] == '"' then
      if |e| >= 2 && e[1] == '"' then
        match UnescapeQuotes(e[2..])
        case Some(s) => Some("\"" + s)
        case None => None
      else None
    else
      match UnescapeQuotes(e[1..])
      case Some(s) => Some([e[0]] + s)
      case None => None
  }

  /** A field enclosed in double quotes, as section 2 rule 7 of RFC 4180 requires. */
  function QuoteField(s: string): string {
    "\"" + EscapeQuotes(s) + "\""
  }

  /** Reads an enclosed field back; fails unless the field is enclosed and well escaped. */
  function ParseQuotedField(f: string): Option<string> {
    if |f| >= 2 && f[0] == '"' && f[|f| - 1] == '"' then UnescapeQuotes(f[1..|f| - 1]) else None
  }

  lemma {:induction false} UnescapeEscape(s: string)
    ensures UnescapeQuotes(EscapeQuotes(s)) == Some(s)
    decreases |s|
  {
    if s != [] {
      var e := EscapeQuotes(s);
      UnescapeEscape(s[1..]);
      if s[0] == '"' {
        assert e[2..] == EscapeQuotes(s[1..]);
        assert "\"" + s[1..] == s;
      } else {
        assert e[1..] == EscapeQuotes(s[1..]);
        assert [s[0]] + s[1..] == s;
      }
    }
  }

  /** Escaping is canonical: every well-formed body is the escape of what it reads as. */
  lemma {:induction false} EscapeUnescape(e: string)
    requires UnescapeQuotes(e).Some?
    ensures EscapeQuotes(UnescapeQuotes(e).value) == e
    decreases |e|
  {
    if e != [] {
      if e[0] == '"' {
        EscapeUnescape(e[2..]);
        var s := UnescapeQuotes(e).value;
        assert s[1..] == UnescapeQuotes(e[2..]).value;
        assert e == "\"\"" + e[2..];
      } else {
        EscapeUnescape(e[1..]);
        var s := UnescapeQuotes(e).value;
        assert s[1..] == UnescapeQuotes(e[1..]).value;
        assert e == [e[0]] + e[1..];
      }
    }
  }

  /** A quoted field always reads back as the original text, whatever quotes, commas or line breaks it holds. */
  lemma QuoteFieldRoundTrip(s: string)
    ensures ParseQuotedField(QuoteField(s)) == Some(s)
  {
    var f := QuoteField(s);
    assert f[1..|f| - 1] == EscapeQuotes(s);
    UnescapeEscape(s);
  }

  /** Doubling quotes adds no character other than quotes. */
  lemma {:induction false} EscapeAddsOnlyQuotes(s: string, c: char)
    requires c != '"' && c !in s
    ensures c !in EscapeQuotes(s)
    decreases |s|
  {
    if s != [] {
      assert c !in s[1..] by {
        assert forall d :: d in s[1..] ==> d in s;
      }
      EscapeAddsOnlyQuotes(s[1..], c);
    }
  }

  /**
   * A line made of a plain prefix and a quoted last field: it holds no line
   * break when neither part does, and the last field reads back exactly.
   */
  lemma QuotedTail(prefix: string, last: string)
    requires '\n' !in prefix && '\n' !in last
    ensures '\n' !in prefix + QuoteField(last)
    ensures (prefix + QuoteField(last))[..|prefix|] == prefix
    ensures ParseQuotedField((prefix + QuoteField(last))[|prefix|..]) == Some(last)
  {
    EscapeAddsOnlyQuotes(last, '\n');
    var line := prefix + QuoteField(last);
    assert line[|prefix|..] == QuoteField(last);
    QuoteFieldRoundTrip(last);
  }

  // ---------------------------------------------------------------------------
  // Decimal numbers

  function DigitChar(d: nat): (c: char)
    requires d < 10
    ensures '0' <= c <= '9'
  {
    ('0' as int + d) as char
  }

  predicate IsDigit(c: char) {
    '0' <= c <= '9'
  }

  function DigitValue(c: char): nat
    requires IsDigit(c)
  {
    c as int - '0' as int
  }

  /** The value of a run of decimal digits, read left to right. */
  function DigitsValue(ds: string): nat
    requires forall i :: 0 <= i < |ds| ==> IsDigit(ds[i])
  {
    if ds == [] then 0 else DigitsValue(ds[..|ds| - 1]) * 10 + DigitValue(ds[|ds| - 1])
  }

  /** The decimal digits of `n`, as `String(n)` prints a non-negative integer. */
  function NatToString(n: nat): (r: string)
    ensures |r| >= 1
    ensures forall i :: 0 <= i < |r| ==> IsDigit(r[i])
    decreases n
  {
    if n < 10 then [DigitChar(n)] else NatToString(n / 10) + [DigitChar(n % 10)]
  }

  /** `String(n)` for an integer. */
  function IntToString(n: int): string {
    if n < 0 then "-" + NatToString(-n) else NatToString(n)
  }

  lemma {:induction false} NatToStringValue(n: nat)
    ensures DigitsValue(NatToString(n)) == n
    decreases n
  {
    var r := NatToString(n);
    if n >= 10 {
      NatToStringValue(n / 10);
      assert r[..|r| - 1] == NatToString(n / 10);
    }
  }

  /** Length of the longest prefix of `s` made of decimal digits. */
  function DigitRun(s: string): (k: nat)
    ensures k <= |s|
    ensures forall i :: 0 <= i < k ==> IsDigit(s[i])
    ensures k < |s| ==> !IsDigit(s[k])
  {
    if s == [] || !IsDigit(s[0]) then 0 else 1 + DigitRun(s[1..])
  }

  /** A hexadecimal digit: `0-9`, `a-f` or `A-F`. */
  predicate IsHexDigit(c: char) {
    IsDigit(c) || ('a' <= c <= 'f') || ('A' <= c <= 'F')
  }

  function HexDigitValue(c: char): (v: nat)
    requires IsHexDigit(c)
    ensures v < 16
  {
    if IsDigit(c) then DigitValue(c)
    else if 'a' <= c <= 'f' then c as int - 'a' as int + 10
    else c as int - 'A' as int + 10
  }

  /** The value of a run of hexadecimal digits, read left to right. */
  function HexValue(ds: string): nat
    requires forall i :: 0 <= i < |ds| ==> IsHexDigit(ds[i])
  {
    if ds == [] then 0 else HexValue(ds[..|ds| - 1]) * 16 + HexDigitValue(ds[|ds| - 1])
  }

  /** Length of the longest prefix of `s` made of hexadecimal digits. */
  function HexRun(s: string): (k: nat)
    ensures k <= |s|
    ensures forall i :: 0 <= i < k ==> IsHexDigit(s[i])
    ensures k < |s| ==> !IsHexDigit(s[k])
  {
    if s == [] || !IsHexDigit(s[0]) then 0 else 1 + HexRun(s[1..])
  }

  /** `0x` or `0X`: the prefix that makes `parseInt` without a radix read base 16. */
  predicate HexPrefixed(s: string) {
    |s| >= 2 && s[0] == '0' && (s[1] == 'x' || s[1] == 'X')
  }

  /**
   * The digits after the sign: `0x`/`0X` and the longest run of hexadecimal
   * digits, or else the longest run of decimal digits; None when that run
   * is empty.
   */
  function ParseDigits(body: string): (r: Option<nat>)
    ensures |body| > 0 && IsDigit(body[0]) && !HexPrefixed(body) ==> r.Some?
    ensures (forall i :: 0 <= i < |body| ==> !IsDigit(body[i])) ==> r.None?
  {
    if HexPrefixed(body) then
      var digits := body[2..];
      var k := HexRun(digits);
      if k == 0 then None else Some(HexValue(digits[..k]))
    else
      var k := DigitRun(body);
      if k == 0 then None else Some(DigitsValue(body[..k]))
  }

  /**
   * `parseInt(s)` without a radix, on a trimmed string: an optional sign,
   * then the digits `ParseDigits` reads. None stands for NaN. A digit right
   * at the start always parses unless it opens a hexadecimal prefix; a
   * string with no decimal digit never does.
   */
  function ParseInt(s: string): (r: Option<int>)
    ensures |s| > 0 && IsDigit(s[0]) && !HexPrefixed(s) ==> r.Some? && r.value >= 0
    ensures r.Some? && !(|s| > 0 && s[0] == '-') ==> r.value >= 0
    ensures r.Some? && |s| > 0 && s[0] == '-' ==> r.value <= 0
    ensures (forall i :: 0 <= i < |s| ==> !IsDigit(s[i])) ==> r.None?
  {
    var neg := |s| > 0 && s[0] == '-';
    var body := if |s| > 0 && (s[0] == '-' || s[0] == '+') then s[1..] else s;
    match ParseDigits(body)
    case None => None
    case Some(v) => Some(if neg then -(v as int) else v as int)
  }

  lemma {:induction false} HexRunAll(s: string)
    requires forall i :: 0 <= i < |s| ==> IsHexDigit(s[i])
    ensures HexRun(s) == |s|
    decreases |s|
  {
    if s != [] {
      HexRunAll(s[1..]);
    }
  }

  lemma HexDigitsRead(ds: string)
    requires |ds| > 0 && forall i :: 0 <= i < |ds| ==> IsHexDigit(ds[i])
    ensures ParseDigits("0x" + ds) == Some(HexValue(ds))
  {
    HexRunAll(ds);
    assert ds[..|ds|] == ds;
    assert ("0x" + ds)[2..] == ds;
  }

  /** A `0x` prefix followed by hexadecimal digits reads in base 16, with or without a minus sign. */
  lemma HexPrefixReadsHex(ds: string)
    requires |ds| > 0 && forall i :: 0 <= i < |ds| ==> IsHexDigit(ds[i])
    ensures ParseInt("0x" + ds) == Some(HexValue(ds) as int)
    ensures ParseInt("-0x" + ds) == Some(-(HexValue(ds) as int))
  {
    HexUnsigned(ds);
    HexNegative(ds);
  }

  lemma HexUnsigned(ds: string)
    requires |ds| > 0 && forall i :: 0 <= i < |ds| ==> IsHexDigit(ds[i])
    ensures ParseInt("0x" + ds) == Some(HexValue(ds) as int)
  {
    HexDigitsRead(ds);
    assert ("0x" + ds)[0] == '0';
  }

  lemma HexNegative(ds: string)
    requires |ds| > 0 && forall i :: 0 <= i < |ds| ==> IsHexDigit(ds[i])
    ensures ParseInt("-0x" + ds) == Some(-(HexValue(ds) as int))
  {
    MinusHexDigits(ds);
    MinusBeforePrefix(ds);
  }

  lemma MinusHexDigits(ds: string)
    requires |ds| > 0 && forall i :: 0 <= i < |ds| ==> IsHexDigit(ds[i])
    ensures ParseInt("-" + ("0x" + ds)) == Some(-(HexValue(ds) as int))
  {
    var pos := "0x" + ds;
    HexDigitsRead(ds);
    assert pos[0] == '0';
    NegatedValue(pos, HexValue(ds));
  }

  lemma NegatedValue(body: string, v: nat)
    requires |body| > 0 && body[0] != '-' && body[0] != '+' && ParseDigits(body) == Some(v)
    ensures ParseInt("-" + body) == Some(-(v as int))
  {
    NegatedParse(body);
  }

  lemma MinusBeforePrefix(ds: string)
    ensures ParseInt("-0x" + ds) == ParseInt("-" + ("0x" + ds))
  {
    assert "-0x" + ds == "-" + ("0x" + ds) by {
      assert "-0x" == "-" + "0x";
    }
  }

  /** A minus sign in front of unsigned digits negates what they read. */
  lemma NegatedParse(body: string)
    requires |body| > 0 && body[0] != '-' && body[0] != '+'
    ensures ParseDigits(body).None? ==> ParseInt("-" + body).None?
    ensures ParseDigits(body).Some? ==> ParseInt("-" + body) == Some(-(ParseDigits(body).value as int))
  {
    var s := "-" + body;
    assert s[0] == '-' && s[1..] == body;
  }

  lemma {:induction false} DigitRunAll(s: string)
    requires forall i :: 0 <= i < |s| ==> IsDigit(s[i])
    ensures DigitRun(s) == |s|
    decreases |s|
  {
    if s != [] {
      DigitRunAll(s[1..]);
    }
  }

  /** Printing an integer and parsing it back is the identity. */
  lemma ParseIntRoundTrip(n: int)
    ensures ParseInt(IntToString(n)) == Some(n)
  {
    var digits := if n < 0 then NatToString(-n) else NatToString(n);
    DigitRunAll(digits);
    NatToStringValue(if n < 0 then -n else n);
    var s := IntToString(n);
    assert !HexPrefixed(digits) by {
      assert |digits| >= 2 ==> IsDigit(digits[1]);
    }
    assert digits[..|digits|] == digits;
    assert ParseDigits(digits) == Some(if n < 0 then -n else n);
    if n < 0 {
      assert s[1..] == digits;
    } else {
      assert s[0] != '-' && s[0] != '+';
    }
  }

  /** `(cents / 100).toFixed(2)` for an amount held in integer cents. */
  function Fixed2(cents: int): string {
    var a := if cents < 0 then -cents else cents;
    var frac := a % 100;
    (if cents < 0 then "-" else "") + NatToString(a / 100) + "." + [DigitChar(frac / 10), DigitChar(frac % 10)]
  }
}

=== FILE: wrappers.dfy ===
/** Optional values: the model's stand-in for JavaScript's `undefined` / `null`. */
module Wrappers {

  datatype Option<+T> = None | Some(value: T) {

    /** Returns the value or, for None, the given default (the `x || d` idiom). */
    function GetOr(default: T): T {
      match this
      case Some(v) => v
      case None => default
    }
  }

  /** An operation that either yields a value or is refused with the message the page shows. */
  datatype Result<+T> = Success(value: T) | Failure(error: string)
}
